=== FILE: README.md ===
# Hotel management and guest booking: a Dafny model

This project models the core of a hotel management web application in Dafny:

- **Guest booking.** Guests pick an available room on the public booking page, then go through a three-step wizard:
  - guest details;
  - terms and cancellation policy;
  - card payment.
  The paid booking is then saved.
- **In-memory stores.** The rooms, bookings, tasks, staff, guests, profiles and invoices live in in-memory stores. Each store has its own service with `getById`, `create`, `update` and `delete`.
- **Analytics.** The analytics service derives its key figures from the bookings and rooms: occupancy, RevPAR, ADR, revenue, the revenue breakdown, booking sources, room-type performance and the date labels of its charts.
- **Management pages.** The Billing, Bookings, Rooms, Staff, Guests, Dashboard and Profile pages have status filters and tab counts, searches, quick actions and summary figures. Each page also handles updating its own list and the store together.

## How things are modelled

- **Stores.** A store is a sequence of `Rec(id, body)` records (module `Store`). A service call takes the store and returns its result and the new store, so every mutation is a pure function.
  - A thrown "… with ID … not found" error becomes `Err(NotFound(entity, id))`.
  - `UniqueIds` is the invariant the services keep.
- **Failures.** A page handler's `try`/`catch` becomes a branch on that result. A failure that the model cannot see, such as a store that throws for reasons of its own, becomes a boolean parameter.
- **Time.** Timestamps are integers of milliseconds. The current time, the current month and the local time-zone offset are parameters. A local calendar day is `(t + offset) / 86400000`.
- **Money.** Amounts are whole dollars. `Math.round(a / b)` is `Arith.RoundDiv`, which is characterised by `b*(2r-1) <= 2a < b*(2r+1)`; the predicate `Arith.Rounds(a, b, r)` names that inequality. The invoice items are fractions of a total, so they are `real`.
- **Other inputs.** The card gateway's reply is a parameter of the payment step.
- **The wizard as a whole.** The wizard is a state machine: `GuestBookingForm.Dispatch` takes one user event. The lemmas about `Run` hold for every sequence of events from the start.

## Model

| member | source | states |
|---|---|---|
| Store.MaxId | src/services/api/bookingsService.js:20 | the largest Id of a non-empty store: no stored Id exceeds it and some record carries it |
| Store.IndexOf | src/services/api/bookingsService.js:33 | `findIndex`: the first position holding the Id; None exactly when no record has it |
| Store.GetById | src/services/api/roomsService.js:9-16 | found exactly when some record has the Id, and then it is a stored record with that Id (the only one under unique Ids); otherwise the "not found" error for that entity and Id |
| Store.Create | src/services/api/roomsService.js:18-24 | the new record gets the Id one above the largest stored Id, so above every stored one; it keeps the caller's fields, is appended last, and keeps the Ids unique |
| Store.NextIdIsMaxPlusOne | src/services/api/bookingsService.js:20 | an Id is one more than the largest stored Id exactly when it is above every stored Id and one less than it is stored, the form in which each service's create states its new Id |
| Store.Update | src/services/api/roomsService.js:26-34 | fails exactly for an unknown Id; otherwise only the first position with the Id is replaced by the caller's fields under that Id, and the length and Id uniqueness are kept |
| Store.Delete | src/services/api/roomsService.js:36-44 | fails exactly for an unknown Id; otherwise one record with the Id is spliced out and every other record stays, in order; under unique Ids the Id is gone afterwards |
| Store.RemoveAt | src/services/api/bookingsService.js:51 | splicing out one position shifts the later records down by one, keeps every other record and keeps Ids unique |
| BookingsService.GetById | src/services/api/bookingsService.js:9-16 | found iff the Id is stored; otherwise "Booking with ID … not found" |
| BookingsService.Create | src/services/api/bookingsService.js:18-29 | the Id one above the largest stored Id; `createdAt` is the caller's when given, else now; `updatedAt` is now; every other field is copied; the record is appended |
| BookingsService.Update | src/services/api/bookingsService.js:31-43 | the whole record is replaced (no merge) by the caller's fields with the Id forced and `updatedAt` now; every other record is unchanged; unknown Id is an error |
| BookingsService.Delete | src/services/api/bookingsService.js:45-53 | exactly the record with the Id is removed; unknown Id is an error |
| RoomsService.GetById | src/services/api/roomsService.js:9-16 | found iff the Id is stored; otherwise "Room with ID … not found" |
| RoomsService.Create | src/services/api/roomsService.js:18-24 | the caller's fields under the Id one above the largest stored Id, appended; Ids stay unique |
| RoomsService.Update | src/services/api/roomsService.js:26-34 | whole-record replacement with the Id forced; other records unchanged; unknown Id is an error |
| RoomsService.Delete | src/services/api/roomsService.js:36-44 | exactly the record with the Id is removed; unknown Id is an error |
| TasksService.GetById | src/services/api/tasksService.js:9-16 | found iff the Id is stored; otherwise "Task with ID … not found" |
| TasksService.Create | src/services/api/tasksService.js:18-24 | the caller's fields under the Id one above the largest stored Id, appended; Ids stay unique |
| TasksService.Update | src/services/api/tasksService.js:26-34 | whole-record replacement with the Id forced; other records unchanged; unknown Id is an error |
| TasksService.Delete | src/services/api/tasksService.js:36-44 | exactly the record with the Id is removed; unknown Id is an error |
| StaffService.GetById | src/services/api/staffService.js:9-16 | found iff the Id is stored; otherwise "Staff member with ID … not found" |
| StaffService.Create | src/services/api/staffService.js:18-24 | the caller's fields under the Id one above the largest stored Id, appended; Ids stay unique |
| StaffService.Update | src/services/api/staffService.js:26-34 | whole-record replacement with the Id forced; other records unchanged; unknown Id is an error |
| StaffService.Delete | src/services/api/staffService.js:36-44 | exactly the record with the Id is removed; unknown Id is an error |
| GuestsService.GetById | src/services/api/guestsService.js:9-16 | found iff the Id is stored; otherwise "Guest with ID … not found" |
| GuestsService.Create | src/services/api/guestsService.js:18-28 | the Id one above the largest stored Id; `preferences` empty, `vipStatus` false and `stayHistory` empty whatever the caller sent; name, e-mail, phone and address copied; appended |
| GuestsService.Update | src/services/api/guestsService.js:68-76 | whole-record replacement with the Id forced; other records unchanged; unknown Id is an error |
| GuestsService.Delete | src/services/api/guestsService.js:78-86 | exactly the record with the Id is removed; unknown Id is an error |
| ProfileService.RolePermissions | src/services/api/profileService.js:96-98 | a role has permissions exactly when it is in the role hierarchy, and no permission is listed twice |
| ProfileService.TableMatchesHierarchy | src/services/api/profileService.js:81-94 | the roles of the permission table are exactly the five roles of the hierarchy, each listed once |
| ProfileService.HierarchyNotInclusive | src/services/api/profileService.js:83-84 | the hierarchy is not an inclusion order: a MANAGER may manage staff and an ADMIN may not |
| ProfileService.GetById | src/services/api/profileService.js:9-16 | found iff the Id is stored; otherwise "Profile with ID … not found" |
| ProfileService.CurrentProfile | src/services/api/profileService.js:18-22 | a profile exactly when the store is non-empty; it is the first stored profile, and `getById` finds the same record under unique Ids |
| ProfileService.GetByRole | src/services/api/profileService.js:24-27 | exactly the stored profiles with that role, and only those |
| ProfileService.GetByRoleInOrder | src/services/api/profileService.js:24-27 | the selection keeps stored order and multiplicity: it distributes over concatenation, and a single profile is kept exactly when it has the role |
| ProfileService.Create | src/services/api/profileService.js:29-41 | the Id one above the largest stored Id; `joinDate` now, status "Active", the permissions of the given role; other fields copied; appended |
| ProfileService.MergeFullPatch | src/services/api/profileService.js:56 | spreading a patch that carries every field over any profile gives back the patched profile |
| ProfileService.Update | src/services/api/profileService.js:43-58 | unknown Id is an error; otherwise the stored record at the Id becomes the stored profile with every supplied field taken from the patch, and a truthy role in the patch brings that role's permissions with it; Id and uniqueness kept |
| ProfileService.Delete | src/services/api/profileService.js:60-68 | exactly the record with the Id is removed; unknown Id is an error |
| ProfileService.UpdatePassword | src/services/api/profileService.js:70-79 | true for a known Id and the not-found error otherwise; nothing is stored |
| BillingService.InvoiceNumberRoundTrip | src/services/api/billingService.js:86 | the number is "INV-2024-" and at least three digits that read back as the Id |
| BillingService.InvoiceNumbersDistinct | src/services/api/billingService.js:86 | distinct non-negative Ids get distinct invoice numbers |
| BillingService.Items | src/services/api/billingService.js:89-91 | three items that add up exactly to the booking total, each between 0 and the total for a non-negative total |
| BillingService.GetInvoiceById | src/services/api/billingService.js:73-80 | found iff the Id is stored; otherwise "Invoice with ID … not found" |
| BillingService.GenerateInvoice | src/services/api/billingService.js:82-111 | a Pending, unsettled invoice with the Id one above the largest stored Id, its matching invoice number, the booking's guest, room, total and dates and the three items; appended, Ids unique |
| BillingService.GeneratedItemsSumToTotal | src/services/api/billingService.js:89-107 | the items of any generated invoice add up to its total |
| BillingService.UnknownMethodIsCreditCard | src/services/api/billingService.js:129 | a method name not in the table is charged as a credit card |
| BillingService.ProcessingFee | src/services/api/billingService.js:130 | the fee is the amount times the method's rate rounded to the nearest unit, and lies between 0 and the amount |
| BillingService.ProcessPayment | src/services/api/billingService.js:113-142 | unknown Id is an error; otherwise only that invoice changes: it becomes Paid with the method, the intent Id (None when empty), the date, the fee, and a net amount that adds back to the paid amount |
| BillingService.SendInvoice | src/services/api/billingService.js:144-158 | a successful, sent receipt stamped now for a known Id, the not-found error otherwise |
| Analytics.OccupancyRate | src/services/api/analyticsService.js:84-89 | 73 when either list is empty; otherwise the rounded percentage of Occupied rooms, between 0 and 100 |
| Analytics.RevPAR | src/services/api/analyticsService.js:91-99 | 186 when either list is empty; otherwise the non-cancelled revenue per room, rounded |
| Analytics.ADR | src/services/api/analyticsService.js:101-109 | 255 when every booking is cancelled (or there are none); otherwise the non-cancelled revenue per non-cancelled booking, rounded |
| Analytics.TotalRevenue | src/services/api/analyticsService.js:111-117 | 125800 with no bookings; otherwise, added to the cancelled revenue, it gives the revenue of all bookings |
| Analytics.RevenueBreakdown | src/services/api/analyticsService.js:119-132 | the fixed mock list with no bookings; otherwise one figure per category of the non-cancelled bookings (a booking without one counts as 'Rooms'), each category once and in order of first appearance, each figure the revenue of that category's bookings, and the figures together make the total revenue |
| Analytics.BreakdownByCategory | src/services/api/analyticsService.js:123-131 | the grouped revenue lists each category of the paid bookings once, in order of first appearance, with the revenue of exactly that category's bookings |
| Analytics.BookingSources | src/services/api/analyticsService.js:134-152 | mock chart with no bookings; otherwise each source present appears once, in order of first appearance, only those appear, each count is its number of bookings, and the counts add up to the number of bookings |
| Analytics.CountsAreSizes | src/services/api/analyticsService.js:142-146 | a count by key holds, for each key, the number of elements with that key, and exactly the keys that occur |
| Analytics.TypeStats | src/services/api/analyticsService.js:176-180 | one row per grouped type with its room count and the rounded occupied percentage |
| Analytics.RoomTypePerformance | src/services/api/analyticsService.js:154-181 | mock rows with no rooms; otherwise one row per occurring type, each once and in order of first appearance, with its room count and a utilization that is the rounded percentage of that type's rooms that are Occupied, between 0 and 100 |
| Analytics.OccupiedAtMostTotal | src/services/api/analyticsService.js:164-174 | for each type the occupied count is between none and all of its rooms |
| Analytics.OccupiedSum | src/services/api/analyticsService.js:171-173 | counting 1 per occupied room and 0 otherwise gives the number of occupied rooms |
| Analytics.RoomTypeTotalsSumToRooms | src/services/api/analyticsService.js:164-180 | the room counts of the table add up to the number of rooms |
| Analytics.DateLabels | src/services/api/analyticsService.js:268-287 | no labels when the range does not parse; otherwise `days` labels (none if not positive), from `days - 1` days ago down to today, in the style for that range |
| Analytics.LabelsFor | src/services/api/analyticsService.js:273-284 | the counting-down loop yields one label per day in order |
| Tally.AddTo | src/services/api/analyticsService.js:127 | adding to a key keeps existing keys in place and puts a new key last; only that key's value grows, by the weight |
| Tally.Group | src/services/api/analyticsService.js:125-129 | grouping gives distinct keys whose values add up to the total weight |
| Tally.GroupLookup | src/services/api/analyticsService.js:142-146 | the value under a key is the weight of exactly the elements carrying it |
| Tally.GroupKeys | src/services/api/analyticsService.js:149 | a key is present exactly when some element carries it |
| Tally.GroupEntries | src/services/api/analyticsService.js:125-129 | each entry of a grouping holds the total weight of exactly the elements carrying its key |
| Tally.GroupKeysFirstSeen | src/services/api/analyticsService.js:125-129 | the keys come out in insertion order: of two listed keys, the earlier is carried by an element that comes before every element carrying the later |
| Text.ParseIntSkipsSpace | src/services/api/analyticsService.js:270 | `parseInt` ignores leading white space |
| Text.ParseIntOfDigits | src/components/organisms/PaymentForm.jsx:81 | a digit string parses to its decimal value |
| Text.Utf16Length | src/components/organisms/PaymentForm.jsx:70-71 | a string's `length` is between its number of characters and twice that, and equals the number of characters exactly when every character lies in the Basic Multilingual Plane |
| Text.Utf16LengthAppend | src/components/organisms/PaymentForm.jsx:70-71 | the `length` of a concatenation is the sum of the parts' lengths |
| GuestBookingForm.Nights | src/components/organisms/GuestBookingForm.jsx:110 | the number of started days between the two instants (may be zero or negative) |
| GuestBookingForm.NightsOfWholeDays | src/components/organisms/GuestBookingForm.jsx:110 | a stay of whole days lasts exactly that many nights |
| GuestBookingForm.StayTotal | src/components/organisms/GuestBookingForm.jsx:111 | 0 without a room, else nightly price times nights |
| GuestBookingForm.PriceOfWholeDays | src/components/organisms/GuestBookingForm.jsx:352-359 | for whole days, the total shown on the terms step is price times days plus the rounded 2.9% fee |
| GuestBookingForm.NoNightsGuard | src/components/organisms/GuestBookingForm.jsx:110-111 | nothing stops a check-out before check-in: the nights and total come out negative |
| GuestBookingForm.Start | src/components/organisms/GuestBookingForm.jsx:11-25 | step one, empty fields, nothing accepted, no draft, and the wizard invariant holds |
| GuestBookingForm.EmailOkIffPattern | src/components/organisms/GuestBookingForm.jsx:49-53 | the computed e-mail check accepts exactly the strings matching `^[^\s@]+@[^\s@]+\.[^\s@]+$` |
| GuestBookingForm.EmailOkIsTrimmed | src/components/organisms/GuestBookingForm.jsx:49-53 | an accepted address holds no white space, so trimming leaves it unchanged |
| GuestBookingForm.ChangeField | src/components/organisms/GuestBookingForm.jsx:27-32 | only the named field changes, to the typed value |
| GuestBookingForm.SubmitGuestInfo | src/components/organisms/GuestBookingForm.jsx:38-72 | advances exactly when the required fields are filled and the e-mail is valid (missing fields reported first); the new draft carries the guest, the stay's room, nights and total, Pending status, and nothing else changes |
| GuestBookingForm.ChangeTerms | src/components/organisms/GuestBookingForm.jsx:76-78 | only the named box changes; the method name is untouched |
| GuestBookingForm.ProceedToPayment | src/components/organisms/GuestBookingForm.jsx:80-90 | advances exactly when both boxes are ticked; terms are reported before the policy |
| GuestBookingForm.BackToStep | src/components/organisms/GuestBookingForm.jsx:106-108 | only the step changes |
| GuestBookingForm.CompletePayment | src/components/organisms/GuestBookingForm.jsx:92-104 | the draft confirmed, with the payment's Id, the consent's method name, "Completed" and the payment time |
| GuestBookingForm.Dispatch | src/components/organisms/GuestBookingForm.jsx:150-386 | the stay never changes; steps advance only past their checks; a refused event changes nothing; a charge happens only on the payment step with a draft and pays for that draft |
| GuestBookingForm.Pay | src/components/organisms/GuestBookingForm.jsx:92-104 | a successful charge is for the draft's total plus fee and completes the draft at the payment time |
| GuestBookingForm.DispatchKeepsInv | src/components/organisms/GuestBookingForm.jsx:38-108 | no event breaks the invariant: the method name stays empty, past the first step there is a draft of the current valid details, the payment step is reached only with both boxes ticked, and a draft always describes the stay |
| GuestBookingForm.PaidAsShown | src/components/organisms/GuestBookingForm.jsx:352-359 | a successful payment charges exactly the total shown on the terms step and confirms a booking of the stay's nights and total for valid guest details |
| GuestBookingForm.RunKeepsInv | src/components/organisms/GuestBookingForm.jsx:38-108 | every state reached by any sequence of events keeps the invariant and the stay |
| GuestBookingForm.ReachablePaymentCharges | src/components/organisms/GuestBookingForm.jsx:92-104 | whatever the guest did before, a successful payment charges the shown total, with an empty method name and valid details |
| PaymentForm.FormatCardNumberIsGroup4 | src/components/organisms/PaymentForm.jsx:47 | the card formatter gives the non-space characters in groups of four joined by single spaces |
| PaymentForm.Group4At | src/components/organisms/PaymentForm.jsx:47 | in the layout every fifth position is a space and the others are the characters in order |
| PaymentForm.FormatCardNumberRoundTrip | src/components/organisms/PaymentForm.jsx:47 | removing the spaces from a formatted number gives the input without its white space |
| PaymentForm.FormatCardNumberIdempotent | src/components/organisms/PaymentForm.jsx:47 | formatting a formatted number changes nothing |
| PaymentForm.FormatExpiry | src/components/organisms/PaymentForm.jsx:52 | at most five characters, a '/' exactly at position 2 and digits elsewhere, the first four digits of the input; with two or more digits typed the '/' is present (length digits kept plus one), with fewer the digits are returned as they are |
| PaymentForm.FormatExpiryIdempotent | src/components/organisms/PaymentForm.jsx:52 | formatting a formatted expiry changes nothing |
| PaymentForm.FormatCvv | src/components/organisms/PaymentForm.jsx:57 | the first (at most four) digits of the input |
| PaymentForm.FormatCvvIdempotent | src/components/organisms/PaymentForm.jsx:57 | formatting a formatted CVV changes nothing |
| PaymentForm.Change | src/components/organisms/PaymentForm.jsx:33-64 | only the named field changes, through its formatter for card number, expiry and CVV |
| PaymentForm.FailuresAscending | src/components/organisms/PaymentForm.jsx:66-112 | messages come out in the order the checks run |
| PaymentForm.Validate | src/components/organisms/PaymentForm.jsx:66-112 | each message is present exactly when its check fails (card length 13–19 in UTF-16 code units, expiry length 5, expired, CVV shorter than 3, blank name or address fields), in check order |
| PaymentForm.OneExpiryError | src/components/organisms/PaymentForm.jsx:76-86 | at most one expiry message is ever reported |
| PaymentForm.ExpiryParts | src/components/organisms/PaymentForm.jsx:79-81 | a well-formed MM/YY splits at the slash into two parts that parse as their digits |
| PaymentForm.ExpiredMonthOrder | src/components/organisms/PaymentForm.jsx:79-84 | a well-formed MM/YY is expired exactly when its month is not after the current month |
| PaymentForm.ProcessingFee | src/components/organisms/PaymentForm.jsx:128 | 2.9% of the total rounded to the nearest unit, between 0 and the total |
| PaymentForm.Submit | src/components/organisms/PaymentForm.jsx:114-204 | rejected with exactly the validation messages when any; paid exactly when valid, with a room, and the gateway succeeds with an intent; a request sent charges the total plus fee in cents with the space-free card number |
| PaymentForm.BuildRequest | src/components/organisms/PaymentForm.jsx:131-167 | the request is for the total plus fee in cents, in "usd", with the card number stripped of spaces |
| PaymentForm.Charge | src/components/organisms/PaymentForm.jsx:180-200 | paid exactly when the reply is ok, successful and carries an intent; the result's amount is total plus fee and matches the request |
| PaymentForm.FourDigitsGiveFullExpiry | src/components/organisms/PaymentForm.jsx:52 | four typed digits always pass the expiry length check |
| GuestBookingPage.AvailableRooms | src/components/pages/GuestBooking.jsx:33 | exactly the Available rooms, and only those |
| GuestBookingPage.AvailableRoomsInOrder | src/components/pages/GuestBooking.jsx:33 | the filter keeps store order (distributes over concatenation) |
| GuestBookingPage.FilteredRooms | src/components/pages/GuestBooking.jsx:90-92 | exactly the rooms whose capacity admits the party; none when the party size is not a number |
| GuestBookingPage.FilteredRoomsInOrder | src/components/pages/GuestBooking.jsx:90-92 | the capacity filter keeps order, and an unparsable party size empties the list |
| GuestBookingPage.SingleGuestSeesAll | src/components/pages/GuestBooking.jsx:90-92 | a party of one sees every room with a positive capacity |
| GuestBookingPage.CardsAgreeWithForm | src/components/pages/GuestBooking.jsx:289-290 | the room card's nights and price equal the booking form's for the same dates |
| GuestBookingPage.DefaultDates | src/components/pages/GuestBooking.jsx:45-50 | the page starts on today with a one-night stay |
| GuestBookingPage.GuestName | src/components/pages/GuestBooking.jsx:57 | first name, one space, last name |
| GuestBookingPage.ToRecord | src/components/pages/GuestBooking.jsx:56-74 | a record exactly when the booking has a room, carrying the guest, room, dates, nights, total, payment and status fields |
| GuestBookingPage.Open | src/components/pages/GuestBooking.jsx:27-50 | the available rooms, today's one-night stay, a party of one, nothing selected or confirmed |
| GuestBookingPage.CompleteBooking | src/components/pages/GuestBooking.jsx:53-88 | always confirms the booking and clears the selection; the confirmation carries the new record's Id exactly when the save works, and otherwise the store is unchanged |
| GuestBookingPage.SelectRoom | src/components/pages/GuestBooking.jsx:352 | the booking form opens for a room on offer and nothing else changes |
| StatusView.ByStatus | src/components/pages/Bookings.jsx:51 | "All" shows everything; any other filter shows exactly the items with that status |
| StatusView.ByStatusInOrder | src/components/pages/Rooms.jsx:51 | the status filter keeps list order |
| StatusView.CountsCover | src/components/pages/Bookings.jsx:52-59 | when every status is among distinct tab names, the tab counts add up to the "All" count |
| StatusView.CountsBounded | src/components/pages/Rooms.jsx:52-59 | with distinct names the tab counts add up to at most the "All" count |
| StatusView.ApplyTo | src/components/pages/Bookings.jsx:41 | every record with the Id is changed and every other one is kept, position by position |
| StatusView.Take | src/components/pages/Staff.jsx:193 | the first n elements, or all of them |
| StatusView.Counts | src/components/pages/Bookings.jsx:52-59 | "All" with the list length first, then each name with its count; the name counts add up to CountAll, so with distinct names to at most the "All" count, and to exactly it when the names cover every status that occurs |
| StatusView.NameCountsTotal | src/components/pages/Bookings.jsx:52-59 | the per-name entries add up to CountAll, the sum of the names' counts |
| StatusView.Without | src/components/pages/Dashboard.jsx:50 | exactly the records with another Id |
| StatusView.WithoutUnique | src/components/pages/Dashboard.jsx:50 | with unique Ids, dropping an Id removes exactly its one record and keeps the rest in order |
| BookingsPage.StatusCounts | src/components/pages/Bookings.jsx:52-59 | six entries: "All" with the total, then each tab with its count; the five tab counts add up to at most the total, and to exactly the total when every booking has a tab status |
| BookingsPage.TabsDistinct | src/components/pages/Bookings.jsx:52-59 | no status has two tabs |
| BookingsPage.TabsCoverAll | src/components/pages/Bookings.jsx:52-59 | when every booking has a tab status, the five tab counts add up to the "All" count |
| BookingsPage.UpdateStatus | src/components/pages/Bookings.jsx:37-46 | fails exactly when the store lacks the Id; otherwise the page's list and the store both change only the booking with that Id, to the new status (the store also stamps `updatedAt`) |
| BookingsPage.QuickActions | src/components/pages/Bookings.jsx:212-249 | "Checked In" only for Confirmed, "Checked Out" only for Checked In, "Cancelled" for anything not cancelled; each action is a tab status different from the current one |
| RoomsPage.StatusCounts | src/components/pages/Rooms.jsx:52-59 | six entries: "All" with the total, then each status with its count; the five counts add up to at most the total, and to exactly the total when every room has one of the five statuses |
| RoomsPage.ChangeStatus | src/components/pages/Rooms.jsx:37-46 | fails exactly when the store lacks the Id; otherwise only the room with that Id changes, to the new status, in the page and the store |
| RoomsPage.OptionsDistinct | src/components/pages/Rooms.jsx:142-146 | no status is offered twice |
| RoomsPage.SelectorKeepsCountsWhole | src/components/pages/Rooms.jsx:142-146 | changes made through the selector keep every status among the tabs, so the tab counts keep adding up to the "All" count |
| StaffPage.Pending | src/components/pages/Staff.jsx:61 | exactly the tasks not Completed |
| StaffPage.Done | src/components/pages/Staff.jsx:62 | exactly the Completed tasks |
| StaffPage.PendingAndDoneSplit | src/components/pages/Staff.jsx:61-62 | every task is in exactly one of the two lists (as multisets) |
| StaffPage.DoneShown | src/components/pages/Staff.jsx:193 | at most the first five completed tasks, all of them when there are at most five |
| StaffPage.CompleteTask | src/components/pages/Staff.jsx:44-55 | fails exactly when the store lacks the Id; otherwise the task with that Id becomes Completed in the page's list and the store, and nothing else changes |
| StaffPage.CompletingLeavesPending | src/components/pages/Staff.jsx:51 | completing a task takes exactly the tasks with its Id out of the pending list, in order |
| StaffPage.CompletedTaskLeavesPending | src/components/pages/Staff.jsx:44-62 | after a successful completion the task is no longer pending and no other pending task is lost |
| DashboardPage.Load | src/components/pages/Dashboard.jsx:22-34 | all rooms and bookings, and the first five pending tasks |
| DashboardPage.CompleteUrgent | src/components/pages/Dashboard.jsx:47-54 | known Id: the task leaves the urgent list (not refilled) and is stored Completed; unknown: the error is shown and the store is kept |
| DashboardPage.CompleteUrgentRemovesOne | src/components/pages/Dashboard.jsx:50 | with unique Ids, completing an urgent task removes exactly that one entry |
| DashboardPage.RoomFigures | src/components/pages/Dashboard.jsx:59-61 | the Available, Occupied and Maintenance counts, which add up to at most the number of rooms |
| DashboardPage.DailyRevenue | src/components/pages/Dashboard.jsx:89 | a fifth of the non-cancelled revenue, rounded to the nearest dollar |
| DashboardPage.TodayCheckIns | src/components/pages/Dashboard.jsx:62-65 | never more than the number of bookings |
| DashboardPage.TodayCheckInsCounts | src/components/pages/Dashboard.jsx:62-65 | a booking counts exactly when its check-in falls in the local day of now, and counts add over any split |
| BillingPage.Visible | src/components/pages/Billing.jsx:80-86 | taken from the page's invoices and no longer than them; which invoices, and in what order, is stated by BillingPage.VisibleIffShown and BillingPage.VisibleInOrder |
| BillingPage.VisibleIffShown | src/components/pages/Billing.jsx:80-86 | an invoice is listed exactly when it passes the status filter and the lower-cased term occurs in its guest name or number |
| BillingPage.VisibleInOrder | src/components/pages/Billing.jsx:80-86 | the list keeps the invoices' order and multiplicity: splitting the invoices splits the list the same way, and a single invoice is listed exactly when it passes both tests |
| BillingPage.NoFilterShowsAll | src/components/pages/Billing.jsx:80-86 | "All" with an empty search lists every invoice in order |
| BillingPage.StatusTotalIsSum | src/components/pages/Billing.jsx:88-90 | the conditional fold is the sum over the invoices with that status |
| BillingPage.AverageTransaction | src/components/pages/Billing.jsx:159 | 0 when nothing is Paid (0/0 falls back); otherwise the Paid total per Paid invoice, rounded |
| BillingPage.AverageWithinRange | src/components/pages/Billing.jsx:159 | when every Paid total is between 0 and m, so is the average |
| BillingPage.GenerateInvoice | src/components/pages/Billing.jsx:45-56 | an unknown booking changes nothing; otherwise the new Pending invoice for that booking is shown first and appended to the store |
| BillingPage.PaymentProcess | src/components/pages/Billing.jsx:58-66 | an unknown invoice changes nothing; otherwise the page keeps the store returned by the billing service's processPayment, and the invoice it settled, Paid and stored, replaces each invoice with that Id in the list |
| BillingPage.PayButton | src/components/pages/Billing.jsx:269-273 | only a Pending invoice has a pay button, and it pays the invoice's total |
| BillingPage.PayButtonChargesCardRate | src/components/pages/Billing.jsx:273 | the button's method "card" is charged the credit-card fee |
| BillingPage.SendInvoice | src/components/pages/Billing.jsx:68-75 | succeeds exactly for a stored invoice |
| GuestsPage.Open | src/components/pages/Guests.jsx:19-25 | the loaded guests, an empty search, the modal closed and a blank form |
| GuestsPage.Visible | src/components/pages/Guests.jsx:47-51 | taken from the guests and no longer than them; which guests, and in what order, is stated by GuestsPage.VisibleIffShown and GuestsPage.VisibleInOrder |
| GuestsPage.VisibleIffShown | src/components/pages/Guests.jsx:47-51 | a guest is listed exactly when the term occurs, ignoring case, in the full name or e-mail, or as typed in the phone |
| GuestsPage.VisibleInOrder | src/components/pages/Guests.jsx:47-51 | the list keeps the guests' order and multiplicity: splitting the guests splits the list the same way, and a single guest is listed exactly when it passes the search |
| GuestsPage.EmptySearchShowsAll | src/components/pages/Guests.jsx:47-51 | an empty search lists every guest in order |
| GuestsPage.EmptyListMeansSearch | src/components/pages/Guests.jsx:100-106 | a non-empty guest list shows up empty only under a search |
| GuestsPage.Panel | src/components/pages/Guests.jsx:100-106 | the empty panel appears exactly when nothing is listed; "No guests found" exactly when there are no guests |
| GuestsPage.PanelAction | src/components/pages/Guests.jsx:105-106 | "Add Guest" opens the modal; "Clear Search" clears the term and lists every guest again |
| GuestsPage.SpacesEnableAdd | src/components/pages/Guests.jsx:311 | a form of nothing but spaces enables "Add Guest" |
| GuestsPage.ToRecord | src/components/pages/Guests.jsx:246 | the record sent carries the form's five fields |
| GuestsPage.Submit | src/components/pages/Guests.jsx:243-253 | failure changes nothing; success appends the new guest with the form's fields and reset extras, reloads the list from the store, clears the form and closes the modal |
| ProfilePage.Load | src/components/pages/Profile.jsx:29-41 | profile and draft are both the current profile (none for an empty store), not editing |
| ProfilePage.Edit | src/components/pages/Profile.jsx:84 | only edit mode turns on |
| ProfilePage.Change | src/components/pages/Profile.jsx:47-49 | in edit mode only the typed field of the draft changes; the department is not editable for a GUEST; outside edit mode nothing changes |
| ProfilePage.Cancel | src/components/pages/Profile.jsx:66-69 | the draft goes back to the profile and edit mode ends |
| ProfilePage.Save | src/components/pages/Profile.jsx:51-63 | failure changes nothing; success shows the stored profile with the same Id and leaves edit mode |
| ProfilePage.SaveStoresDraft | src/components/pages/Profile.jsx:51-63 | the saved profile is the draft, except that a non-empty role brings its own permissions |

## Left out

- `getAll` of every service returns a copy of the store and is the identity here; the artificial delays are not modelled.
- `create` on an empty store computes `Math.max()` of nothing, which is `-Infinity`, so the new Id is `-Infinity`.
  - Store.Create, BookingsService.Create, RoomsService.Create, TasksService.Create, StaffService.Create, GuestsService.Create, ProfileService.Create, BillingService.GenerateInvoice, BillingPage.GenerateInvoice, GuestsPage.Submit and GuestBookingPage.CompleteBooking therefore require a non-empty store.
- BookingsPage.UpdateStatus: requires the Id to be in the page's list, since the handler is only reached from a listed booking. With an unlisted Id, the source would send `{ status }` alone.
- RoomsPage.ChangeStatus: requires the Id to be in the page's list, for the same reason.
- Amounts are whole numbers. A missing `totalAmount` counts as 0 in the analytics sums (`|| 0`). On the Billing and Dashboard pages a missing amount would make a sum `NaN`, which is not modelled.
- `Math.round` on exact ties: `RoundDiv` rounds halves up on exact rational values. Floating-point error in the quotient is not modelled.
- DashboardPage.DailyRevenue: rounds a fifth of the exact sum. The source adds up per-booking fifths in floating point before rounding.
- Time zones are a fixed offset; daylight-saving changes within a day are not modelled.
- `toLowerCase` is modelled for ASCII letters only.
- Plain JavaScript objects used as maps are modelled as lists of key and value in insertion order. Two ways in which a real object differs are left out, and the members below admit them.
- Tally.AddTo: `Object.keys`, `Object.values` and `Object.entries` list integer-like keys ("2", "101") first, in ascending numeric order, and the other keys after them in insertion order. For a new integer-like key, "a new key goes last" does not hold in the source.
- Tally.GroupKeysFirstSeen: first-appearance order is the source's listing order only when no key is integer-like.
- Tally.Group: keys named after `Object.prototype` properties (`constructor`, `toString`, `__proto__`, …) are not modelled. In the source such a key finds an inherited value instead of `undefined`, and a `__proto__` key is never listed.
- Analytics.RevenueBreakdown: figures are in first-appearance order of category, which differs from the source for integer-like category names; categories named after `Object.prototype` properties are not modelled.
- Analytics.BookingSources: the same two gaps, for source names.
- Analytics.RoomTypePerformance: the same two gaps, for room-type names.
- ProfileService.RolePermissions: a role named after an `Object.prototype` property (`constructor`, `toString`, …) finds an inherited function in the source rather than `[]`; the model gives `[]` for every name outside the table. ProfileService.Create and ProfileService.Update inherit this.
- BillingService.UnknownMethodIsCreditCard: a method named after an `Object.prototype` property finds an inherited value in the source, whose `processingFee` is `undefined`, so the fee is `NaN`; the model charges the credit-card rate for every name outside the table. BillingService.ProcessPayment inherits this.
- The guests service's welcome e-mail is a call to an outside mail service whose failure is only logged; it never affects what `create` returns, and it is left out.
- The text of `toLocaleDateString` is not modelled:
  - the invoice's `stayDates` keeps the two dates;
  - a date label keeps its day offset and style.
- Analytics.DateLabels: `parseInt` is modelled for decimal numbers with optional leading white space and a sign. The `0x` prefix is not modelled.
- `_calculateAverageCommission`, `getAnalytics`, `_getMockAnalytics`, `getFinancialMetrics`, `getGuestSatisfactionMetrics`, and the billing service's payment methods and expenses are left out. They return mock constants or data outside the core.
- PaymentForm.Submit: leaves out the `isProcessing` flag, which only disables the button. Also left out are the charge's free-text description and billing details and the HTTP transport. The gateway's reply is a parameter.
- PaymentForm.FormatCardNumberIsGroup4, PaymentForm.Group4At, PaymentForm.FormatCardNumberRoundTrip, PaymentForm.FormatCardNumberIdempotent: the card formatter's `/(.{4})/g` (PaymentForm.jsx:47) has no `u` flag, so it groups UTF-16 code units. A character outside the Basic Multilingual Plane is two units there, and a space can fall between its two halves. The model groups characters, and a lone half cannot be written as a Dafny character, so these four members agree with the source only when every character of the number is in the Basic Multilingual Plane. The length check of PaymentForm.Validate does count code units (Text.Utf16Length), and the expiry and CVV fields keep only ASCII digits.
- The booking form's `nights` and `totalAmount` props are ignored by the form, which recomputes both; the model does the same.
- HTML `required`, `min` and `maxLength` attributes are browser checks and are not modelled; only the handlers' own checks are. The `maxLength` limits are 19 for the card number, 5 for the expiry and 4 for the CVV (PaymentForm.jsx:254, :265, :274), so a typed card number keeps at most 16 digits and PaymentForm.Validate's "more than 19 digits" case cannot be reached by typing.
- The Bookings and Rooms pages keep the previously selected record in the detail panel after an update. That stale copy is not modelled.
- Staff.jsx's staff directory tab and detail panel only display data and are left out.
- ProfilePage.Change: when the profile could not be loaded, the source's draft is an empty object. The model has no draft then, so the change does nothing.
- Toast notifications and console logging are left out.
- BillingPage.SendInvoice: the page only reports the outcome, so the model returns whether the send succeeded.
- Nothing in the code rejects a zero or negative number of nights. Only the browser's `min` on the date inputs does (GuestBooking.jsx:236, :243), which is not modelled; GuestBookingForm.NoNightsGuard exhibits a negative stay the form accepts.
- GuestBookingForm.StayTotal: dates are integer instants, so an emptied check-in or check-out input is not modelled. In the source `new Date('')` is invalid, `nights` becomes `NaN`, and `|| 0` turns the total into 0 (GuestBookingForm.jsx:110-111), so the fee is 0 and the wizard charges 0 cents.
- GuestsPage.Submit: the "Add Guest" button is disabled while a required field is empty (Guests.jsx:311). The model does not gate Submit on GuestsPage.AddEnabled, so it also covers forms the button would not submit.

=== FILE: analytics.dfy ===
/** The key-performance figures the analytics service derives from the
    bookings and rooms lists. Each has a fixed fallback figure for an empty
    input. Non-cancelled bookings count as revenue; a missing `totalAmount`
    counts as 0. */
module Analytics {
  import opened Wrappers
  import opened Store
  import opened Hotel
  import opened Arith
  import Seqs
  import Tally
  import Text

  /** `bookings.filter(b => b.status !== 'Cancelled')` */
  function NonCancelled(bookings: seq<Rec<Booking>>): seq<Rec<Booking>> {
    Seqs.Select(bookings, BookingStatus, "Cancelled", false)
  }

  /** `reduce((sum, b) => sum + (b.totalAmount || 0), 0)` */
  function Revenue(bookings: seq<Rec<Booking>>): int {
    Seqs.Sum(bookings, BookingAmount)
  }

  function OccupiedCount(rooms: seq<Rec<Room>>): nat {
    |Seqs.Select(rooms, RoomStatus, "Occupied", true)|
  }

  /** `_calculateOccupancyRate`: the percentage of rooms that are Occupied,
      rounded; 73 when either list is empty. */
  function OccupancyRate(bookings: seq<Rec<Booking>>, rooms: seq<Rec<Room>>): (r: int)
    ensures bookings == [] || rooms == [] ==> r == 73
    ensures bookings != [] && rooms != [] ==>
      && 0 <= r <= 100
      && |rooms| * (2 * r - 1) <= 200 * OccupiedCount(rooms) < |rooms| * (2 * r + 1)
  {
    if bookings == [] || rooms == [] then 73
    else
      var occupied := OccupiedCount(rooms);
      RoundDivBounds(100 * occupied, |rooms|, 100);
      RoundDiv(100 * occupied, |rooms|)
  }

  /** `_calculateRevPAR`: non-cancelled revenue per room, rounded; 186 when
      either list is empty. */
  function RevPAR(bookings: seq<Rec<Booking>>, rooms: seq<Rec<Room>>): (r: int)
    ensures bookings == [] || rooms == [] ==> r == 186
    ensures bookings != [] && rooms != [] ==>
      |rooms| * (2 * r - 1) <= 2 * Revenue(NonCancelled(bookings)) < |rooms| * (2 * r + 1)
  {
    if bookings == [] || rooms == [] then 186
    else RoundDiv(Revenue(NonCancelled(bookings)), |rooms|)
  }

  /** `_calculateADR`: non-cancelled revenue per non-cancelled booking,
      rounded; 255 when there is no such booking. */
  function ADR(bookings: seq<Rec<Booking>>): (r: int)
    ensures (forall k :: 0 <= k < |bookings| ==> bookings[k].body.status == "Cancelled") ==> r == 255
    ensures var paid := NonCancelled(bookings);
      paid != [] ==> |paid| * (2 * r - 1) <= 2 * Revenue(paid) < |paid| * (2 * r + 1)
  {
    var paid := NonCancelled(bookings);
    if bookings == [] then 255
    else if paid == [] then 255
    else RoundDiv(Revenue(paid), |paid|)
  }

  /** `_calculateTotalRevenue`: the non-cancelled revenue; 125800 when there
      are no bookings. With the cancelled revenue it makes up the revenue of
      all bookings. */
  function TotalRevenue(bookings: seq<Rec<Booking>>): (r: int)
    ensures bookings == [] ==> r == 125800
    ensures bookings != [] ==>
      r + Revenue(Seqs.Select(bookings, BookingStatus, "Cancelled", true)) == Revenue(bookings)
  {
    if bookings == [] then 125800
    else
      Seqs.SumSelectPartition(bookings, BookingStatus, "Cancelled", BookingAmount);
      Revenue(NonCancelled(bookings))
  }

  /** `booking.revenueCategory || 'Rooms'` */
  function Category(b: Rec<Booking>): string {
    match b.body.revenueCategory
    case Some(c) => if c != "" then c else "Rooms"
    case None => "Rooms"
  }

  /** `booking.bookingSource || 'Direct'` */
  function Source(b: Rec<Booking>): string {
    match b.body.bookingSource
    case Some(s) => if s != "" then s else "Direct"
    case None => "Direct"
  }

  function One<T>(x: T): int { 1 }

  /** `_calculateRevenueBreakdown`: the non-cancelled revenue per category
      (a booking without one counts as 'Rooms'), one figure per category in
      order of first appearance. The figures add up to the total revenue. */
  function RevenueBreakdown(bookings: seq<Rec<Booking>>): (r: seq<int>)
    ensures bookings == [] ==> r == [65800, 32400, 15200, 8300, 4100]
    ensures bookings != [] ==> Tally.SumList(r) == TotalRevenue(bookings)
    ensures bookings != [] ==>
      var paid := NonCancelled(bookings);
      exists ks: seq<string> ::
        && Seqs.Distinct(ks) && |ks| == |r|
        && Tally.InFirstSeenOrder(paid, Category, ks)
        && (forall c :: c in ks <==> Tally.Carries(paid, Category, c))
        && (forall i :: 0 <= i < |r| ==> r[i] == Revenue(Seqs.Select(paid, Category, ks[i], true)))
  {
    if bookings == [] then [65800, 32400, 15200, 8300, 4100]
    else
      var paid := NonCancelled(bookings);
      var g := Tally.Group(paid, Category, BookingAmount);
      BreakdownByCategory(paid, g);
      Tally.Values(g)
  }

  /** The grouped revenue names each category carried by a paid booking
      once, in order of first appearance, with that category's revenue. */
  lemma BreakdownByCategory(paid: seq<Rec<Booking>>, g: Tally.Counts)
    requires g == Tally.Group(paid, Category, BookingAmount)
    ensures var ks := Tally.Keys(g); var r := Tally.Values(g);
      && Seqs.Distinct(ks) && |ks| == |r|
      && Tally.InFirstSeenOrder(paid, Category, ks)
      && (forall c :: c in ks <==> Tally.Carries(paid, Category, c))
      && (forall i :: 0 <= i < |r| ==> r[i] == Revenue(Seqs.Select(paid, Category, ks[i], true)))
  {
    Tally.GroupEntries(paid, Category, BookingAmount);
    Tally.GroupKeysFirstSeen(paid, Category, BookingAmount);
    forall c ensures c in Tally.Keys(g) <==> Tally.Carries(paid, Category, c) {
      Tally.GroupKeys(paid, Category, BookingAmount, c);
    }
  }

  /** The chart data of booking sources: parallel labels and counts. */
  datatype SourceChart = SourceChart(labels: seq<string>, data: seq<int>)

  /** `_calculateBookingSources`: how many bookings, cancelled ones
      included, came from each source. Every source appears once, exactly
      the sources present appear, each count is the number of bookings from
      that source, and the counts add up to the number of bookings. */
  function BookingSources(bookings: seq<Rec<Booking>>): (r: SourceChart)
    ensures bookings == [] ==> r == SourceChart(["Direct Bookings", "Booking.com", "Expedia", "Agoda", "Other"], [45, 28, 18, 12, 7])
    ensures bookings != [] ==>
      && |r.labels| == |r.data|
      && Seqs.Distinct(r.labels)
      && Tally.InFirstSeenOrder(bookings, Source, r.labels)
      && (forall src :: src in r.labels <==> Tally.Carries(bookings, Source, src))
      && (forall i :: 0 <= i < |r.labels| ==> r.data[i] == |Seqs.Select(bookings, Source, r.labels[i], true)|)
      && Tally.SumList(r.data) == |bookings|
  {
    if bookings == [] then
      SourceChart(["Direct Bookings", "Booking.com", "Expedia", "Agoda", "Other"], [45, 28, 18, 12, 7])
    else
      var counts := Tally.Group(bookings, Source, One);
      CountsAreSizes(bookings, Source, counts);
      Tally.GroupKeysFirstSeen(bookings, Source, One);
      Seqs.SumOnes(bookings, One);
      SourceChart(Tally.Keys(counts), Tally.Values(counts))
  }

  /** In a count of elements by key, each entry holds the number of
      elements with its key and every key present is carried by some
      element. */
  lemma CountsAreSizes<T>(xs: seq<T>, key: T -> string, counts: Tally.Counts)
    requires counts == Tally.Group(xs, key, One)
    ensures forall k :: k in Tally.Keys(counts) <==> Tally.Carries(xs, key, k)
    ensures forall i :: 0 <= i < |counts| ==> counts[i].1 == |Seqs.Select(xs, key, counts[i].0, true)|
    ensures forall i :: 0 <= i < |counts| ==> counts[i].1 > 0
  {
    forall k ensures k in Tally.Keys(counts) <==> Tally.Carries(xs, key, k) {
      Tally.GroupKeys(xs, key, One, k);
    }
    forall i | 0 <= i < |counts|
      ensures counts[i].1 == |Seqs.Select(xs, key, counts[i].0, true)| && counts[i].1 > 0
    {
      var k := counts[i].0;
      var sel := Seqs.Select(xs, key, k, true);
      Tally.GroupEntries(xs, key, One);
      Seqs.SumOnes(sel, One);
      assert k in Tally.Keys(counts);
      var j :| 0 <= j < |xs| && key(xs[j]) == k;
      assert xs[j] in sel;
    }
  }

  /** One row of the room-type table. */
  datatype TypeStat = TypeStat(roomType: string, totalRooms: int, utilizationRate: int)

  function RoomTypeOf(r: Rec<Room>): string { r.body.roomType }

  function OccupiedOne(r: Rec<Room>): int { if r.body.status == "Occupied" then 1 else 0 }

  /** The rows for the grouped totals, each with the rounded percentage of
      its rooms that are occupied. */
  function TypeStats(totals: Tally.Counts, occupied: Tally.Counts): (r: seq<TypeStat>)
    requires forall i :: 0 <= i < |totals| ==> totals[i].1 > 0
    ensures |r| == |totals|
    ensures forall i :: 0 <= i < |r| ==> r[i].roomType == totals[i].0 && r[i].totalRooms == totals[i].1
    ensures forall i :: 0 <= i < |r| ==>
      r[i].utilizationRate == RoundDiv(100 * Tally.Lookup(occupied, r[i].roomType), r[i].totalRooms)
    ensures forall i :: 0 <= i < |r| ==>
      r[i].totalRooms * (2 * r[i].utilizationRate - 1) <= 200 * Tally.Lookup(occupied, r[i].roomType) < r[i].totalRooms * (2 * r[i].utilizationRate + 1)
  {
    if totals == [] then []
    else
      var k := totals[0].0;
      [TypeStat(k, totals[0].1, RoundDiv(100 * Tally.Lookup(occupied, k), totals[0].1))] + TypeStats(totals[1..], occupied)
  }

  function FallbackTypeStats(): seq<TypeStat> {
    [TypeStat("standard", 6, 78), TypeStat("deluxe", 4, 82), TypeStat("suite", 1, 85), TypeStat("presidential", 1, 65)]
  }

  /** `_calculateRoomTypePerformance`: one row per room type, in order of
      first appearance, with the number of rooms of that type and the
      rounded percentage of them that are occupied. */
  function RoomTypePerformance(bookings: seq<Rec<Booking>>, rooms: seq<Rec<Room>>): (r: seq<TypeStat>)
    ensures rooms == [] ==> r == FallbackTypeStats()
    ensures rooms != [] ==>
      && (forall i, j :: 0 <= i < j < |r| ==> r[i].roomType != r[j].roomType)
      && (forall i, j :: 0 <= i < j < |r| ==> Tally.SeenBefore(rooms, RoomTypeOf, r[i].roomType, r[j].roomType))
      && (forall i :: 0 <= i < |r| ==> Tally.Carries(rooms, RoomTypeOf, r[i].roomType))
      && (forall k :: 0 <= k < |rooms| ==> exists i :: 0 <= i < |r| && r[i].roomType == rooms[k].body.roomType)
      && (forall i :: 0 <= i < |r| ==> r[i].totalRooms == |Seqs.Select(rooms, RoomTypeOf, r[i].roomType, true)|)
      && (forall i :: 0 <= i < |r| ==> 0 <= r[i].utilizationRate <= 100)
      && (forall i :: 0 <= i < |r| ==>
            Rounds(100 * OccupiedOfType(rooms, r[i].roomType), r[i].totalRooms, r[i].utilizationRate))
  {
    if rooms == [] then FallbackTypeStats()
    else
      var totals := Tally.Group(rooms, RoomTypeOf, One);
      var occupied := Tally.Group(rooms, RoomTypeOf, OccupiedOne);
      assert forall i :: 0 <= i < |totals| ==> totals[i].1 > 0 by {
        CountsAreSizes(rooms, RoomTypeOf, totals);
      }
      var r := TypeStats(totals, occupied);
      RoomTypeTable(rooms, totals, occupied, r);
      r
  }

  /** The rows built from the grouped totals and occupied counts. */
  lemma RoomTypeTable(rooms: seq<Rec<Room>>, totals: Tally.Counts, occupied: Tally.Counts, r: seq<TypeStat>)
    requires totals == Tally.Group(rooms, RoomTypeOf, One)
    requires occupied == Tally.Group(rooms, RoomTypeOf, OccupiedOne)
    requires forall i :: 0 <= i < |totals| ==> totals[i].1 > 0
    requires r == TypeStats(totals, occupied)
    ensures
      && (forall i, j :: 0 <= i < j < |r| ==> r[i].roomType != r[j].roomType)
      && (forall i, j :: 0 <= i < j < |r| ==> Tally.SeenBefore(rooms, RoomTypeOf, r[i].roomType, r[j].roomType))
      && (forall i :: 0 <= i < |r| ==> Tally.Carries(rooms, RoomTypeOf, r[i].roomType))
      && (forall k :: 0 <= k < |rooms| ==> exists i :: 0 <= i < |r| && r[i].roomType == rooms[k].body.roomType)
      && (forall i :: 0 <= i < |r| ==> r[i].totalRooms == |Seqs.Select(rooms, RoomTypeOf, r[i].roomType, true)|)
      && (forall i :: 0 <= i < |r| ==> 0 <= r[i].utilizationRate <= 100)
      && (forall i :: 0 <= i < |r| ==>
            Rounds(100 * OccupiedOfType(rooms, r[i].roomType), r[i].totalRooms, r[i].utilizationRate))
  {
    RoomTypeRows(rooms, totals, occupied, r);
    RoomTypeCoverage(rooms, totals, r);
    RoomTypeComplete(rooms, totals, r);
  }

  lemma RoomTypeRows(rooms: seq<Rec<Room>>, totals: Tally.Counts, occupied: Tally.Counts, r: seq<TypeStat>)
    requires totals == Tally.Group(rooms, RoomTypeOf, One)
    requires occupied == Tally.Group(rooms, RoomTypeOf, OccupiedOne)
    requires forall i :: 0 <= i < |totals| ==> totals[i].1 > 0
    requires r == TypeStats(totals, occupied)
    ensures forall i :: 0 <= i < |r| ==> r[i].totalRooms == |Seqs.Select(rooms, RoomTypeOf, r[i].roomType, true)|
    ensures forall i :: 0 <= i < |r| ==> 0 <= r[i].utilizationRate <= 100
    ensures forall i :: 0 <= i < |r| ==>
      Rounds(100 * OccupiedOfType(rooms, r[i].roomType), r[i].totalRooms, r[i].utilizationRate)
  {
    forall i | 0 <= i < |r|
      ensures r[i].totalRooms == |Seqs.Select(rooms, RoomTypeOf, r[i].roomType, true)|
      ensures 0 <= r[i].utilizationRate <= 100
      ensures Rounds(100 * OccupiedOfType(rooms, r[i].roomType), r[i].totalRooms, r[i].utilizationRate)
    {
      RoomTypeRow(rooms, totals, occupied, r, i);
    }
  }

  /** The number of occupied rooms of type `t`. */
  function OccupiedOfType(rooms: seq<Rec<Room>>, t: string): nat {
    OccupiedCount(Seqs.Select(rooms, RoomTypeOf, t, true))
  }

  lemma RoomTypeRow(rooms: seq<Rec<Room>>, totals: Tally.Counts, occupied: Tally.Counts, r: seq<TypeStat>, i: nat)
    requires totals == Tally.Group(rooms, RoomTypeOf, One)
    requires occupied == Tally.Group(rooms, RoomTypeOf, OccupiedOne)
    requires forall i :: 0 <= i < |totals| ==> totals[i].1 > 0
    requires r == TypeStats(totals, occupied)
    requires i < |r|
    ensures r[i].totalRooms == |Seqs.Select(rooms, RoomTypeOf, r[i].roomType, true)|
    ensures 0 <= r[i].utilizationRate <= 100
    ensures Rounds(100 * OccupiedOfType(rooms, r[i].roomType), r[i].totalRooms, r[i].utilizationRate)
  {
    RowOfGroups(rooms, totals, occupied, r, i);
    RowRate(rooms, r[i].roomType, r[i].totalRooms, r[i].utilizationRate);
  }

  /** Row `i` carries the size of its type's selection and the rounded
      grouped occupied share. */
  lemma RowOfGroups(rooms: seq<Rec<Room>>, totals: Tally.Counts, occupied: Tally.Counts, r: seq<TypeStat>, i: nat)
    requires totals == Tally.Group(rooms, RoomTypeOf, One)
    requires occupied == Tally.Group(rooms, RoomTypeOf, OccupiedOne)
    requires forall i :: 0 <= i < |totals| ==> totals[i].1 > 0
    requires r == TypeStats(totals, occupied)
    requires i < |r|
    ensures r[i].totalRooms == |Seqs.Select(rooms, RoomTypeOf, r[i].roomType, true)| > 0
    ensures r[i].utilizationRate == RoundDiv(100 * Tally.Lookup(occupied, r[i].roomType), r[i].totalRooms)
  {
    CountsAreSizes(rooms, RoomTypeOf, totals);
    assert r[i].totalRooms == totals[i].1 && r[i].roomType == totals[i].0;
  }

  /** A row of type `t` whose count `total` is that of the type's rooms and
      whose rate `u` is the rounded grouped occupied share. */
  lemma RowRate(rooms: seq<Rec<Room>>, t: string, total: int, u: int)
    requires total == |Seqs.Select(rooms, RoomTypeOf, t, true)| > 0
    requires u == RoundDiv(100 * Tally.Lookup(Tally.Group(rooms, RoomTypeOf, OccupiedOne), t), total)
    ensures 0 <= u <= 100
    ensures Rounds(100 * OccupiedOfType(rooms, t), total, u)
  {
    OccupiedLookup(rooms, t);
    var c := OccupiedOfType(rooms, t);
    RoundedPercent(c, total, u);
    RoundDivBounds(100 * c, total, 100);
  }

  /** `Math.round(occ / b * 100)` in the rounding inequality's terms. */
  lemma RoundedPercent(occ: int, b: int, u: int)
    requires b > 0 && u == RoundDiv(100 * occ, b)
    ensures b * (2 * u - 1) <= 200 * occ < b * (2 * u + 1)
  {
  }

  /** The grouped occupied count of a type is the number of occupied rooms
      of that type, never more than the rooms of the type. */
  lemma OccupiedLookup(rooms: seq<Rec<Room>>, t: string)
    ensures var sel := Seqs.Select(rooms, RoomTypeOf, t, true);
      && Tally.Lookup(Tally.Group(rooms, RoomTypeOf, OccupiedOne), t) == OccupiedCount(sel)
      && OccupiedCount(sel) <= |sel|
  {
    var sel := Seqs.Select(rooms, RoomTypeOf, t, true);
    Tally.GroupLookup(rooms, RoomTypeOf, OccupiedOne, t);
    OccupiedSum(sel);
    OccupiedAtMostTotal(rooms, t);
  }

  /** Rows whose types are the grouped keys, in order, name each type once,
      in order of first appearance, and only types that occur. */
  lemma RoomTypeCoverage(rooms: seq<Rec<Room>>, totals: Tally.Counts, r: seq<TypeStat>)
    requires totals == Tally.Group(rooms, RoomTypeOf, One)
    requires |r| == |totals| && forall i :: 0 <= i < |r| ==> r[i].roomType == totals[i].0
    ensures forall i, j :: 0 <= i < j < |r| ==> r[i].roomType != r[j].roomType
    ensures forall i, j :: 0 <= i < j < |r| ==> Tally.SeenBefore(rooms, RoomTypeOf, r[i].roomType, r[j].roomType)
    ensures forall i :: 0 <= i < |r| ==> Tally.Carries(rooms, RoomTypeOf, r[i].roomType)
  {
    var keys := Tally.Keys(totals);
    assert forall i :: 0 <= i < |r| ==> r[i].roomType == keys[i];
    assert Seqs.Distinct(keys);
    Tally.GroupKeysFirstSeen(rooms, RoomTypeOf, One);
    forall i | 0 <= i < |r| ensures Tally.Carries(rooms, RoomTypeOf, r[i].roomType) {
      Tally.GroupKeys(rooms, RoomTypeOf, One, keys[i]);
    }
  }

  /** ... and every type that occurs has its row. */
  lemma RoomTypeComplete(rooms: seq<Rec<Room>>, totals: Tally.Counts, r: seq<TypeStat>)
    requires totals == Tally.Group(rooms, RoomTypeOf, One)
    requires |r| == |totals| && forall i :: 0 <= i < |r| ==> r[i].roomType == totals[i].0
    ensures forall k :: 0 <= k < |rooms| ==> exists i :: 0 <= i < |r| && r[i].roomType == rooms[k].body.roomType
  {
    var keys := Tally.Keys(totals);
    forall k | 0 <= k < |rooms| ensures exists i :: 0 <= i < |r| && r[i].roomType == rooms[k].body.roomType {
      var t := rooms[k].body.roomType;
      assert Tally.Carries(rooms, RoomTypeOf, t) by {
        assert RoomTypeOf(rooms[k]) == t;
      }
      Tally.GroupKeys(rooms, RoomTypeOf, One, t);
      var i :| 0 <= i < |keys| && keys[i] == t;
      assert r[i].roomType == t;
    }
  }

  /** Among the rooms of one type, the occupied ones are between none and
      all of them. */
  lemma OccupiedAtMostTotal(rooms: seq<Rec<Room>>, t: string)
    ensures 0 <= Tally.Lookup(Tally.Group(rooms, RoomTypeOf, OccupiedOne), t)
              <= |Seqs.Select(rooms, RoomTypeOf, t, true)|
  {
    var sel := Seqs.Select(rooms, RoomTypeOf, t, true);
    Tally.GroupLookup(rooms, RoomTypeOf, OccupiedOne, t);
    Seqs.SumNonNegative(sel, OccupiedOne);
    Seqs.SumMono(sel, OccupiedOne, One);
    Seqs.SumOnes(sel, One);
  }

  /** Counting a room as 1 when it is occupied and 0 otherwise counts the
      occupied rooms. */
  lemma {:induction false} OccupiedSum(rooms: seq<Rec<Room>>)
    ensures Seqs.Sum(rooms, OccupiedOne) == OccupiedCount(rooms)
  {
    if rooms != [] {
      var init := rooms[..|rooms| - 1];
      var last := rooms[|rooms| - 1];
      OccupiedSum(init);
      assert rooms == init + [last];
      Seqs.SelectSnoc(init, last, RoomStatus, "Occupied", true);
    }
  }

  /** The room counts of the table add up to the number of rooms. */
  lemma RoomTypeTotalsSumToRooms(bookings: seq<Rec<Booking>>, rooms: seq<Rec<Room>>)
    requires rooms != []
    ensures var r := RoomTypePerformance(bookings, rooms);
      SumTotals(r) == |rooms|
  {
    var totals := Tally.Group(rooms, RoomTypeOf, One);
    var occupied := Tally.Group(rooms, RoomTypeOf, OccupiedOne);
    CountsAreSizes(rooms, RoomTypeOf, totals);
    SumTotalsOfStats(totals, occupied);
    Seqs.SumOnes(rooms, One);
  }

  function SumTotals(r: seq<TypeStat>): int {
    if r == [] then 0 else r[0].totalRooms + SumTotals(r[1..])
  }

  lemma {:induction false} SumTotalsOfStats(totals: Tally.Counts, occupied: Tally.Counts)
    requires forall i :: 0 <= i < |totals| ==> totals[i].1 > 0
    ensures SumTotals(TypeStats(totals, occupied)) == Tally.SumList(Tally.Values(totals))
  {
    if totals != [] {
      SumTotalsOfStats(totals[1..], occupied);
      assert Tally.Values(totals)[1..] == Tally.Values(totals[1..]);
    }
  }

  /** How a date label is written: weekday for up to a week, month and day
      for up to a month, month name beyond. */
  datatype LabelStyle = Weekday | MonthDay | MonthName

  /** A label for the day `daysAgo` days before today. */
  datatype DayLabel = DayLabel(daysAgo: int, style: LabelStyle)

  function StyleFor(days: int): LabelStyle {
    if days <= 7 then Weekday else if days <= 30 then MonthDay else MonthName
  }

  /** `getDateLabels(range)`: one label per day from `days - 1` days ago to
      today, where `days` is `parseInt(range)`; none when that is NaN or not
      positive. */
  method DateLabels(range: string) returns (labels: seq<DayLabel>)
    ensures Text.ParseInt(range).None? ==> labels == []
    ensures Text.ParseInt(range).Some? ==>
      var days := Text.ParseInt(range).value;
      && |labels| == (if days > 0 then days else 0)
      && forall j :: 0 <= j < |labels| ==> labels[j] == DayLabel(days - 1 - j, StyleFor(days))
  {
    var parsed := Text.ParseInt(range);
    if parsed.None? {
      labels := [];
    } else {
      labels := LabelsFor(parsed.value);
    }
  }

  /** The counting-down loop of `getDateLabels` for a parsed day count. */
  method LabelsFor(days: int) returns (labels: seq<DayLabel>)
    ensures |labels| == (if days > 0 then days else 0)
    ensures forall j :: 0 <= j < |labels| ==> labels[j] == DayLabel(days - 1 - j, StyleFor(days))
  {
    labels := [];
    var i := days - 1;
    while i >= 0
      invariant (if days > 0 then -1 else days - 1) <= i <= days - 1
      invariant |labels| == days - 1 - i
      invariant forall j :: 0 <= j < |labels| ==> labels[j] == DayLabel(days - 1 - j, StyleFor(days))
      decreases i
    {
      labels := labels + [DayLabel(i, StyleFor(days))];
      i := i - 1;
    }
  }
}

=== FILE: arith.dfy ===
/** Integer and rational stand-ins for the floating-point arithmetic of the
    application: `Math.round(a / b)` and `Math.ceil(a / b)` for a positive
    divisor, computed exactly. */
module Arith {

  /** `Math.round(a / b)` for `b > 0`: the integer nearest to `a / b`, with
      halves rounded up (towards positive infinity, as `Math.round` does). */
  function RoundDiv(a: int, b: int): (r: int)
    requires b > 0
    ensures b * (2 * r - 1) <= 2 * a < b * (2 * r + 1)
  {
    var r := (2 * a + b) / (2 * b);
    assert 2 * b * r <= 2 * a + b < 2 * b * r + 2 * b;
    r
  }

  /** `r` is `a / b` rounded to the nearest integer, halves up: the
      property `RoundDiv` is characterised by. */
  ghost predicate Rounds(a: int, b: int, r: int) {
    b * (2 * r - 1) <= 2 * a < b * (2 * r + 1)
  }

  /** The rounding property above has exactly one solution, so it pins
      `RoundDiv` down completely. */
  lemma RoundDivUnique(a: int, b: int, r: int)
    requires b > 0
    requires b * (2 * r - 1) <= 2 * a < b * (2 * r + 1)
    ensures r == RoundDiv(a, b)
  {
    var q := RoundDiv(a, b);
    CancelLt(b, 2 * r - 1, 2 * q + 1);
    CancelLt(b, 2 * q - 1, 2 * r + 1);
  }

  /** A ratio between 0 and m rounds to an integer between 0 and m. */
  lemma RoundDivBounds(a: int, b: int, m: int)
    requires b > 0 && 0 <= a <= b * m
    ensures 0 <= RoundDiv(a, b) <= m
  {
    var r := RoundDiv(a, b);
    CancelLe(b, 2 * r - 1, 2 * m);
    CancelLt(b, 0, 2 * r + 1);
  }

  lemma CancelLt(b: int, x: int, y: int)
    requires b > 0 && b * x < b * y
    ensures x < y
  {
    assert b * (y - x) > 0;
  }

  lemma CancelLe(b: int, x: int, y: int)
    requires b > 0 && b * x <= b * y
    ensures x <= y
  {
    assert b * (y - x) >= 0;
  }

  /** `Math.ceil(a / b)` for `b > 0`: the least integer at least `a / b`. */
  function CeilDiv(a: int, b: int): (r: int)
    requires b > 0
    ensures b * (r - 1) < a <= b * r
  {
    var q := (-a) / b;
    assert b * q <= -a < b * q + b;
    -q
  }

  /** A whole number of divisor units divides exactly. */
  lemma CeilDivExact(k: int, b: int)
    requires b > 0
    ensures CeilDiv(b * k, b) == k
  {
    var r := CeilDiv(b * k, b);
    CancelLt(b, r - 1, k);
    CancelLe(b, k, r);
  }
}

=== FILE: billing_page.dfy ===
/** The billing page: the invoice list with its status filter and search,
    the financial overview, and the actions that generate, pay and send
    invoices. The page keeps its own copy of the invoices next to the
    store's. */
module BillingPage {
  import opened Wrappers
  import opened Store
  import opened Hotel
  import opened Arith
  import opened Text
  import Seqs
  import StatusView
  import BillingService

  type Invoice = Rec<BillingService.Invoice>

  function InvoiceStatus(inv: Invoice): string { inv.body.status }
  function InvoiceAmount(inv: Invoice): int { inv.body.totalAmount }

  datatype Page = Page(
    invoices: seq<Invoice>,
    bookings: seq<Rec<Booking>>,
    filter: string,
    term: string)

  // ---------------------------------------------------------------------
  // The invoice list

  /** The test of `filteredInvoices`: the status filter, and the search
      term found, ignoring case, in the guest name or the invoice number. */
  function Matches(filter: string, term: string): Invoice -> bool {
    (inv: Invoice) => (filter == StatusView.All || inv.body.status == filter)
      && (Contains(Lower(inv.body.guestName), Lower(term)) || Contains(Lower(inv.body.invoiceNumber), Lower(term)))
  }

  /** Reference meaning of the search: the lower-cased term occurs at some
      position of the lower-cased name or number. */
  ghost predicate Shown(inv: Invoice, filter: string, term: string) {
    && (filter == StatusView.All || inv.body.status == filter)
    && ((exists i :: OccursAt(Lower(inv.body.guestName), Lower(term), i))
        || (exists i :: OccursAt(Lower(inv.body.invoiceNumber), Lower(term), i)))
  }

  /** `filteredInvoices`, in list order. */
  function Visible(p: Page): (r: seq<Invoice>)
    ensures |r| <= |p.invoices|
    ensures forall k :: 0 <= k < |r| ==> r[k] in p.invoices
  {
    Seqs.Filter(p.invoices, Matches(p.filter, p.term))
  }

  /** The list keeps the invoices' order and multiplicity: splitting the
      invoices splits the list the same way, and a single invoice is listed
      exactly when it passes the filter and the search. */
  lemma VisibleInOrder(p: Page, a: seq<Invoice>, b: seq<Invoice>, inv: Invoice)
    requires p.invoices == a + b
    ensures Visible(p) == Visible(p.(invoices := a)) + Visible(p.(invoices := b))
    ensures Visible(p.(invoices := [inv])) == if Matches(p.filter, p.term)(inv) then [inv] else []
  {
    Seqs.FilterAppend(a, b, Matches(p.filter, p.term));
    assert [] + [inv] == [inv];
  }

  /** An invoice is listed exactly when it is on the page and passes the
      filter and the search. */
  lemma VisibleIffShown(p: Page, inv: Invoice)
    ensures inv in Visible(p) <==> inv in p.invoices && Shown(inv, p.filter, p.term)
  {
    ContainsIffOccurs(Lower(inv.body.guestName), Lower(p.term));
    ContainsIffOccurs(Lower(inv.body.invoiceNumber), Lower(p.term));
    if inv in p.invoices {
      var k :| 0 <= k < |p.invoices| && p.invoices[k] == inv;
    }
  }

  /** With the "All" filter and an empty search every invoice is listed, in
      order. */
  lemma NoFilterShowsAll(p: Page)
    requires p.filter == StatusView.All && p.term == ""
    ensures Visible(p) == p.invoices
  {
    forall k | 0 <= k < |p.invoices|
      ensures Matches(p.filter, p.term)(p.invoices[k])
    {
      ContainsEmpty(Lower(p.invoices[k].body.guestName));
    }
    Seqs.FilterAll(p.invoices, Matches(p.filter, p.term));
  }

  // ---------------------------------------------------------------------
  // The financial overview

  /** `invoices.reduce((sum, inv) => inv.status === status ? sum + inv.totalAmount : sum, 0)` */
  function StatusTotal(invoices: seq<Invoice>, status: string): int {
    if invoices == [] then 0
    else
      var last := invoices[|invoices| - 1];
      StatusTotal(invoices[..|invoices| - 1], status) + (if last.body.status == status then last.body.totalAmount else 0)
  }

  /** The conditional sum is the sum over the invoices with the status. */
  lemma {:induction false} StatusTotalIsSum(invoices: seq<Invoice>, status: string)
    ensures StatusTotal(invoices, status) == Seqs.Sum(Seqs.Select(invoices, InvoiceStatus, status, true), InvoiceAmount)
  {
    if invoices != [] {
      var init := invoices[..|invoices| - 1];
      var last := invoices[|invoices| - 1];
      StatusTotalIsSum(init, status);
      Seqs.SumAppend(Seqs.Select(init, InvoiceStatus, status, true), [last], InvoiceAmount);
    }
  }

  /** The number of Paid invoices. */
  function PaidCount(invoices: seq<Invoice>): nat {
    StatusView.Count(invoices, InvoiceStatus, "Paid")
  }

  /** "Avg Transaction": `Math.round(totalRevenue / paidCount || 0)`. With
      no Paid invoice the division is 0 / 0, which is NaN and falls back to
      0; otherwise it is the rounded mean of the Paid totals. */
  function AverageTransaction(invoices: seq<Invoice>): (r: int)
    ensures PaidCount(invoices) == 0 ==> r == 0
    ensures PaidCount(invoices) > 0 ==>
      var n := PaidCount(invoices);
      n * (2 * r - 1) <= 2 * StatusTotal(invoices, "Paid") < n * (2 * r + 1)
  {
    var n := PaidCount(invoices);
    if n == 0 then 0 else RoundDiv(StatusTotal(invoices, "Paid"), n)
  }

  /** When every Paid invoice is between 0 and `m` dollars, so is the
      average transaction. */
  lemma AverageWithinRange(invoices: seq<Invoice>, m: int)
    requires forall k :: 0 <= k < |invoices| && invoices[k].body.status == "Paid" ==> 0 <= invoices[k].body.totalAmount <= m
    ensures 0 <= AverageTransaction(invoices) <= m || (PaidCount(invoices) == 0 && AverageTransaction(invoices) == 0)
  {
    var paid := Seqs.Select(invoices, InvoiceStatus, "Paid", true);
    if |paid| > 0 {
      StatusTotalIsSum(invoices, "Paid");
      forall k | 0 <= k < |paid|
        ensures 0 <= InvoiceAmount(paid[k]) <= m
      {
        assert paid[k] in invoices;
      }
      Seqs.SumNonNegative(paid, InvoiceAmount);
      var mf := (inv: Invoice) => m;
      Seqs.SumMono(paid, InvoiceAmount, mf);
      Seqs.SumOnes(paid, (inv: Invoice) => 1);
      SumScale(paid, m);
      RoundDivBounds(StatusTotal(invoices, "Paid"), |paid|, m);
    }
  }

  /** Summing a constant `m` gives `m` times the length. */
  lemma {:induction false} SumScale(xs: seq<Invoice>, m: int)
    ensures Seqs.Sum(xs, (inv: Invoice) => m) == |xs| * m
  {
    if xs != [] {
      SumScale(xs[..|xs| - 1], m);
    }
  }

  // ---------------------------------------------------------------------
  // Actions

  /** `handleGenerateInvoice`: for the first of the page's bookings with the
      Id, an invoice is generated and shown first in the list; an Id the page
      does not know changes nothing. */
  function GenerateInvoice(p: Page, store: seq<Invoice>, bookingId: int, now: int): (r: (Page, seq<Invoice>))
    requires |store| > 0
    ensures !HasId(p.bookings, bookingId) ==> r == (p, store)
    ensures HasId(p.bookings, bookingId) ==>
      var booking := p.bookings[IndexOf(p.bookings, bookingId).value].body;
      && |r.0.invoices| == |p.invoices| + 1 && r.0.invoices[1..] == p.invoices
      && r.0 == p.(invoices := r.0.invoices)
      && r.1 == store + [r.0.invoices[0]]
      && var inv := r.0.invoices[0];
      && !HasId(store, inv.id) && inv.body.status == "Pending"
      && inv.body.guestName == booking.guestName && inv.body.totalAmount == booking.totalAmount
  {
    match IndexOf(p.bookings, bookingId)
    case None => (p, store)
    case Some(k) =>
      var generated := BillingService.GenerateInvoice(store, p.bookings[k].body, now);
      (p.(invoices := [generated.1] + p.invoices), generated.0)
  }

  function Const(v: BillingService.Invoice): BillingService.Invoice -> BillingService.Invoice {
    _ => v
  }

  /** `handlePaymentProcess`: the store settles the invoice through the
      billing service, the page keeps the service's store and puts the
      service's settled invoice in place of each invoice with that Id; if
      the store does not know the Id, nothing changes. */
  function PaymentProcess(p: Page, store: seq<Invoice>, invoiceId: int, payment: BillingService.PaymentData, now: int)
    : (r: (Page, seq<Invoice>))
    ensures !HasId(store, invoiceId) ==> r == (p, store)
    ensures HasId(store, invoiceId) ==>
      && r.0 == p.(invoices := r.0.invoices)
      && |r.0.invoices| == |p.invoices|
      && exists settled: Invoice ::
           && settled.id == invoiceId && settled in r.1 && settled.body.status == "Paid"
           && forall k :: 0 <= k < |p.invoices| ==>
                r.0.invoices[k] == if p.invoices[k].id == invoiceId then settled else p.invoices[k]
    ensures var paid := BillingService.ProcessPayment(store, invoiceId, payment, now);
      && (paid.Err? ==> r == (p, store))
      && (paid.Ok? ==> r.1 == paid.value.0)
      && (paid.Ok? ==> forall k :: 0 <= k < |p.invoices| ==>
            r.0.invoices[k] == if p.invoices[k].id == invoiceId then paid.value.1 else p.invoices[k])
  {
    match BillingService.ProcessPayment(store, invoiceId, payment, now)
    case Err(_) => (p, store)
    case Ok((saved, settled)) =>
      SettledIsStored(store, invoiceId, payment, now);
      (p.(invoices := StatusView.ApplyTo(p.invoices, invoiceId, Const(settled.body))), saved)
  }

  lemma SettledIsStored(store: seq<Invoice>, invoiceId: int, payment: BillingService.PaymentData, now: int)
    requires BillingService.ProcessPayment(store, invoiceId, payment, now).Ok?
    ensures var r := BillingService.ProcessPayment(store, invoiceId, payment, now).value;
      r.1 in r.0
  {
    var r := BillingService.ProcessPayment(store, invoiceId, payment, now).value;
    var k :| 0 <= k < |store| && store[k].id == invoiceId && r.0 == store[k := r.1] &&
      r.1.body.(status := store[k].body.status, settlement := store[k].body.settlement) == store[k].body;
    assert r.0[k] == r.1;
  }

  /** The row's pay button: only a Pending invoice has one, and it pays the
      invoice's total with the method named "card". */
  function PayButton(inv: Invoice): (r: Option<BillingService.PaymentData>)
    ensures r.Some? <==> inv.body.status == "Pending"
    ensures r.Some? ==> r.value.amount == inv.body.totalAmount && r.value.stripePaymentIntentId == ""
  {
    if inv.body.status == "Pending" then Some(BillingService.PaymentData("card", inv.body.totalAmount, "")) else None
  }

  /** "card" is not one of the service's method names, so the pay button is
      charged the credit-card fee. */
  lemma PayButtonChargesCardRate(inv: Invoice)
    requires PayButton(inv).Some?
    ensures var pay := PayButton(inv).value;
      BillingService.ProcessingFee(pay.methodName, pay.amount) == BillingService.ProcessingFee("credit_card", pay.amount)
  {
    BillingService.UnknownMethodIsCreditCard("card");
  }

  /** `handleSendInvoice`: the page only reports the outcome. */
  function SendInvoice(store: seq<Invoice>, invoiceId: int, now: int): (sent: bool)
    ensures sent <==> HasId(store, invoiceId)
  {
    BillingService.SendInvoice(store, invoiceId, now).Ok?
  }
}

=== FILE: billing_service.dfy ===
/** The billing service: invoices generated from bookings, numbered from
    their Id, and settled by a payment whose processing fee depends on the
    payment method. */
module BillingService {
  import opened Wrappers
  import opened Store
  import opened Hotel
  import opened Arith
  import opened Text

  const Entity := "Invoice"

  /** One line of an invoice. The amounts are fractions of the booking
      total, so they are kept as exact rationals. */
  datatype Item = Item(description: string, amount: real)

  /** The fields `processPayment` adds to an invoice. */
  datatype Settlement = Settlement(
    paymentMethod: string,
    stripePaymentIntentId: Option<string>,
    paymentDate: int,
    processingFee: int,
    netAmount: int)

  /** An invoice; `checkIn` and `checkOut` stand for the formatted
      `stayDates` text. */
  datatype Invoice = Invoice(
    invoiceNumber: string,
    guestName: string,
    roomNumber: string,
    totalAmount: int,
    status: string,
    createdAt: int,
    checkIn: int,
    checkOut: int,
    items: seq<Item>,
    settlement: Option<Settlement>)

  /** What a caller passes to `processPayment`; an empty payment intent Id
      is falsy and is stored as null. */
  datatype PaymentData = PaymentData(methodName: string, amount: int, stripePaymentIntentId: string)

  /** What `sendInvoice` reports. */
  datatype Receipt = Receipt(success: bool, emailSent: bool, sentAt: int)

  const Prefix := "INV-2024-"

  /** "INV-2024-" followed by the Id, left-padded with '0' to three
      characters. */
  function InvoiceNumber(id: int): string {
    Prefix + PadStart(IntToDecimal(id), 3, '0')
  }

  /** For a non-negative Id the number ends in at least three digits that
      read back as the Id. */
  lemma InvoiceNumberRoundTrip(id: int)
    requires id >= 0
    ensures InvoiceNumber(id)[..|Prefix|] == Prefix
    ensures var digits := InvoiceNumber(id)[|Prefix|..];
      |digits| >= 3 && AllDigits(digits) && DecimalValue(digits) == id
  {
    var d := NatToDecimal(id);
    var digits := InvoiceNumber(id)[|Prefix|..];
    assert digits == PadStart(d, 3, '0');
    if |d| < 3 {
      LeadingZeros(3 - |d|, d);
    }
    DecimalRoundTrip(id);
  }

  /** Distinct non-negative Ids get distinct invoice numbers. */
  lemma InvoiceNumbersDistinct(a: int, b: int)
    requires 0 <= a && 0 <= b && a != b
    ensures InvoiceNumber(a) != InvoiceNumber(b)
  {
    InvoiceNumberRoundTrip(a);
    InvoiceNumberRoundTrip(b);
  }

  /** The three generated lines: 80% room charges, 15% additional services
      and 5% taxes and fees. */
  function Items(total: int): (r: seq<Item>)
    ensures |r| == 3
    ensures r[0].amount + r[1].amount + r[2].amount == total as real
    ensures total >= 0 ==> forall k :: 0 <= k < |r| ==> 0.0 <= r[k].amount <= total as real
  {
    [Item("Room charges", total as real * 0.8),
     Item("Additional services", total as real * 0.15),
     Item("Taxes and fees", total as real * 0.05)]
  }

  function GetInvoiceById(s: seq<Rec<Invoice>>, id: int): (r: Result<Rec<Invoice>, StoreError>)
    ensures r.Ok? <==> HasId(s, id)
    ensures r.Ok? ==> r.value.id == id && r.value in s
    ensures r.Err? ==> r.error == NotFound(Entity, id)
  {
    Store.GetById(s, Entity, id)
  }

  /** `generateInvoice`: a Pending invoice for the booking, with the next
      Id and its number, appended to the store. */
  function GenerateInvoice(s: seq<Rec<Invoice>>, booking: Booking, now: int): (r: (seq<Rec<Invoice>>, Rec<Invoice>))
    requires |s| > 0
    ensures HasId(s, r.1.id - 1) && forall k :: 0 <= k < |s| ==> s[k].id < r.1.id
    ensures r.1.body.invoiceNumber == InvoiceNumber(r.1.id)
    ensures r.1.body.status == "Pending" && r.1.body.settlement.None? && r.1.body.createdAt == now
    ensures r.1.body.guestName == booking.guestName && r.1.body.roomNumber == booking.roomNumber
    ensures r.1.body.totalAmount == booking.totalAmount
    ensures r.1.body.checkIn == booking.checkIn && r.1.body.checkOut == booking.checkOut
    ensures r.1.body.items == Items(booking.totalAmount)
    ensures r.0 == s + [r.1]
    ensures UniqueIds(s) ==> UniqueIds(r.0)
  {
    var id := MaxId(s) + 1;
    var invoice := Invoice(InvoiceNumber(id), booking.guestName, booking.roomNumber, booking.totalAmount,
      "Pending", now, booking.checkIn, booking.checkOut, Items(booking.totalAmount), None);
    Store.Create(s, Rec(id, invoice))
  }

  /** The items of any generated invoice add up to its total. */
  lemma GeneratedItemsSumToTotal(s: seq<Rec<Invoice>>, booking: Booking, now: int)
    requires |s| > 0
    ensures var inv := GenerateInvoice(s, booking, now).1.body;
      inv.items[0].amount + inv.items[1].amount + inv.items[2].amount == inv.totalAmount as real
  {
  }

  /** The processing fee of each method in thousandths of the amount; an
      unknown method is charged as a credit card. */
  function FeeRate(methodName: string): (r: int)
    ensures 0 <= r <= 29
  {
    match methodName
    case "credit_card" => 29
    case "digital_wallet" => 25
    case "bank_transfer" => 15
    case "corporate" => 0
    case _ => 29
  }

  predicate KnownMethod(methodName: string) {
    methodName in ["credit_card", "digital_wallet", "bank_transfer", "corporate"]
  }

  lemma UnknownMethodIsCreditCard(methodName: string)
    requires !KnownMethod(methodName)
    ensures FeeRate(methodName) == FeeRate("credit_card")
  {
  }

  /** `Math.round(amount * rate)`. */
  function ProcessingFee(methodName: string, amount: int): (fee: int)
    ensures 2000 * fee - 1000 <= 2 * amount * FeeRate(methodName) < 2000 * fee + 1000
    ensures amount >= 0 ==> 0 <= fee <= amount
  {
    var fee := RoundDiv(amount * FeeRate(methodName), 1000);
    assert amount >= 0 ==> 0 <= fee <= amount by {
      if amount >= 0 {
        RoundDivBounds(amount * FeeRate(methodName), 1000, amount);
      }
    }
    fee
  }

  /** `processPayment`: the invoice with the Id becomes Paid and records the
      method, the payment intent, the date, the fee and the net amount;
      nothing else about it changes. */
  function ProcessPayment(s: seq<Rec<Invoice>>, invoiceId: int, payment: PaymentData, now: int): (r: Result<(seq<Rec<Invoice>>, Rec<Invoice>), StoreError>)
    ensures r.Ok? <==> HasId(s, invoiceId)
    ensures r.Err? ==> r.error == NotFound(Entity, invoiceId)
    ensures r.Ok? ==> r.value.1.id == invoiceId
    ensures r.Ok? ==> exists k :: (0 <= k < |s| && s[k].id == invoiceId && r.value.0 == s[k := r.value.1] &&
      r.value.1.body.(status := s[k].body.status, settlement := s[k].body.settlement) == s[k].body)
    ensures r.Ok? ==> r.value.1.body.status == "Paid" && r.value.1.body.settlement.Some?
    ensures r.Ok? ==> var st := r.value.1.body.settlement.value;
      && st.paymentMethod == payment.methodName
      && st.stripePaymentIntentId == (if payment.stripePaymentIntentId == "" then None else Some(payment.stripePaymentIntentId))
      && st.paymentDate == now
      && st.processingFee == ProcessingFee(payment.methodName, payment.amount)
      && st.netAmount + st.processingFee == payment.amount
    ensures r.Ok? && UniqueIds(s) ==> UniqueIds(r.value.0)
  {
    match IndexOf(s, invoiceId)
    case None => Err(NotFound(Entity, invoiceId))
    case Some(k) =>
      var fee := ProcessingFee(payment.methodName, payment.amount);
      var intent := if payment.stripePaymentIntentId == "" then None else Some(payment.stripePaymentIntentId);
      var settled := s[k].body.(status := "Paid",
        settlement := Some(Settlement(payment.methodName, intent, now, fee, payment.amount - fee)));
      var rec := Rec(invoiceId, settled);
      assert UniqueIds(s) ==> UniqueIds(s[k := rec]) by {
        if UniqueIds(s) {
          assert forall j :: 0 <= j < |s| && j != k ==> s[j].id != invoiceId;
        }
      }
      Ok((s[k := rec], rec))
  }

  /** `sendInvoice`: a receipt for a known Id, the not-found error
      otherwise; the store is only read. */
  function SendInvoice(s: seq<Rec<Invoice>>, invoiceId: int, now: int): (r: Result<Receipt, StoreError>)
    ensures r.Ok? <==> HasId(s, invoiceId)
    ensures r.Ok? ==> r.value == Receipt(true, true, now)
    ensures r.Err? ==> r.error == NotFound(Entity, invoiceId)
  {
    match IndexOf(s, invoiceId)
    case None => Err(NotFound(Entity, invoiceId))
    case Some(_) => Ok(Receipt(true, true, now))
  }
}

=== FILE: bookings_page.dfy ===
/** The bookings management page: the status tabs with their counts, and
    the status changes offered for the selected booking. */
module BookingsPage {
  import opened Wrappers
  import opened Store
  import opened Hotel
  import StatusView
  import Seqs
  import BookingsService

  /** The statuses with a tab of their own, in tab order. */
  const Tabs: seq<string> := ["Confirmed", "Pending", "Checked In", "Checked Out", "Cancelled"]

  /** `statusCounts`: the "All" count and the count of each tab. */
  function StatusCounts(bookings: seq<Rec<Booking>>): (r: seq<(string, nat)>)
    ensures |r| == 6 && r[0] == (StatusView.All, |bookings|)
    ensures forall i :: 1 <= i < 6 ==> r[i] == (Tabs[i - 1], StatusView.Count(bookings, BookingStatus, Tabs[i - 1]))
    ensures r[1].1 + r[2].1 + r[3].1 + r[4].1 + r[5].1 <= r[0].1
    ensures (forall k :: 0 <= k < |bookings| ==> bookings[k].body.status in Tabs) ==>
      r[1].1 + r[2].1 + r[3].1 + r[4].1 + r[5].1 == r[0].1
  {
    var r := StatusView.Counts(bookings, BookingStatus, Tabs);
    TabsDistinct();
    StatusView.TabTotalFive(r[1..]);
    r
  }

  /** No status has two tabs. */
  lemma TabsDistinct()
    ensures Seqs.Distinct(Tabs)
  {
    assert Tabs[0][1] != Tabs[4][1];
  }

  /** When every booking has one of the tab statuses, the five tab counts
      add up to the "All" count. */
  lemma TabsCoverAll(bookings: seq<Rec<Booking>>)
    requires forall k :: 0 <= k < |bookings| ==> bookings[k].body.status in Tabs
    ensures StatusView.CountAll(bookings, BookingStatus, Tabs) == |bookings|
  {
    TabsDistinct();
    StatusView.CountsCover(bookings, BookingStatus, Tabs);
  }

  /** `handleStatusUpdate`: the page's copy of the booking, with the new
      status, replaces the stored record; if that works, the matching
      bookings in the page's list take the new status and nothing else
      changes. If the store does not know the Id, the page keeps its list. */
  function UpdateStatus(list: seq<Rec<Booking>>, store: seq<Rec<Booking>>, id: int, newStatus: string, now: int)
    : (r: Result<(seq<Rec<Booking>>, seq<Rec<Booking>>), StoreError>)
    requires HasId(list, id)
    ensures r.Ok? <==> HasId(store, id)
    ensures r.Err? ==> r.error == NotFound(BookingsService.Entity, id)
    ensures r.Ok? ==> |r.value.0| == |list|
    ensures r.Ok? ==> forall k :: 0 <= k < |list| ==>
      r.value.0[k] == if list[k].id == id then Rec(id, list[k].body.(status := newStatus)) else list[k]
    ensures r.Ok? && UniqueIds(store) ==>
      && |r.value.1| == |store|
      && (exists j ::
            && 0 <= j < |list| && list[j].id == id
            && forall k :: 0 <= k < |store| ==>
                 r.value.1[k] == if store[k].id == id then Rec(id, list[j].body.(status := newStatus, updatedAt := Some(now))) else store[k])
  {
    var j := IndexOf(list, id).value;
    var fields := Rec(id, list[j].body.(status := newStatus));
    match BookingsService.Update(store, id, fields, now)
    case Err(e) => Err(e)
    case Ok((saved, _)) => Ok((StatusView.ApplyTo(list, id, (b: Booking) => b.(status := newStatus)), saved))
  }

  /** The quick actions for the selected booking, as the statuses they set:
      Check In for a Confirmed booking, Check Out for a Checked In one, and
      Cancel for any booking not already Cancelled. */
  function QuickActions(status: string): (r: seq<string>)
    ensures "Checked In" in r <==> status == "Confirmed"
    ensures "Checked Out" in r <==> status == "Checked In"
    ensures "Cancelled" in r <==> status != "Cancelled"
    ensures forall k :: 0 <= k < |r| ==> r[k] in Tabs && r[k] != status
  {
    (if status == "Confirmed" then ["Checked In"] else [])
    + (if status == "Checked In" then ["Checked Out"] else [])
    + (if status != "Cancelled" then ["Cancelled"] else [])
  }
}

=== FILE: bookings_service.dfy ===
/** The bookings service: the generic store plus the two timestamps a
    booking carries. */
module BookingsService {
  import opened Wrappers
  import opened Store
  import opened Hotel

  const Entity := "Booking"

  function GetById(s: seq<Rec<Booking>>, id: int): (r: Result<Rec<Booking>, StoreError>)
    ensures r.Ok? <==> HasId(s, id)
    ensures r.Ok? ==> r.value.id == id && r.value in s
    ensures r.Err? ==> r.error == NotFound(Entity, id)
  {
    Store.GetById(s, Entity, id)
  }

  /** `create`: the Id one above the largest stored, the caller's
      `createdAt` if it is truthy and `now` otherwise, `updatedAt` set to
      `now`, every other field copied. */
  function Create(s: seq<Rec<Booking>>, fields: Rec<Booking>, now: int): (r: (seq<Rec<Booking>>, Rec<Booking>))
    requires |s| > 0
    ensures HasId(s, r.1.id - 1) && forall k :: 0 <= k < |s| ==> s[k].id < r.1.id
    ensures r.1.body.createdAt == (if fields.body.createdAt.Some? then fields.body.createdAt else Some(now))
    ensures r.1.body.updatedAt == Some(now)
    ensures r.1.body.(createdAt := fields.body.createdAt, updatedAt := fields.body.updatedAt) == fields.body
    ensures r.0 == s + [r.1]
    ensures UniqueIds(s) ==> UniqueIds(r.0)
  {
    var created := if fields.body.createdAt.Some? then fields.body.createdAt else Some(now);
    Store.Create(s, Rec(fields.id, fields.body.(createdAt := created, updatedAt := Some(now))))
  }

  /** `update`: the whole record is replaced (no merge) by the caller's
      fields with the Id forced and `updatedAt` set to `now`. */
  function Update(s: seq<Rec<Booking>>, id: int, fields: Rec<Booking>, now: int): (r: Result<(seq<Rec<Booking>>, Rec<Booking>), StoreError>)
    ensures r.Ok? <==> HasId(s, id)
    ensures r.Err? ==> r.error == NotFound(Entity, id)
    ensures r.Ok? ==> r.value.1 == Rec(id, fields.body.(updatedAt := Some(now)))
    ensures r.Ok? && UniqueIds(s) ==> UniqueIds(r.value.0) && |r.value.0| == |s|
    ensures r.Ok? && UniqueIds(s) ==>
      forall k :: 0 <= k < |s| ==> r.value.0[k] == (if s[k].id == id then r.value.1 else s[k])
  {
    Store.Update(s, Entity, id, Rec(id, fields.body.(updatedAt := Some(now))))
  }

  /** `delete`: exactly the record with the Id is removed. */
  function Delete(s: seq<Rec<Booking>>, id: int): (r: Result<seq<Rec<Booking>>, StoreError>)
    ensures r.Ok? <==> HasId(s, id)
    ensures r.Err? ==> r.error == NotFound(Entity, id)
    ensures r.Ok? ==> exists k :: 0 <= k < |s| && s[k].id == id && r.value == s[..k] + s[k + 1..]
    ensures r.Ok? && UniqueIds(s) ==> UniqueIds(r.value) && !HasId(r.value, id)
  {
    Store.Delete(s, Entity, id)
  }
}

=== FILE: dashboard_page.dfy ===
/** The dashboard: the room figures, the daily revenue, today's check-ins
    and the list of up to five urgent (pending) tasks. A local date is
    modelled by a fixed offset of the local clock from UTC, in
    milliseconds. */
module DashboardPage {
  import opened Wrappers
  import opened Store
  import opened Hotel
  import opened Arith
  import Seqs
  import StatusView
  import Analytics
  import TasksService
  import StaffPage

  /** The page's state once loaded; `error` replaces the page by an error
      panel. */
  datatype Dashboard = Dashboard(
    rooms: seq<Rec<Room>>,
    urgent: seq<Rec<Task>>,
    bookings: seq<Rec<Booking>>,
    error: Option<string>)

  /** `loadDashboardData`: all rooms and bookings, and the first five tasks
      that are not completed. */
  function Load(rooms: seq<Rec<Room>>, tasks: seq<Rec<Task>>, bookings: seq<Rec<Booking>>): (d: Dashboard)
    ensures d.rooms == rooms && d.bookings == bookings && d.error.None?
    ensures |d.urgent| <= 5 && |d.urgent| <= |StaffPage.Pending(tasks)|
    ensures d.urgent == StaffPage.Pending(tasks)[..|d.urgent|]
    ensures |StaffPage.Pending(tasks)| <= 5 ==> d.urgent == StaffPage.Pending(tasks)
  {
    Dashboard(rooms, StatusView.Take(StaffPage.Pending(tasks), 5), bookings, None)
  }

  const CompleteFailed := "Failed to complete task"

  /** `handleCompleteTask`: the store's record is replaced by the task as
      completed at `now`; if that works the task leaves the urgent list,
      which is not refilled; if not, the page shows an error. */
  function CompleteUrgent(d: Dashboard, store: seq<Rec<Task>>, task: Rec<Task>, now: int): (r: (Dashboard, seq<Rec<Task>>))
    ensures r.0.rooms == d.rooms && r.0.bookings == d.bookings
    ensures HasId(store, task.id) ==> r.0 == d.(urgent := StatusView.Without(d.urgent, task.id))
    ensures !HasId(store, task.id) ==> r.0 == d.(error := Some(CompleteFailed)) && r.1 == store
    ensures HasId(store, task.id) && UniqueIds(store) ==>
      && |r.1| == |store|
      && forall k :: 0 <= k < |store| ==>
           r.1[k] == if store[k].id == task.id then Rec(task.id, StaffPage.Complete(task.body, now)) else store[k]
  {
    match TasksService.Update(store, task.id, Rec(task.id, StaffPage.Complete(task.body, now)))
    case Err(_) => (d.(error := Some(CompleteFailed)), store)
    case Ok((saved, _)) => (d.(urgent := StatusView.Without(d.urgent, task.id)), saved)
  }

  /** With unique Ids in the list, completing the task at position `i`
      removes exactly that entry. */
  lemma CompleteUrgentRemovesOne(d: Dashboard, store: seq<Rec<Task>>, i: nat, now: int)
    requires UniqueIds(d.urgent) && i < |d.urgent| && HasId(store, d.urgent[i].id)
    ensures CompleteUrgent(d, store, d.urgent[i], now).0.urgent == d.urgent[..i] + d.urgent[i + 1..]
  {
    StatusView.WithoutUnique(d.urgent, i);
  }

  /** The three room figures: Available, Occupied and Maintenance. A room
      is counted at most once, so together they never exceed the rooms. */
  function RoomFigures(rooms: seq<Rec<Room>>): (r: (nat, nat, nat))
    ensures r.0 == StatusView.Count(rooms, RoomStatus, "Available")
    ensures r.1 == StatusView.Count(rooms, RoomStatus, "Occupied")
    ensures r.2 == StatusView.Count(rooms, RoomStatus, "Maintenance")
    ensures r.0 + r.1 + r.2 <= |rooms|
  {
    var names := ["Available", "Occupied", "Maintenance"];
    assert names[0][0] != names[1][0] && names[0][0] != names[2][0] && names[1][0] != names[2][0];
    StatusView.CountsBounded(rooms, RoomStatus, names);
    assert names[1..] == ["Occupied", "Maintenance"] && names[2..] == ["Maintenance"] && names[3..] == [];
    assert StatusView.CountAll(rooms, RoomStatus, names[2..]) == StatusView.Count(rooms, RoomStatus, "Maintenance");
    assert StatusView.CountAll(rooms, RoomStatus, names[1..])
      == StatusView.Count(rooms, RoomStatus, "Occupied") + StatusView.Count(rooms, RoomStatus, "Maintenance");
    (StatusView.Count(rooms, RoomStatus, "Available"),
     StatusView.Count(rooms, RoomStatus, "Occupied"),
     StatusView.Count(rooms, RoomStatus, "Maintenance"))
  }

  /** "Daily Revenue": a fifth of the non-cancelled revenue, rounded to
      the nearest dollar with halves up. */
  function DailyRevenue(bookings: seq<Rec<Booking>>): (r: int)
    ensures var revenue := Analytics.Revenue(Analytics.NonCancelled(bookings));
      5 * (2 * r - 1) <= 2 * revenue < 5 * (2 * r + 1)
  {
    RoundDiv(Analytics.Revenue(Analytics.NonCancelled(bookings)), 5)
  }

  /** `new Date(t).toDateString()`, as the number of the local day. */
  function LocalDay(t: int, offset: int): int {
    (t + offset) / DayMs
  }

  /** A booking checks in today when its check-in falls on the local day
      of `now`. */
  function ChecksInOn(now: int, offset: int): Rec<Booking> -> bool {
    (b: Rec<Booking>) => LocalDay(b.body.checkIn, offset) == LocalDay(now, offset)
  }

  /** "Today's Check-ins". */
  function TodayCheckIns(bookings: seq<Rec<Booking>>, now: int, offset: int): (r: nat)
    ensures r <= |bookings|
  {
    |Seqs.Filter(bookings, ChecksInOn(now, offset))|
  }

  /** A single booking counts exactly when its check-in lies in the local
      day that contains `now`, and the count adds up over any split of the
      list. */
  lemma TodayCheckInsCounts(xs: seq<Rec<Booking>>, ys: seq<Rec<Booking>>, b: Rec<Booking>, now: int, offset: int)
    ensures var start := LocalDay(now, offset) * DayMs - offset;
      TodayCheckIns([b], now, offset) == if start <= b.body.checkIn < start + DayMs then 1 else 0
    ensures TodayCheckIns(xs + ys, now, offset) == TodayCheckIns(xs, now, offset) + TodayCheckIns(ys, now, offset)
  {
    Seqs.FilterAppend(xs, ys, ChecksInOn(now, offset));
    assert Seqs.Filter([b], ChecksInOn(now, offset)) == Seqs.Filter([], ChecksInOn(now, offset)) + (if ChecksInOn(now, offset)(b) then [b] else []) by {
      assert [b][..0] == [];
    }
  }
}

=== FILE: entities.dfy ===
/** The records the hotel application keeps. Each is stored as
    `Store.Rec(id, body)`, so the `Id` key is not repeated here. Timestamps
    are milliseconds since the epoch; an ISO date or timestamp that may be
    absent (or empty, hence falsy) is an `Option`. */
module Hotel {
  import opened Wrappers
  import opened Store

  /** A room: `number`, `type` (here `roomType`), `capacity`,
      `pricePerNight` and a free-text `status` such as "Available". */
  datatype Room = Room(
    number: string,
    roomType: string,
    capacity: int,
    pricePerNight: int,
    status: string)

  /** A reservation as the bookings store holds it. `totalAmount` is a
      number of dollars; `revenueCategory` and `bookingSource` are optional
      tags read by the analytics. */
  datatype Booking = Booking(
    guestName: string,
    guestEmail: string,
    guestPhone: string,
    roomId: int,
    roomType: string,
    roomNumber: string,
    checkIn: int,
    checkOut: int,
    nights: int,
    totalAmount: int,
    paymentId: string,
    paymentMethod: string,
    paymentStatus: string,
    status: string,
    specialRequests: string,
    revenueCategory: Option<string>,
    bookingSource: Option<string>,
    createdAt: Option<int>,
    updatedAt: Option<int>,
    paidAt: Option<int>)

  /** A housekeeping or maintenance task. */
  datatype Task = Task(
    title: string,
    assignedTo: string,
    priority: string,
    status: string,
    completedAt: Option<int>)

  /** A staff member; the services treat it as an opaque record. */
  datatype StaffMember = StaffMember(
    firstName: string,
    lastName: string,
    role: string,
    department: string,
    email: string,
    phone: string,
    status: string)

  /** A guest profile. The names may be missing in stored data; the other
      three fields at the end are the ones `create` forces to defaults. */
  datatype Guest = Guest(
    firstName: Option<string>,
    lastName: Option<string>,
    email: string,
    phone: string,
    address: string,
    preferences: map<string, string>,
    vipStatus: bool,
    stayHistory: seq<int>)

  /** A user profile with a role and the permissions derived from it. */
  datatype Profile = Profile(
    firstName: string,
    lastName: string,
    email: string,
    phone: string,
    role: string,
    department: string,
    address: string,
    emergencyContact: string,
    status: string,
    joinDate: int,
    permissions: seq<string>)

  /** Milliseconds in a day. */
  const DayMs := 86400000

  /** Accessors on stored records, passed to the generic list functions. */
  function RoomStatus(r: Rec<Room>): string { r.body.status }
  function BookingStatus(b: Rec<Booking>): string { b.body.status }
  function BookingAmount(b: Rec<Booking>): int { b.body.totalAmount }
  function TaskStatus(t: Rec<Task>): string { t.body.status }
}

=== FILE: guest_booking_form.dfy ===
/** The three-step guest booking wizard: guest details, then terms and
    cancellation consent, then card payment. The room and the stay dates are
    the component's inputs and stay fixed while it is shown; the booking Id
    drawn at random, the clock and the gateway's answer are parameters. */
module GuestBookingForm {
  import opened Wrappers
  import opened Text
  import opened Arith
  import opened Store
  import opened Hotel
  import PaymentForm

  // ---------------------------------------------------------------------
  // Pricing

  /** `Math.ceil((checkOut - checkIn) / DayMs)`: the number of started
      days between the two instants. Nothing requires it to be positive. */
  function Nights(checkIn: int, checkOut: int): (n: int)
    ensures DayMs * (n - 1) < checkOut - checkIn <= DayMs * n
  {
    CeilDiv(checkOut - checkIn, DayMs)
  }

  /** A stay of whole days lasts exactly that many nights. */
  lemma NightsOfWholeDays(checkIn: int, days: int)
    ensures Nights(checkIn, checkIn + DayMs * days) == days
  {
    CeilDivExact(days, DayMs);
  }

  /** The room picked on the booking page and the dates chosen there. */
  datatype Stay = Stay(room: Option<Rec<Room>>, checkIn: int, checkOut: int)

  function StayNights(stay: Stay): int {
    Nights(stay.checkIn, stay.checkOut)
  }

  /** `selectedRoom?.pricePerNight * nights || 0`: the price of the stay,
      and 0 when no room is given. */
  function StayTotal(stay: Stay): (t: int)
    ensures stay.room.None? ==> t == 0
    ensures stay.room.Some? ==> t == stay.room.value.body.pricePerNight * StayNights(stay)
  {
    match stay.room
    case None => 0
    case Some(room) => room.body.pricePerNight * StayNights(stay)
  }

  /** The processing fee shown on the terms step. */
  function ShownFee(stay: Stay): int {
    PaymentForm.ProcessingFee(StayTotal(stay))
  }

  /** The total shown on the terms step: the stay plus the fee. */
  function ShownTotal(stay: Stay): int {
    StayTotal(stay) + ShownFee(stay)
  }

  /** A room booked for a whole number of days costs that many nights'
      price, and the summary adds the rounded 2.9% fee to it. */
  lemma PriceOfWholeDays(room: Rec<Room>, checkIn: int, days: int)
    ensures var stay := Stay(Some(room), checkIn, checkIn + DayMs * days);
      && StayNights(stay) == days
      && StayTotal(stay) == room.body.pricePerNight * days
      && ShownTotal(stay) == room.body.pricePerNight * days + PaymentForm.ProcessingFee(room.body.pricePerNight * days)
  {
    NightsOfWholeDays(checkIn, days);
  }

  /** There is no guard on the number of nights: a check-out a day before
      the check-in prices the stay at minus one night. */
  lemma NoNightsGuard(room: Rec<Room>)
    requires room.body.pricePerNight == 100
    ensures StayNights(Stay(Some(room), DayMs, 0)) == -1
    ensures StayTotal(Stay(Some(room), DayMs, 0)) == -100
  {
    NightsOfWholeDays(DayMs, -1);
  }

  // ---------------------------------------------------------------------
  // State

  datatype Step = GuestInfo | Terms | Payment

  /** The guest details typed on the first step. */
  datatype GuestForm = GuestForm(firstName: string, lastName: string, email: string, phone: string, specialRequests: string)

  datatype GuestField = FirstName | LastName | Email | Phone | SpecialRequests

  function GuestValue(f: GuestForm, field: GuestField): string {
    match field
    case FirstName => f.firstName
    case LastName => f.lastName
    case Email => f.email
    case Phone => f.phone
    case SpecialRequests => f.specialRequests
  }

  /** The consent record. Nothing ever sets `methodName`, so it keeps its
      initial empty value. */
  datatype Consent = Consent(methodName: string, termsAccepted: bool, cancellationPolicyAccepted: bool)

  datatype ConsentBox = TermsBox | CancellationBox

  function BoxValue(c: Consent, box: ConsentBox): bool {
    match box
    case TermsBox => c.termsAccepted
    case CancellationBox => c.cancellationPolicyAccepted
  }

  /** The preliminary booking made when the guest details are accepted. */
  datatype Draft = Draft(
    id: string,
    guest: GuestForm,
    room: Option<Rec<Room>>,
    checkIn: int,
    checkOut: int,
    totalAmount: int,
    nights: int,
    status: string,
    createdAt: int)

  datatype Wizard = Wizard(stay: Stay, step: Step, form: GuestForm, consent: Consent, draft: Option<Draft>)

  /** Why a step refuses to advance (each is shown as a toast). */
  datatype WizardError = MissingRequiredFields | InvalidEmail | TermsNotAccepted | CancellationPolicyNotAccepted

  /** The initial state: step one, empty fields, nothing accepted, no draft. */
  function Start(stay: Stay): (w: Wizard)
    ensures w.step == GuestInfo && w.draft.None?
    ensures forall field :: GuestValue(w.form, field) == ""
    ensures !w.consent.termsAccepted && !w.consent.cancellationPolicyAccepted
    ensures Inv(w)
  {
    Wizard(stay, GuestInfo, GuestForm("", "", "", "", ""), Consent("", false, false), None)
  }

  // ---------------------------------------------------------------------
  // The e-mail check

  /** A character of `[^\s@]`. */
  predicate PartChar(c: char) {
    !IsSpace(c) && c != '@'
  }

  predicate AllPart(s: string) {
    forall k :: 0 <= k < |s| ==> PartChar(s[k])
  }

  /** A match of `[^\s@]+`. */
  predicate Part(s: string) {
    s != [] && AllPart(s)
  }

  /** `s` is `a@b.c` with the '@' at `i`, the '.' at `j` and each of `a`,
      `b`, `c` a match of `[^\s@]+`. */
  ghost predicate SplitsAsEmail(s: string, i: int, j: int) {
    && 0 < i < j < |s|
    && s[i] == '@' && s[j] == '.'
    && Part(s[..i]) && Part(s[i + 1..j]) && Part(s[j + 1..])
  }

  /** The whole of `s` matches `^[^\s@]+@[^\s@]+\.[^\s@]+$`. */
  ghost predicate MatchesEmailPattern(s: string) {
    exists i, j :: SplitsAsEmail(s, i, j)
  }

  /** The check as computed: a non-empty part before the first '@', and
      after it a part with a '.' that is neither its first nor its last
      character. */
  function EmailOk(s: string): bool {
    match Find(s, '@')
    case None => false
    case Some(i) =>
      var d := s[i + 1..];
      Part(s[..i]) && |d| >= 3 && AllPart(d) && '.' in d[1..|d| - 1]
  }

  /** The computed check accepts exactly the strings the pattern matches. */
  lemma EmailOkIffPattern(s: string)
    ensures EmailOk(s) <==> MatchesEmailPattern(s)
  {
    if EmailOk(s) {
      EmailOkSplits(s);
    }
    if MatchesEmailPattern(s) {
      var i, j :| SplitsAsEmail(s, i, j);
      SplitsEmailOk(s, i, j);
    }
  }

  lemma EmailOkSplits(s: string)
    requires EmailOk(s)
    ensures MatchesEmailPattern(s)
  {
    var i := Find(s, '@').value;
    var d := s[i + 1..];
    var mid := d[1..|d| - 1];
    var k := Find(mid, '.').value;
    var j := i + 2 + k;
    assert s[j] == d[k + 1] == mid[k] == '.';
    assert s[i + 1..j] == d[..k + 1];
    assert s[j + 1..] == d[k + 2..];
    assert SplitsAsEmail(s, i, j);
  }

  lemma SplitsEmailOk(s: string, i: int, j: int)
    requires SplitsAsEmail(s, i, j)
    ensures EmailOk(s)
  {
    assert '@' !in s[..i] by {
      assert AllPart(s[..i]);
    }
    FindAt(s, '@', i);
    var d := s[i + 1..];
    assert AllPart(d) by {
      forall k | 0 <= k < |d|
        ensures PartChar(d[k])
      {
        if i + 1 + k < j {
          assert d[k] == s[i + 1..j][k];
        } else if i + 1 + k > j {
          assert d[k] == s[j + 1..][i + k - j];
        }
      }
    }
    var mid := d[1..|d| - 1];
    assert mid[j - i - 2] == '.';
  }

  /** An address the pattern accepts has no white space at all, so the
      required-field check on the trimmed e-mail never rejects it. */
  lemma EmailOkIsTrimmed(s: string)
    requires EmailOk(s)
    ensures NoSpace(s) && Trim(s) == s && s != []
  {
    var i := Find(s, '@').value;
    var d := s[i + 1..];
    forall k | 0 <= k < |s|
      ensures !IsSpace(s[k])
    {
      if k < i {
        assert s[k] == s[..i][k];
      } else if k > i {
        assert s[k] == d[k - i - 1];
      }
    }
    TrimNoSpace(s);
  }

  // ---------------------------------------------------------------------
  // Transitions

  /** The four required fields are non-empty once trimmed; the special
      requests are optional. */
  predicate RequiredFilled(f: GuestForm) {
    Trim(f.firstName) != [] && Trim(f.lastName) != [] && Trim(f.email) != [] && Trim(f.phone) != []
  }

  /** The guest details the first step accepts. */
  predicate GuestInfoValid(f: GuestForm) {
    RequiredFilled(f) && EmailOk(f.email)
  }

  /** `handleChange`: the named field takes the typed value. */
  function ChangeField(w: Wizard, field: GuestField, value: string): (r: Wizard)
    ensures GuestValue(r.form, field) == value
    ensures forall g :: g != field ==> GuestValue(r.form, g) == GuestValue(w.form, g)
    ensures r.(form := w.form) == w
  {
    var f := w.form;
    var next := match field
      case FirstName => f.(firstName := value)
      case LastName => f.(lastName := value)
      case Email => f.(email := value)
      case Phone => f.(phone := value)
      case SpecialRequests => f.(specialRequests := value);
    w.(form := next)
  }

  /** The draft a submission makes from the current details and the stay. */
  ghost predicate DraftOf(stay: Stay, d: Draft) {
    && d.room == stay.room && d.checkIn == stay.checkIn && d.checkOut == stay.checkOut
    && d.nights == StayNights(stay) && d.totalAmount == StayTotal(stay)
    && d.status == "Pending Payment"
  }

  /** `handleGuestInfoSubmit`: refuses missing fields first, then a bad
      e-mail; otherwise replaces any earlier draft by a fresh one with the
      given Id and moves to the terms step. */
  function SubmitGuestInfo(w: Wizard, bookingId: string, now: int): (r: Result<Wizard, WizardError>)
    ensures r.Ok? <==> GuestInfoValid(w.form)
    ensures r.Err? ==> r.error == if RequiredFilled(w.form) then InvalidEmail else MissingRequiredFields
    ensures r.Ok? ==>
      && r.value.step == Terms
      && r.value.(step := w.step, draft := w.draft) == w
      && r.value.draft.Some?
      && var d := r.value.draft.value;
      && d.id == bookingId && d.guest == w.form && d.createdAt == now
      && DraftOf(w.stay, d)
  {
    if !RequiredFilled(w.form) then Err(MissingRequiredFields)
    else if !EmailOk(w.form.email) then Err(InvalidEmail)
    else
      var stay := w.stay;
      var d := Draft(bookingId, w.form, stay.room, stay.checkIn, stay.checkOut, StayTotal(stay),
        StayNights(stay), "Pending Payment", now);
      Ok(w.(step := Terms, draft := Some(d)))
  }

  /** `handleTermsChange`: the named box takes the new value. */
  function ChangeTerms(w: Wizard, box: ConsentBox, checked: bool): (r: Wizard)
    ensures BoxValue(r.consent, box) == checked
    ensures forall b :: b != box ==> BoxValue(r.consent, b) == BoxValue(w.consent, b)
    ensures r.consent.methodName == w.consent.methodName
    ensures r.(consent := w.consent) == w
  {
    var c := w.consent;
    var next := match box
      case TermsBox => c.(termsAccepted := checked)
      case CancellationBox => c.(cancellationPolicyAccepted := checked);
    w.(consent := next)
  }

  /** `handleProceedToPayment`: the terms are checked first, then the
      cancellation policy. */
  function ProceedToPayment(w: Wizard): (r: Result<Wizard, WizardError>)
    ensures r.Ok? <==> w.consent.termsAccepted && w.consent.cancellationPolicyAccepted
    ensures r.Err? ==> r.error == if w.consent.termsAccepted then CancellationPolicyNotAccepted else TermsNotAccepted
    ensures r.Ok? ==> r.value.step == Payment && r.value.(step := w.step) == w
  {
    if !w.consent.termsAccepted then Err(TermsNotAccepted)
    else if !w.consent.cancellationPolicyAccepted then Err(CancellationPolicyNotAccepted)
    else Ok(w.(step := Payment))
  }

  /** `handleBackToStep`: only the step changes. */
  function BackToStep(w: Wizard, step: Step): (r: Wizard)
    ensures r.step == step
    ensures r.stay == w.stay && r.form == w.form && r.consent == w.consent && r.draft == w.draft
  {
    w.(step := step)
  }

  /** The booking handed to the page once paid. */
  datatype FinalBooking = FinalBooking(booking: Draft, paymentId: string, paymentMethod: string, paymentStatus: string, paidAt: int)

  /** `handlePaymentComplete`: the draft with status "Confirmed", the
      gateway's payment Id, the consent's method name and the payment
      time. */
  function CompletePayment(d: Draft, consent: Consent, result: PaymentForm.PaymentResult, now: int): (r: FinalBooking)
    ensures r.booking.status == "Confirmed" && r.booking.(status := d.status) == d
    ensures r.paymentId == result.paymentId && r.paymentMethod == consent.methodName
    ensures r.paymentStatus == "Completed" && r.paidAt == now
  {
    FinalBooking(d.(status := "Confirmed"), result.paymentId, consent.methodName, "Completed", now)
  }

  // ---------------------------------------------------------------------
  // The wizard as a whole

  /** What the user can do. Each control exists only on one step. */
  datatype Event =
    | Typed(field: GuestField, value: string)
    | GuestInfoSubmitted(bookingId: string, now: int)
    | BoxTicked(box: ConsentBox, checked: bool)
    | ProceedClicked
    | BackClicked
    | CardSubmitted(card: PaymentForm.CardForm, today: PaymentForm.YearMonth, response: PaymentForm.GatewayResponse, now: int)

  /** What a step reports besides its new state. */
  datatype Notice =
    | Quiet
    | Refused(error: WizardError)
    | Charged(outcome: PaymentForm.Outcome, completed: Option<FinalBooking>)

  datatype Reaction = Reaction(next: Wizard, notice: Notice)

  /** What every reachable state satisfies: the method name stays empty;
      past the first step there is a draft of the current, valid guest
      details; on the payment step both boxes are ticked; and a draft always
      describes the stay. */
  ghost predicate Inv(w: Wizard) {
    && w.consent.methodName == ""
    && (w.step != GuestInfo ==> w.draft.Some? && w.draft.value.guest == w.form && GuestInfoValid(w.form))
    && (w.step == Payment ==> w.consent.termsAccepted && w.consent.cancellationPolicyAccepted)
    && (w.draft.Some? ==> DraftOf(w.stay, w.draft.value))
  }

  /** A payment notice for draft `d`: when the charge went through, it was
      for the stay plus the fee, in cents, and the completed booking is the
      draft, confirmed, with the gateway's payment Id and the consent's
      method name. */
  ghost predicate PaidFor(d: Draft, consent: Consent, n: Notice) {
    && n.Charged?
    && (n.completed.Some? <==> n.outcome.Paid?)
    && (n.outcome.Paid? ==>
      && n.outcome.request.amountCents == 100 * PaymentForm.FinalAmount(d.totalAmount)
      && n.completed.value == CompletePayment(d, consent, n.outcome.result, n.completed.value.paidAt))
  }

  /** One event on the current step; an event whose control the step does
      not show leaves everything as it is. */
  function Dispatch(w: Wizard, e: Event): (r: Reaction)
    ensures r.next.stay == w.stay
    ensures w.step == GuestInfo && r.next.step == Terms ==> GuestInfoValid(w.form)
    ensures w.step == Terms && r.next.step == Payment ==> w.consent.termsAccepted && w.consent.cancellationPolicyAccepted
    ensures r.notice.Refused? ==> r.next == w
    ensures r.notice.Charged? ==> w.step == Payment && r.next == w && w.draft.Some? && PaidFor(w.draft.value, w.consent, r.notice)
  {
    match e
    case Typed(field, value) =>
      if w.step == GuestInfo then Reaction(ChangeField(w, field, value), Quiet) else Reaction(w, Quiet)
    case GuestInfoSubmitted(bookingId, now) =>
      if w.step != GuestInfo then Reaction(w, Quiet)
      else (match SubmitGuestInfo(w, bookingId, now)
        case Ok(next) => Reaction(next, Quiet)
        case Err(err) => Reaction(w, Refused(err)))
    case BoxTicked(box, checked) =>
      if w.step == Terms then Reaction(ChangeTerms(w, box, checked), Quiet) else Reaction(w, Quiet)
    case ProceedClicked =>
      if w.step != Terms then Reaction(w, Quiet)
      else (match ProceedToPayment(w)
        case Ok(next) => Reaction(next, Quiet)
        case Err(err) => Reaction(w, Refused(err)))
    case BackClicked =>
      if w.step == Terms then Reaction(BackToStep(w, GuestInfo), Quiet)
      else if w.step == Payment then Reaction(BackToStep(w, Terms), Quiet)
      else Reaction(w, Quiet)
    case CardSubmitted(card, today, response, now) =>
      if w.step != Payment || w.draft.None? then Reaction(w, Quiet)
      else Reaction(w, Pay(w.draft.value, w.consent, card, today, response, now))
  }

  /** The payment step: the card form is submitted with the draft's total,
      Id, guest e-mail and room, and a successful charge completes the
      booking. */
  function Pay(d: Draft, consent: Consent, card: PaymentForm.CardForm, today: PaymentForm.YearMonth,
               response: PaymentForm.GatewayResponse, now: int): (n: Notice)
    ensures PaidFor(d, consent, n)
    ensures n.outcome.Paid? ==> n.completed.value.paidAt == now
  {
    var outcome := PaymentForm.Submit(card, today, d.totalAmount, d.id, d.guest.email, d.room.Some?, response);
    Charged(outcome, if outcome.Paid? then Some(CompletePayment(d, consent, outcome.result, now)) else None)
  }

  /** No event breaks the invariant. */
  lemma DispatchKeepsInv(w: Wizard, e: Event)
    requires Inv(w)
    ensures Inv(Dispatch(w, e).next)
  {
    match e
    case GuestInfoSubmitted(bookingId, now) =>
      if w.step == GuestInfo {
        var r := SubmitGuestInfo(w, bookingId, now);
        if r.Ok? {
          assert r.value.form == w.form && r.value.consent == w.consent && r.value.stay == w.stay;
        }
      }
    case ProceedClicked =>
    case _ =>
  }

  /** In a state satisfying the invariant, a successful payment charges, in
      cents, exactly the total shown on the terms step, and the completed
      booking carries the accepted guest details and an empty method name. */
  lemma PaidAsShown(w: Wizard, e: Event)
    requires Inv(w)
    ensures var r := Dispatch(w, e);
      r.notice.Charged? && r.notice.outcome.Paid? ==>
        && r.notice.completed.Some?
        && r.notice.outcome.request.amountCents == 100 * ShownTotal(w.stay)
        && var fb := r.notice.completed.value;
        && fb.paymentMethod == "" && fb.paymentStatus == "Completed"
        && fb.booking.status == "Confirmed" && fb.booking.totalAmount == StayTotal(w.stay)
        && fb.booking.nights == StayNights(w.stay) && GuestInfoValid(fb.booking.guest)
  {
  }

  /** The state after a sequence of events. */
  function Run(w: Wizard, events: seq<Event>): Wizard
    decreases |events|
  {
    if events == [] then w else Run(Dispatch(w, events[0]).next, events[1..])
  }

  /** Every state reached from the start satisfies the invariant. */
  lemma {:induction false} RunKeepsInv(w: Wizard, events: seq<Event>)
    requires Inv(w)
    ensures Inv(Run(w, events)) && Run(w, events).stay == w.stay
    decreases |events|
  {
    if events != [] {
      DispatchKeepsInv(w, events[0]);
      RunKeepsInv(Dispatch(w, events[0]).next, events[1..]);
    }
  }

  /** Whatever the guest did before, a successful payment charges exactly
      the total shown on the terms step, and the completed booking carries
      valid guest details and an empty method name. */
  lemma ReachablePaymentCharges(stay: Stay, events: seq<Event>, e: Event)
    ensures var r := Dispatch(Run(Start(stay), events), e);
      r.notice.Charged? && r.notice.outcome.Paid? ==>
        && r.notice.outcome.request.amountCents == 100 * ShownTotal(stay)
        && r.notice.completed.value.paymentMethod == ""
        && GuestInfoValid(r.notice.completed.value.booking.guest)
  {
    RunKeepsInv(Start(stay), events);
    PaidAsShown(Run(Start(stay), events), e);
  }
}

=== FILE: guest_booking_page.dfy ===
/** The public booking page: the list of bookable rooms, the date and
    party-size inputs, the per-room price, and the saving of a paid booking.
    Dates are day numbers (days since the epoch, UTC); a date input names the
    instant `day * DayMs`, as `new Date("YYYY-MM-DD")` does. */
module GuestBookingPage {
  import opened Wrappers
  import opened Store
  import opened Hotel
  import Seqs
  import BookingsService
  import opened GuestBookingForm

  /** After loading, only the rooms whose status is "Available" are kept,
      in the order the store lists them. */
  function AvailableRooms(rooms: seq<Rec<Room>>): (r: seq<Rec<Room>>)
    ensures forall k :: 0 <= k < |r| ==> r[k].body.status == "Available" && r[k] in rooms
    ensures forall k :: 0 <= k < |rooms| && rooms[k].body.status == "Available" ==> rooms[k] in r
  {
    Seqs.Select(rooms, RoomStatus, "Available", true)
  }

  /** Loading two parts of a list keeps the available rooms of each, the
      first part's before the second's. */
  lemma AvailableRoomsInOrder(a: seq<Rec<Room>>, b: seq<Rec<Room>>)
    ensures AvailableRooms(a + b) == AvailableRooms(a) + AvailableRooms(b)
  {
    Seqs.SelectAppend(a, b, RoomStatus, "Available", true);
  }

  /** `room.capacity >= guests`; a party size that is not a number (an
      emptied input, which `parseInt` reads as NaN) admits no room. */
  predicate Fits(guests: Option<int>, room: Rec<Room>) {
    guests.Some? && room.body.capacity >= guests.value
  }

  /** The rooms offered for the party: exactly those with room enough, in
      their original order. */
  function FilteredRooms(rooms: seq<Rec<Room>>, guests: Option<int>): (r: seq<Rec<Room>>)
    ensures forall k :: 0 <= k < |r| ==> Fits(guests, r[k]) && r[k] in rooms
    ensures forall k :: 0 <= k < |rooms| && Fits(guests, rooms[k]) ==> rooms[k] in r
  {
    Seqs.Filter(rooms, room => Fits(guests, room))
  }

  /** The capacity filter keeps the order: it distributes over
      concatenation, and an unparsable party size empties the list. */
  lemma FilteredRoomsInOrder(a: seq<Rec<Room>>, b: seq<Rec<Room>>, guests: Option<int>)
    ensures FilteredRooms(a + b, guests) == FilteredRooms(a, guests) + FilteredRooms(b, guests)
    ensures FilteredRooms(a, None) == []
  {
    Seqs.FilterAppend(a, b, room => Fits(guests, room));
    Seqs.FilterNone(a, room => Fits(None, room));
  }

  /** A party of one fits every room with a positive capacity. */
  lemma SingleGuestSeesAll(rooms: seq<Rec<Room>>)
    requires forall k :: 0 <= k < |rooms| ==> rooms[k].body.capacity >= 1
    ensures FilteredRooms(rooms, Some(1)) == rooms
  {
    Seqs.FilterAll(rooms, room => Fits(Some(1), room));
  }

  /** The nights shown on a room card for the chosen days. */
  function CardNights(checkIn: int, checkOut: int): int {
    Nights(checkIn * DayMs, checkOut * DayMs)
  }

  /** The price shown on a room card: `pricePerNight * nights`. */
  function CardPrice(room: Rec<Room>, checkIn: int, checkOut: int): int {
    room.body.pricePerNight * CardNights(checkIn, checkOut)
  }

  /** The stay handed to the booking form for a picked room. */
  function StayFor(room: Rec<Room>, checkIn: int, checkOut: int): Stay {
    Stay(Some(room), checkIn * DayMs, checkOut * DayMs)
  }

  /** The room card and the booking form agree: both count the days
      between the two dates and charge the nightly price for each. */
  lemma CardsAgreeWithForm(room: Rec<Room>, checkIn: int, checkOut: int)
    ensures CardNights(checkIn, checkOut) == checkOut - checkIn
    ensures StayNights(StayFor(room, checkIn, checkOut)) == CardNights(checkIn, checkOut)
    ensures StayTotal(StayFor(room, checkIn, checkOut)) == CardPrice(room, checkIn, checkOut)
  {
    assert checkOut * DayMs == checkIn * DayMs + DayMs * (checkOut - checkIn);
    NightsOfWholeDays(checkIn * DayMs, checkOut - checkIn);
  }

  /** The dates the page starts with: today and the day after. */
  function DefaultDates(today: int): (r: (int, int))
    ensures r.0 == today && CardNights(r.0, r.1) == 1
  {
    var r := (today, today + 1);
    assert CardNights(r.0, r.1) == 1 by {
      assert (today + 1) * DayMs == today * DayMs + DayMs * 1;
      NightsOfWholeDays(today * DayMs, 1);
    }
    r
  }

  /** `guestName`: first and last name with one space between. */
  function GuestName(g: GuestForm): (r: string)
    ensures |r| == |g.firstName| + 1 + |g.lastName|
    ensures r[..|g.firstName|] == g.firstName && r[|g.firstName|] == ' ' && r[|g.firstName| + 1..] == g.lastName
  {
    g.firstName + " " + g.lastName
  }

  /** The record sent to `bookingsService.create` for a paid booking;
      None when the booking has no room, since reading the room's Id then
      throws. The Id given here is replaced by the store. */
  function ToRecord(fb: FinalBooking): (r: Option<Rec<Booking>>)
    ensures r.Some? <==> fb.booking.room.Some?
    ensures r.Some? ==>
      var b := r.value.body;
      var d := fb.booking;
      && b.guestName == GuestName(d.guest) && b.guestEmail == d.guest.email && b.guestPhone == d.guest.phone
      && b.roomId == d.room.value.id && b.roomType == d.room.value.body.roomType && b.roomNumber == d.room.value.body.number
      && b.checkIn == d.checkIn && b.checkOut == d.checkOut && b.nights == d.nights && b.totalAmount == d.totalAmount
      && b.paymentId == fb.paymentId && b.paymentMethod == fb.paymentMethod && b.paymentStatus == fb.paymentStatus
      && b.status == d.status && b.specialRequests == d.guest.specialRequests
      && b.createdAt == Some(d.createdAt) && b.paidAt == Some(fb.paidAt)
      && b.revenueCategory.None? && b.bookingSource.None? && b.updatedAt.None?
  {
    var d := fb.booking;
    match d.room
    case None => None
    case Some(room) =>
      // `specialRequests || ""`: the form's value is always a string, and
      // the empty string is already the default.
      var requests := if d.guest.specialRequests == "" then "" else d.guest.specialRequests;
      Some(Rec(0, Booking(GuestName(d.guest), d.guest.email, d.guest.phone, room.id, room.body.roomType,
        room.body.number, d.checkIn, d.checkOut, d.nights, d.totalAmount, fb.paymentId, fb.paymentMethod,
        fb.paymentStatus, d.status, requests, None, None, Some(d.createdAt), None, Some(fb.paidAt))))
  }

  /** The confirmation shown after payment: the booking, and the store's Id
      when the save worked. */
  datatype Confirmation = Confirmation(booking: FinalBooking, storeId: Option<int>)

  /** The page's state. `selected` is the room whose booking form is open. */
  datatype Page = Page(
    rooms: seq<Rec<Room>>,
    checkIn: int,
    checkOut: int,
    guests: Option<int>,
    selected: Option<Rec<Room>>,
    confirmed: Option<Confirmation>)

  /** The page as first shown for the day `today`, once `rooms` is loaded. */
  function Open(all: seq<Rec<Room>>, today: int): (p: Page)
    ensures p.rooms == AvailableRooms(all)
    ensures p.checkIn == today && CardNights(p.checkIn, p.checkOut) == 1
    ensures p.guests == Some(1) && p.selected.None? && p.confirmed.None?
  {
    var dates := DefaultDates(today);
    Page(AvailableRooms(all), dates.0, dates.1, Some(1), None, None)
  }

  /** `handleBookingComplete`: the paid booking is saved. If the save works,
      the confirmation carries the new record's Id; if it throws (no room, or
      `saveFails` for a failure of the store itself), the same booking is
      confirmed without one and the store is unchanged. Either way the
      selected room is cleared. */
  function CompleteBooking(p: Page, store: seq<Rec<Booking>>, fb: FinalBooking, now: int, saveFails: bool): (r: (Page, seq<Rec<Booking>>))
    requires |store| > 0
    ensures r.0.selected.None?
    ensures r.0.(selected := p.selected, confirmed := p.confirmed) == p
    ensures r.0.confirmed.Some? && r.0.confirmed.value.booking == fb
    ensures r.0.confirmed.value.storeId.Some? <==> !saveFails && fb.booking.room.Some?
    ensures r.0.confirmed.value.storeId.None? ==> r.1 == store
    ensures r.0.confirmed.value.storeId.Some? ==>
      && |r.1| == |store| + 1 && r.1[..|store|] == store
      && var saved := r.1[|store|];
      && saved.id == r.0.confirmed.value.storeId.value && !HasId(store, saved.id)
      && ToRecord(fb).Some?
      && saved.body == ToRecord(fb).value.body.(updatedAt := Some(now))
      && (UniqueIds(store) ==> UniqueIds(r.1))
  {
    match ToRecord(fb)
    case None => (p.(selected := None, confirmed := Some(Confirmation(fb, None))), store)
    case Some(fields) =>
      if saveFails then (p.(selected := None, confirmed := Some(Confirmation(fb, None))), store)
      else
        var created := BookingsService.Create(store, fields, now);
        assert created.0[..|store|] == store;
        (p.(selected := None, confirmed := Some(Confirmation(fb, Some(created.1.id)))), created.0)
  }

  /** "Book This Room": the booking form opens for a room on offer. */
  function SelectRoom(p: Page, room: Rec<Room>): (r: Page)
    requires room in FilteredRooms(p.rooms, p.guests)
    ensures r.selected == Some(room) && r.(selected := p.selected) == p
  {
    p.(selected := Some(room))
  }
}

=== FILE: guests_page.dfy ===
/** The guests page: the searchable guest list and the "Add New Guest"
    modal. */
module GuestsPage {
  import opened Wrappers
  import opened Store
  import opened Hotel
  import opened Text
  import Seqs
  import GuestsService

  /** The fields of the modal's form. */
  datatype NewGuest = NewGuest(firstName: string, lastName: string, email: string, phone: string, address: string)

  const BlankForm := NewGuest("", "", "", "", "")

  datatype Page = Page(guests: seq<Rec<Guest>>, term: string, modalOpen: bool, form: NewGuest)

  /** The page once the guests are loaded. */
  function Open(store: seq<Rec<Guest>>): (p: Page)
    ensures p.guests == store && p.term == "" && !p.modalOpen && p.form == BlankForm
  {
    Page(store, "", false, BlankForm)
  }

  // ---------------------------------------------------------------------
  // Search

  /** `${guest.firstName || ''} ${guest.lastName || ''}` */
  function FullName(g: Guest): string {
    (if g.firstName.Some? then g.firstName.value else "") + " " + (if g.lastName.Some? then g.lastName.value else "")
  }

  /** The search test: the term found, ignoring case, in the full name or
      the e-mail address, or found as typed in the phone number. */
  function Matches(term: string): Rec<Guest> -> bool {
    (g: Rec<Guest>) => Contains(Lower(FullName(g.body)), Lower(term))
      || Contains(Lower(g.body.email), Lower(term))
      || Contains(g.body.phone, term)
  }

  /** Reference meaning of the search, by positions. */
  ghost predicate Shown(g: Rec<Guest>, term: string) {
    || (exists i :: OccursAt(Lower(FullName(g.body)), Lower(term), i))
    || (exists i :: OccursAt(Lower(g.body.email), Lower(term), i))
    || (exists i :: OccursAt(g.body.phone, term, i))
  }

  /** `filteredGuests`, in list order. */
  function Visible(p: Page): (r: seq<Rec<Guest>>)
    ensures |r| <= |p.guests|
    ensures forall k :: 0 <= k < |r| ==> r[k] in p.guests
  {
    Seqs.Filter(p.guests, Matches(p.term))
  }

  /** The list keeps the guests' order and multiplicity: splitting the
      guests splits the list the same way, and a single guest is listed
      exactly when it passes the search. */
  lemma VisibleInOrder(p: Page, a: seq<Rec<Guest>>, b: seq<Rec<Guest>>, g: Rec<Guest>)
    requires p.guests == a + b
    ensures Visible(p) == Visible(p.(guests := a)) + Visible(p.(guests := b))
    ensures Visible(p.(guests := [g])) == if Matches(p.term)(g) then [g] else []
  {
    Seqs.FilterAppend(a, b, Matches(p.term));
    assert [] + [g] == [g];
  }

  /** A guest is listed exactly when it passes the search. */
  lemma VisibleIffShown(p: Page, g: Rec<Guest>)
    ensures g in Visible(p) <==> g in p.guests && Shown(g, p.term)
  {
    ContainsIffOccurs(Lower(FullName(g.body)), Lower(p.term));
    ContainsIffOccurs(Lower(g.body.email), Lower(p.term));
    ContainsIffOccurs(g.body.phone, p.term);
    if g in p.guests {
      var k :| 0 <= k < |p.guests| && p.guests[k] == g;
    }
  }

  /** An empty search lists every guest, in order. */
  lemma EmptySearchShowsAll(p: Page)
    requires p.term == ""
    ensures Visible(p) == p.guests
  {
    forall k | 0 <= k < |p.guests|
      ensures Matches(p.term)(p.guests[k])
    {
      ContainsEmpty(Lower(FullName(p.guests[k].body)));
    }
    Seqs.FilterAll(p.guests, Matches(p.term));
  }

  /** A non-empty guest list shows up empty only under a search. */
  lemma EmptyListMeansSearch(p: Page)
    ensures Visible(p) == [] && p.guests != [] ==> p.term != ""
  {
    if p.term == "" {
      EmptySearchShowsAll(p);
    }
  }

  /** What the empty list panel offers: with no guests at all, to add one;
      otherwise, to clear the search. */
  datatype EmptyPanel = NoGuests | NoMatches

  function Panel(p: Page): (r: Option<EmptyPanel>)
    ensures r.Some? <==> Visible(p) == []
    ensures r == Some(NoGuests) <==> p.guests == []
    ensures r == Some(NoMatches) ==> p.guests != [] && p.term != ""
  {
    if Visible(p) != [] then None
    else if p.guests == [] then Some(NoGuests)
    else
      EmptyListMeansSearch(p);
      Some(NoMatches)
  }

  /** The panel's action: "Add Guest" opens the modal, "Clear Search"
      empties the search. */
  function PanelAction(p: Page): (r: Page)
    requires Panel(p).Some?
    ensures Panel(p) == Some(NoGuests) ==> r == p.(modalOpen := true)
    ensures Panel(p) == Some(NoMatches) ==> r == p.(term := "") && Visible(r) == p.guests != []
  {
    match Panel(p).value
    case NoGuests => p.(modalOpen := true)
    case NoMatches =>
      var r := p.(term := "");
      EmptySearchShowsAll(r);
      r
  }

  // ---------------------------------------------------------------------
  // Adding a guest

  /** The "Add Guest" button is enabled when the four required fields are
      non-empty; their content is not trimmed. */
  predicate AddEnabled(f: NewGuest) {
    f.firstName != "" && f.lastName != "" && f.email != "" && f.phone != ""
  }

  /** A form of nothing but spaces enables the button. */
  lemma SpacesEnableAdd(address: string)
    ensures AddEnabled(NewGuest(" ", " ", " ", " ", address))
    ensures Trim(" ") == ""
  {
    assert IsSpace(' ');
  }

  /** The record the form sends to `create`; the Id is replaced by the
      store. */
  function ToRecord(f: NewGuest): (r: Rec<Guest>)
    ensures r.body.firstName == Some(f.firstName) && r.body.lastName == Some(f.lastName)
    ensures r.body.email == f.email && r.body.phone == f.phone && r.body.address == f.address
  {
    Rec(0, Guest(Some(f.firstName), Some(f.lastName), f.email, f.phone, f.address, map[], false, []))
  }

  /** Submitting the form. When the store accepts the guest, the list is
      reloaded from the store, the form is cleared and the modal closes;
      when it fails (`createFails`) the page and the store are unchanged. */
  function Submit(p: Page, store: seq<Rec<Guest>>, createFails: bool): (r: (Page, seq<Rec<Guest>>))
    requires |store| > 0
    ensures createFails ==> r == (p, store)
    ensures !createFails ==>
      && |r.1| == |store| + 1 && r.1[..|store|] == store
      && r.0 == p.(guests := r.1, form := BlankForm, modalOpen := false)
      && var added := r.1[|store|].body;
      && !HasId(store, r.1[|store|].id)
      && added.firstName == Some(p.form.firstName) && added.lastName == Some(p.form.lastName)
      && added.email == p.form.email && added.phone == p.form.phone && added.address == p.form.address
      && added.preferences == map[] && !added.vipStatus && added.stayHistory == []
  {
    if createFails then (p, store)
    else
      var created := GuestsService.Create(store, ToRecord(p.form));
      assert created.0[..|store|] == store;
      (p.(guests := created.0, form := BlankForm, modalOpen := false), created.0)
  }
}

=== FILE: guests_service.dfy ===
/** The guests service: the generic store, with three fields forced to
    defaults on creation. */
module GuestsService {
  import opened Wrappers
  import opened Store
  import opened Hotel

  const Entity := "Guest"

  function GetById(s: seq<Rec<Guest>>, id: int): (r: Result<Rec<Guest>, StoreError>)
    ensures r.Ok? <==> HasId(s, id)
    ensures r.Ok? ==> r.value.id == id && r.value in s
    ensures r.Err? ==> r.error == NotFound(Entity, id)
  {
    Store.GetById(s, Entity, id)
  }

  /** `create`: the Id one above the largest stored and `preferences` {},
      `vipStatus` false and `stayHistory` [] whatever the caller passed; the other fields are
      copied. */
  function Create(s: seq<Rec<Guest>>, fields: Rec<Guest>): (r: (seq<Rec<Guest>>, Rec<Guest>))
    requires |s| > 0
    ensures HasId(s, r.1.id - 1) && forall k :: 0 <= k < |s| ==> s[k].id < r.1.id
    ensures !HasId(s, r.1.id)
    ensures r.1.body.preferences == map[] && !r.1.body.vipStatus && r.1.body.stayHistory == []
    ensures r.1.body.firstName == fields.body.firstName && r.1.body.lastName == fields.body.lastName
    ensures r.1.body.email == fields.body.email && r.1.body.phone == fields.body.phone
    ensures r.1.body.address == fields.body.address
    ensures r.0 == s + [r.1]
    ensures UniqueIds(s) ==> UniqueIds(r.0)
  {
    Store.Create(s, Rec(fields.id, fields.body.(preferences := map[], vipStatus := false, stayHistory := [])))
  }

  /** `update`: the whole record is replaced, with the Id forced. */
  function Update(s: seq<Rec<Guest>>, id: int, fields: Rec<Guest>): (r: Result<(seq<Rec<Guest>>, Rec<Guest>), StoreError>)
    ensures r.Ok? <==> HasId(s, id)
    ensures r.Err? ==> r.error == NotFound(Entity, id)
    ensures r.Ok? ==> r.value.1 == Rec(id, fields.body)
    ensures r.Ok? && UniqueIds(s) ==> UniqueIds(r.value.0) && |r.value.0| == |s|
    ensures r.Ok? && UniqueIds(s) ==>
      forall k :: 0 <= k < |s| ==> r.value.0[k] == (if s[k].id == id then r.value.1 else s[k])
  {
    Store.Update(s, Entity, id, fields)
  }

  /** `delete`: exactly the record with the Id is removed. */
  function Delete(s: seq<Rec<Guest>>, id: int): (r: Result<seq<Rec<Guest>>, StoreError>)
    ensures r.Ok? <==> HasId(s, id)
    ensures r.Err? ==> r.error == NotFound(Entity, id)
    ensures r.Ok? ==> exists k :: 0 <= k < |s| && s[k].id == id && r.value == s[..k] + s[k + 1..]
    ensures r.Ok? && UniqueIds(s) ==> UniqueIds(r.value) && !HasId(r.value, id)
  {
    Store.Delete(s, Entity, id)
  }
}

=== FILE: payment_form.dfy ===
/** The card payment step: the input formatters for card number, expiry
    date and CVV, the validation that lists every problem in a fixed order,
    and the charge that is sent once the form is valid. The gateway's answer
    and the current month are parameters. */
module PaymentForm {
  import opened Wrappers
  import opened Text
  import opened Arith

  // ---------------------------------------------------------------------
  // Card number formatter

  /** `s.replace(/(.{4})/g, '$1 ')` on a string without line terminators:
      a space after every complete group of four characters. */
  function SpaceAfterFours(s: string): string {
    if |s| < 4 then s else s[..4] + " " + SpaceAfterFours(s[4..])
  }

  /** The card number input handler: white space removed, a space after
      each group of four, then trimmed. */
  function FormatCardNumber(v: string): string {
    Trim(SpaceAfterFours(StripSpaces(v)))
  }

  /** Reference layout: groups of four characters joined by single spaces,
      the last group possibly shorter. */
  function Group4(s: string): (r: string)
    ensures |s| > 0 ==> |r| > 0 && r[0] == s[0] && r[|r| - 1] == s[|s| - 1]
    ensures |s| == 0 ==> r == []
  {
    if |s| <= 4 then s else s[..4] + " " + Group4(s[4..])
  }

  lemma {:induction false} SpaceAfterFoursGroups(s: string)
    ensures SpaceAfterFours(s) == Group4(s) + (if |s| > 0 && |s| % 4 == 0 then " " else "")
  {
    if |s| > 4 {
      var tail := s[4..];
      SpaceAfterFoursGroups(tail);
      assert |tail| % 4 == |s| % 4;
      var sfx := if |tail| % 4 == 0 then " " else "";
      assert SpaceAfterFours(s) == s[..4] + " " + (Group4(tail) + sfx);
      assert Group4(s) + sfx == s[..4] + " " + Group4(tail) + sfx;
    } else if |s| == 4 {
      assert SpaceAfterFours(s[4..]) == [];
      assert SpaceAfterFours(s) == s[..4] + " ";
      assert s[..4] == s;
    }
  }

  lemma TrimStartKeeps(s: string)
    requires s != [] && !IsSpace(s[0])
    ensures TrimStart(s) == s
  {
  }

  lemma TrimEndKeeps(s: string)
    requires s != [] && !IsSpace(s[|s| - 1])
    ensures TrimEnd(s) == s
  {
  }

  lemma TrimEndOneSpace(s: string)
    requires s != [] && !IsSpace(s[|s| - 1])
    ensures TrimEnd(s + " ") == s
  {
    assert (s + " ")[..|s|] == s;
  }

  /** The formatter produces exactly the reference layout of the card
      number's non-space characters. */
  lemma FormatCardNumberIsGroup4(v: string)
    ensures FormatCardNumber(v) == Group4(StripSpaces(v))
  {
    var s := StripSpaces(v);
    var g := Group4(s);
    SpaceAfterFoursGroups(s);
    if s != [] {
      assert !IsSpace(s[0]) && !IsSpace(s[|s| - 1]);
      if |s| % 4 == 0 {
        assert (g + " ")[0] == g[0];
        TrimStartKeeps(g + " ");
        TrimEndOneSpace(g);
      } else {
        assert SpaceAfterFours(s) == g;
        TrimStartKeeps(g);
        TrimEndKeeps(g);
      }
    }
  }

  /** Removing the spaces from the layout gives back the characters. */
  lemma {:induction false} Group4Strip(s: string)
    requires NoSpace(s)
    ensures StripSpaces(Group4(s)) == s
  {
    if |s| <= 4 {
      StripSpacesNoSpace(s);
    } else {
      var g := Group4(s[4..]);
      Group4Strip(s[4..]);
      StripSpacesNoSpace(s[..4]);
      assert Group4(s) == s[..4] + (" " + g);
      StripSpacesAppend(s[..4], " " + g);
      StripSpacesAppend(" ", g);
      assert StripSpaces(" ") == [];
      assert s == s[..4] + s[4..];
    }
  }

  /** Position k of the layout is a space exactly when k is 4 modulo 5;
      every other position holds the next character in order. */
  lemma {:induction false} Group4At(s: string, k: int)
    requires 0 <= k < |Group4(s)|
    ensures |s| > 0 ==> |Group4(s)| == |s| + (|s| - 1) / 4
    ensures Group4(s)[k] == if k % 5 == 4 then ' ' else s[k - k / 5]
    decreases |s|
  {
    if |s| > 4 {
      var g := Group4(s);
      if k >= 5 {
        Group4At(s[4..], k - 5);
        assert (k - 5) % 5 == k % 5 && (k - 5) / 5 == k / 5 - 1;
        assert g[k] == Group4(s[4..])[k - 5];
      } else {
        assert k / 5 == 0 && k % 5 == k;
      }
      if |s| <= 8 {
        assert |s[4..]| == |s| - 4;
      } else {
        Group4At(s[4..], 0);
      }
    } else {
      assert k / 5 == 0 && k % 5 == k;
    }
  }

  /** Removing the spaces from a formatted card number gives the input
      without its white space. */
  lemma FormatCardNumberRoundTrip(v: string)
    ensures StripSpaces(FormatCardNumber(v)) == StripSpaces(v)
  {
    FormatCardNumberIsGroup4(v);
    Group4Strip(StripSpaces(v));
  }

  /** Formatting an already formatted card number changes nothing. */
  lemma FormatCardNumberIdempotent(v: string)
    ensures FormatCardNumber(FormatCardNumber(v)) == FormatCardNumber(v)
  {
    FormatCardNumberIsGroup4(v);
    FormatCardNumberIsGroup4(FormatCardNumber(v));
    Group4Strip(StripSpaces(v));
  }

  // ---------------------------------------------------------------------
  // Expiry and CVV formatters

  function Min(a: int, b: int): int { if a < b then a else b }

  /** The expiry layout of a digit string: a '/' after the first two
      digits when there are at least two, cut to five characters. */
  function ExpiryLayout(d: string): string {
    var t := if |d| >= 2 then d[..2] + "/" + d[2..] else d;
    t[..Min(|t|, 5)]
  }

  lemma ExpiryLayoutFacts(d: string)
    requires AllDigits(d)
    ensures var r := ExpiryLayout(d);
      && |r| <= 5
      && (forall k :: 0 <= k < |r| ==> (r[k] == '/' <==> k == 2) && (k != 2 ==> IsDigit(r[k])))
      && KeepDigits(r) == d[..Min(|d|, 4)]
      && (|r| == 5 <==> |d| >= 4)
      && (|d| >= 2 ==> |r| == Min(|d|, 4) + 1)
      && (|d| < 2 ==> r == d)
  {
    var r := ExpiryLayout(d);
    var m := Min(|d|, 4);
    if |d| >= 2 {
      var t := d[..2] + "/" + d[2..];
      assert |t| == |d| + 1;
      assert Min(|t|, 5) == m + 1;
      assert t[..m + 1] == (d[..2] + "/") + d[2..][..m - 2];
      assert d[2..][..m - 2] == d[2..m];
      assert r == d[..2] + ("/" + d[2..m]);
      KeepDigitsOfDigits(d[..2]);
      KeepDigitsOfDigits(d[2..m]);
      KeepDigitsAppend(d[..2], "/" + d[2..m]);
      KeepDigitsAppend("/", d[2..m]);
      assert KeepDigits("/") == [];
      assert d[..m] == d[..2] + d[2..m];
    } else {
      KeepDigitsOfDigits(d);
    }
  }

  /** The expiry input handler: digits only, a '/' after the first two
      digits when there are at least two, then cut to five characters. */
  function FormatExpiry(v: string): (r: string)
    ensures |r| <= 5
    ensures forall k :: 0 <= k < |r| ==> (r[k] == '/' <==> k == 2) && (k != 2 ==> IsDigit(r[k]))
    ensures var d := KeepDigits(v);
      KeepDigits(r) == d[..Min(|d|, 4)]
    ensures |r| == 5 <==> |KeepDigits(v)| >= 4
    ensures |KeepDigits(v)| >= 2 ==> |r| == Min(|KeepDigits(v)|, 4) + 1
    ensures |KeepDigits(v)| < 2 ==> r == KeepDigits(v)
  {
    ExpiryLayoutFacts(KeepDigits(v));
    ExpiryLayout(KeepDigits(v))
  }

  /** Formatting an already formatted expiry date changes nothing. */
  lemma FormatExpiryIdempotent(v: string)
    ensures FormatExpiry(FormatExpiry(v)) == FormatExpiry(v)
  {
    var r := FormatExpiry(v);
    var d := KeepDigits(v);
    var d2 := KeepDigits(r);
    assert d2 == d[..Min(|d|, 4)];
    var r2 := FormatExpiry(r);
    assert |r2| == |r|;
    forall k | 0 <= k < |r| ensures r2[k] == r[k] {
      if k < 2 {
        assert KeepDigits(r2)[k] == r2[k] by { DigitsBeforeSlash(r2, k); }
        assert KeepDigits(r)[k] == r[k] by { DigitsBeforeSlash(r, k); }
      } else if k > 2 {
        assert KeepDigits(r2)[k - 1] == r2[k] by { DigitsAfterSlash(r2, k); }
        assert KeepDigits(r)[k - 1] == r[k] by { DigitsAfterSlash(r, k); }
      }
    }
  }

  /** In a formatted expiry, the characters before the slash are the first
      digits. */
  lemma DigitsBeforeSlash(r: string, k: int)
    requires |r| <= 5 && 0 <= k < 2 && k < |r|
    requires forall j :: 0 <= j < |r| ==> (r[j] == '/' <==> j == 2) && (j != 2 ==> IsDigit(r[j]))
    ensures k < |KeepDigits(r)| && KeepDigits(r)[k] == r[k]
  {
    var a := r[..Min(|r|, 2)];
    var b := r[Min(|r|, 2)..];
    assert r == a + b;
    KeepDigitsAppend(a, b);
    KeepDigitsOfDigits(a);
  }

  /** In a formatted expiry, a character after the slash is the digit one
      place earlier in the digit string. */
  lemma DigitsAfterSlash(r: string, k: int)
    requires |r| <= 5 && 2 < k < |r|
    requires forall j :: 0 <= j < |r| ==> (r[j] == '/' <==> j == 2) && (j != 2 ==> IsDigit(r[j]))
    ensures k - 1 < |KeepDigits(r)| && KeepDigits(r)[k - 1] == r[k]
  {
    assert r == r[..2] + "/" + r[3..];
    KeepDigitsAppend(r[..2], "/" + r[3..]);
    KeepDigitsAppend("/", r[3..]);
    assert KeepDigits("/") == [];
    KeepDigitsOfDigits(r[..2]);
    KeepDigitsOfDigits(r[3..]);
    assert r == r[..2] + ("/" + r[3..]);
    assert KeepDigits("/" + r[3..]) == r[3..];
    assert KeepDigits(r) == r[..2] + r[3..];
    assert (r[..2] + r[3..])[k - 1] == r[3..][k - 3] == r[k];
  }

  /** The CVV input handler: the first four digits. */
  function FormatCvv(v: string): (r: string)
    ensures AllDigits(r) && |r| <= 4
    ensures r <= KeepDigits(v)
    ensures |r| == Min(|KeepDigits(v)|, 4)
  {
    KeepDigits(v)[..Min(|KeepDigits(v)|, 4)]
  }

  lemma FormatCvvIdempotent(v: string)
    ensures FormatCvv(FormatCvv(v)) == FormatCvv(v)
  {
    KeepDigitsOfDigits(FormatCvv(v));
  }

  // ---------------------------------------------------------------------
  // Form state and validation

  datatype BillingAddress = BillingAddress(street: string, city: string, state: string, zipCode: string, country: string)

  datatype CardForm = CardForm(
    cardNumber: string,
    expiryDate: string,
    cvv: string,
    cardHolderName: string,
    billing: BillingAddress)

  function InitialForm(): CardForm {
    CardForm("", "", "", "", BillingAddress("", "", "", "", "US"))
  }

  datatype AddressField = Street | City | State | ZipCode | Country

  /** The inputs of the form; the address ones are named `billing.<field>`. */
  datatype FormField = CardNumber | ExpiryDate | Cvv | CardHolderName | Billing(part: AddressField)

  /** `handleFormChange`: the named field takes the new value, passed
      through its formatter for card number, expiry and CVV; nothing else
      changes. */
  function Change(f: CardForm, field: FormField, value: string): (r: CardForm)
    ensures field == CardNumber ==> r == f.(cardNumber := FormatCardNumber(value))
    ensures field == ExpiryDate ==> r == f.(expiryDate := FormatExpiry(value))
    ensures field == Cvv ==> r == f.(cvv := FormatCvv(value))
    ensures field == CardHolderName ==> r == f.(cardHolderName := value)
    ensures field.Billing? ==> r.(billing := f.billing) == f
    ensures field == Billing(Street) ==> r.billing == f.billing.(street := value)
    ensures field == Billing(City) ==> r.billing == f.billing.(city := value)
    ensures field == Billing(State) ==> r.billing == f.billing.(state := value)
    ensures field == Billing(ZipCode) ==> r.billing == f.billing.(zipCode := value)
    ensures field == Billing(Country) ==> r.billing == f.billing.(country := value)
  {
    match field
    case Billing(part) =>
      var b := f.billing;
      f.(billing := match part
        case Street => b.(street := value)
        case City => b.(city := value)
        case State => b.(state := value)
        case ZipCode => b.(zipCode := value)
        case Country => b.(country := value))
    case CardNumber => f.(cardNumber := FormatCardNumber(value))
    case ExpiryDate => f.(expiryDate := FormatExpiry(value))
    case Cvv => f.(cvv := FormatCvv(value))
    case CardHolderName => f.(cardHolderName := value)
  }

  /** The validation messages, in the order they are checked. */
  datatype CardError =
    | InvalidCardNumber
    | InvalidExpiry
    | CardExpired
    | InvalidCvv
    | MissingCardHolder
    | MissingStreet
    | MissingCity
    | MissingState
    | MissingZip

  /** The position of each check; the two expiry messages share one. */
  function Rank(e: CardError): int {
    match e
    case InvalidCardNumber => 0
    case InvalidExpiry => 1
    case CardExpired => 1
    case InvalidCvv => 2
    case MissingCardHolder => 3
    case MissingStreet => 4
    case MissingCity => 5
    case MissingState => 6
    case MissingZip => 7
  }

  /** A calendar month as the browser clock reports it; `month` counts from
      1. */
  datatype YearMonth = YearMonth(year: int, month: int)

  /** `s.split('/')[0]` and `s.split('/')[1]`; the second is undefined when
      there is no '/'. */
  function SlashParts(s: string): (string, Option<string>) {
    match Find(s, '/')
    case None => (s, None)
    case Some(i) =>
      var rest := s[i + 1..];
      match Find(rest, '/')
      case None => (s[..i], Some(rest))
      case Some(j) => (s[..i], Some(rest[..j]))
  }

  /** With exactly one '/', the two parts are what surrounds it. */
  lemma SlashPartsAt(s: string, i: nat)
    requires i < |s| && s[i] == '/' && '/' !in s[..i] && '/' !in s[i + 1..]
    ensures SlashParts(s) == (s[..i], Some(s[i + 1..]))
  {
    FindAt(s, '/', i);
    assert Find(s[i + 1..], '/') == None;
  }

  /** `new Date(2000 + parseInt(year), parseInt(month) - 1)` as a count of
      months, the way `Date` carries an out-of-range month into the year;
      None when either part is not a number. */
  function MonthCount(month: string, year: Option<string>): Option<int> {
    var m := ParseInt(month);
    var y := if year.Some? then ParseInt(year.value) else None;
    if m.Some? && y.Some? then Some((2000 + y.value) * 12 + (m.value - 1)) else None
  }

  /** The month count of the expiry field's two parts. */
  function ExpiryMonth(expiry: string): Option<int> {
    var parts := SlashParts(expiry);
    MonthCount(parts.0, parts.1)
  }

  lemma ExpiryMonthIs(s: string, mm: string, yy: string, m: int, y: int)
    requires SlashParts(s) == (mm, Some(yy))
    requires ParseInt(mm) == Some(m) && ParseInt(yy) == Some(y)
    ensures ExpiryMonth(s) == Some((2000 + y) * 12 + (m - 1))
  {
    assert MonthCount(mm, Some(yy)) == Some((2000 + y) * 12 + (m - 1));
  }

  /** `expiry <= currentDate`: the expiry month has begun. A date that is
      not a number compares false, so it is never expired. */
  predicate Expired(expiry: string, today: YearMonth) {
    match ExpiryMonth(expiry)
    case Some(e) => e <= today.year * 12 + (today.month - 1)
    case None => false
  }

  predicate Missing(s: string) { Trim(s) == [] }

  /** Messages in strictly increasing check order. */
  predicate Ascending(r: seq<CardError>) {
    forall i, j :: 0 <= i < j < |r| ==> Rank(r[i]) < Rank(r[j])
  }

  /** The messages of the checks of `validatePaymentForm`, in the order it
      runs them; no two are alike. */
  const Messages: seq<CardError> := [InvalidCardNumber, InvalidExpiry, CardExpired, InvalidCvv,
    MissingCardHolder, MissingStreet, MissingCity, MissingState, MissingZip]

  /** The messages of the failing checks, in check order. */
  function Failures(fails: seq<bool>, msgs: seq<CardError>): (r: seq<CardError>)
    requires |fails| == |msgs|
    ensures |r| <= |msgs|
  {
    if fails == [] then [] else (if fails[0] then [msgs[0]] else []) + Failures(fails[1..], msgs[1..])
  }

  /** Every reported message comes from a failing check. */
  lemma {:induction false} FailuresFrom(fails: seq<bool>, msgs: seq<CardError>, x: CardError)
    requires |fails| == |msgs| && x in Failures(fails, msgs)
    ensures exists j :: 0 <= j < |msgs| && fails[j] && msgs[j] == x
  {
    if !(fails[0] && msgs[0] == x) {
      FailuresFrom(fails[1..], msgs[1..], x);
      var j :| 0 <= j < |msgs[1..]| && fails[1..][j] && msgs[1..][j] == x;
      assert fails[j + 1] && msgs[j + 1] == x;
    }
  }

  /** A message no check reports is never reported. */
  lemma {:induction false} FailuresAvoid(fails: seq<bool>, msgs: seq<CardError>, e: CardError)
    requires |fails| == |msgs|
    requires forall j :: 0 <= j < |msgs| ==> msgs[j] != e
    ensures e !in Failures(fails, msgs)
  {
    if fails != [] {
      assert forall j :: 0 <= j < |msgs[1..]| ==> msgs[1..][j] == msgs[j + 1];
      FailuresAvoid(fails[1..], msgs[1..], e);
    }
  }

  /** A message that only one check can report is reported exactly when
      that check fails. */
  lemma {:induction false} FailuresMember(fails: seq<bool>, msgs: seq<CardError>, k: nat)
    requires |fails| == |msgs| && k < |msgs|
    requires forall j :: 0 <= j < |msgs| && j != k ==> msgs[j] != msgs[k]
    ensures msgs[k] in Failures(fails, msgs) <==> fails[k]
  {
    var e := msgs[k];
    if k == 0 {
      forall j | 0 <= j < |msgs[1..]| ensures msgs[1..][j] != e {
        assert msgs[1..][j] == msgs[j + 1];
      }
      FailuresAvoid(fails[1..], msgs[1..], e);
    } else {
      assert e != msgs[0];
      forall j | 0 <= j < |msgs[1..]| && j != k - 1
        ensures msgs[1..][j] != msgs[1..][k - 1]
      {
        assert msgs[1..][j] == msgs[j + 1];
      }
      FailuresMember(fails[1..], msgs[1..], k - 1);
    }
  }

  /** When any two checks that can fail together come in increasing rank,
      the messages come in increasing rank. */
  lemma {:induction false} FailuresAscending(fails: seq<bool>, msgs: seq<CardError>)
    requires |fails| == |msgs|
    requires forall i, j :: 0 <= i < j < |msgs| && fails[i] && fails[j] ==> Rank(msgs[i]) < Rank(msgs[j])
    ensures Ascending(Failures(fails, msgs))
  {
    if fails != [] {
      var rest := Failures(fails[1..], msgs[1..]);
      assert forall j :: 0 <= j < |msgs[1..]| ==> fails[1..][j] == fails[j + 1] && msgs[1..][j] == msgs[j + 1];
      FailuresAscending(fails[1..], msgs[1..]);
      if fails[0] {
        forall m | 0 <= m < |rest| ensures Rank(msgs[0]) < Rank(rest[m]) {
          FailuresFrom(fails[1..], msgs[1..], rest[m]);
          var j :| 0 <= j < |msgs[1..]| && fails[1..][j] && msgs[1..][j] == rest[m];
          assert fails[j + 1] && msgs[j + 1] == rest[m];
        }
        assert Failures(fails, msgs) == [msgs[0]] + rest;
      }
    }
  }

  lemma MessagesDistinct(k: nat)
    requires k < |Messages|
    ensures forall j :: 0 <= j < |Messages| && j != k ==> Messages[j] != Messages[k]
  {
  }

  /** Later checks have higher ranks, except that the two expiry messages
      share one. */
  lemma MessagesRanked()
    ensures forall i, j :: 0 <= i < j < |Messages| && !(i == 1 && j == 2) ==> Rank(Messages[i]) < Rank(Messages[j])
  {
  }

  /** Which checks fail, in the order of `Messages`: card number length,
      expiry length, expiry date (only for a full-length expiry), CVV
      length, then the five required text fields. */
  function Checks(f: CardForm, today: YearMonth): (fails: seq<bool>)
    ensures |fails| == |Messages|
    ensures !(fails[1] && fails[2])
  {
    var card := StripSpaces(f.cardNumber);
    Layout(card == [] || Utf16Length(card) < 13 || Utf16Length(card) > 19,
      f.expiryDate == [] || |f.expiryDate| != 5,
      Expired(f.expiryDate, today),
      f.cvv == [] || |f.cvv| < 3,
      [Missing(f.cardHolderName), Missing(f.billing.street), Missing(f.billing.city),
       Missing(f.billing.state), Missing(f.billing.zipCode)])
  }

  /** The check results in message order; the expiry date is only
      examined when the expiry has the right length. */
  function Layout(badCard: bool, badExpiry: bool, expired: bool, badCvv: bool, missing: seq<bool>): (fails: seq<bool>)
    requires |missing| == 5
    ensures |fails| == |Messages|
    ensures !(fails[1] && fails[2])
    ensures fails[0] == badCard && fails[1] == badExpiry && fails[2] == (!badExpiry && expired)
    ensures fails[3] == badCvv && fails[4..] == missing
  {
    [badCard, badExpiry, !badExpiry && expired, badCvv] + missing
  }

  /** Each message is reported exactly when its own check fails. */
  lemma MembersOf(fails: seq<bool>)
    requires |fails| == |Messages|
    ensures InvalidCardNumber in Failures(fails, Messages) <==> fails[0]
    ensures InvalidExpiry in Failures(fails, Messages) <==> fails[1]
    ensures CardExpired in Failures(fails, Messages) <==> fails[2]
    ensures InvalidCvv in Failures(fails, Messages) <==> fails[3]
    ensures MissingCardHolder in Failures(fails, Messages) <==> fails[4]
    ensures MissingStreet in Failures(fails, Messages) <==> fails[5]
    ensures MissingCity in Failures(fails, Messages) <==> fails[6]
    ensures MissingState in Failures(fails, Messages) <==> fails[7]
    ensures MissingZip in Failures(fails, Messages) <==> fails[8]
  {
    MessagesDistinct(0); FailuresMember(fails, Messages, 0);
    MessagesDistinct(1); FailuresMember(fails, Messages, 1);
    MessagesDistinct(2); FailuresMember(fails, Messages, 2);
    MessagesDistinct(3); FailuresMember(fails, Messages, 3);
    MessagesDistinct(4); FailuresMember(fails, Messages, 4);
    MessagesDistinct(5); FailuresMember(fails, Messages, 5);
    MessagesDistinct(6); FailuresMember(fails, Messages, 6);
    MessagesDistinct(7); FailuresMember(fails, Messages, 7);
    MessagesDistinct(8); FailuresMember(fails, Messages, 8);
  }

  /** Whatever fails, the messages are in check order as long as the two
      expiry checks do not both fail. */
  lemma ExclusiveExpiryAscending(fails: seq<bool>)
    requires |fails| == |Messages| && !(fails[1] && fails[2])
    ensures Ascending(Failures(fails, Messages))
  {
    MessagesRanked();
    forall i, j | 0 <= i < j < |Messages| && fails[i] && fails[j] ensures Rank(Messages[i]) < Rank(Messages[j]) {
      assert !(i == 1 && j == 2);
    }
    FailuresAscending(fails, Messages);
  }

  /** `validatePaymentForm`: every failed check, in check order. Each
      message is present exactly when its check fails, and the messages
      come in the order of the checks. */
  function Validate(f: CardForm, today: YearMonth): (r: seq<CardError>)
    ensures InvalidCardNumber in r <==> !(13 <= Utf16Length(StripSpaces(f.cardNumber)) <= 19)
    ensures InvalidExpiry in r <==> |f.expiryDate| != 5
    ensures CardExpired in r <==> |f.expiryDate| == 5 && Expired(f.expiryDate, today)
    ensures InvalidCvv in r <==> |f.cvv| < 3
    ensures MissingCardHolder in r <==> Blank(f.cardHolderName)
    ensures MissingStreet in r <==> Blank(f.billing.street)
    ensures MissingCity in r <==> Blank(f.billing.city)
    ensures MissingState in r <==> Blank(f.billing.state)
    ensures MissingZip in r <==> Blank(f.billing.zipCode)
    ensures Ascending(r)
  {
    var cs := Checks(f, today);
    MembersOf(cs);
    TrimEmptyIffBlank(f.cardHolderName);
    TrimEmptyIffBlank(f.billing.street);
    TrimEmptyIffBlank(f.billing.city);
    TrimEmptyIffBlank(f.billing.state);
    TrimEmptyIffBlank(f.billing.zipCode);
    ExclusiveExpiryAscending(cs);
    Failures(cs, Messages)
  }

  /** At most one expiry message is ever reported. */
  lemma OneExpiryError(f: CardForm, today: YearMonth)
    ensures !(InvalidExpiry in Validate(f, today) && CardExpired in Validate(f, today))
  {
  }

  /** A field shaped `MM/YY`: two digits, a slash, two digits. */
  predicate WellFormedExpiry(s: string) {
    |s| == 5 && s[2] == '/' && AllDigits(s[..2]) && AllDigits(s[3..])
  }

  /** The two parts of a well-formed `MM/YY` and the numbers they read as. */
  lemma ExpiryParts(s: string)
    requires WellFormedExpiry(s)
    ensures SlashParts(s) == (s[..2], Some(s[3..]))
    ensures ParseInt(s[..2]) == Some(DecimalValue(s[..2]))
    ensures ParseInt(s[3..]) == Some(DecimalValue(s[3..]))
  {
    assert '/' !in s[..2] by {
      assert !IsDigit('/');
      assert forall k :: 0 <= k < 2 ==> s[..2][k] != '/';
    }
    assert '/' !in s[3..] by {
      assert !IsDigit('/');
      assert forall k :: 0 <= k < |s[3..]| ==> s[3..][k] != '/';
    }
    SlashPartsAt(s, 2);
    ParseIntOfDigits(s[..2]);
    ParseIntOfDigits(s[3..]);
  }

  /** The month count of a well-formed `MM/YY`. */
  lemma ExpiryMonthOf(s: string)
    requires WellFormedExpiry(s)
    ensures ExpiryMonth(s) == Some((2000 + DecimalValue(s[3..])) * 12 + (DecimalValue(s[..2]) - 1))
  {
    ExpiryParts(s);
    ExpiryMonthIs(s, s[..2], s[3..], DecimalValue(s[..2]), DecimalValue(s[3..]));
  }

  /** A well-formed `MM/YY` is expired exactly when its month is not later
      than the current one: the current month itself is rejected. */
  lemma ExpiredMonthOrder(s: string, today: YearMonth)
    requires WellFormedExpiry(s)
    ensures Expired(s, today) <==>
      (2000 + DecimalValue(s[3..])) * 12 + DecimalValue(s[..2]) <= today.year * 12 + today.month
  {
    ExpiryMonthOf(s);
  }

  // ---------------------------------------------------------------------
  // Charging

  /** `Math.round(total * 2.9 / 100)`: the 2.9% processing fee, rounded. */
  function ProcessingFee(total: int): (fee: int)
    ensures 1000 * (2 * fee - 1) <= 58 * total < 1000 * (2 * fee + 1)
    ensures total >= 0 ==> 0 <= fee <= total
  {
    var fee := RoundDiv(29 * total, 1000);
    assert total >= 0 ==> 0 <= fee <= total by {
      if total >= 0 {
        RoundDivBounds(29 * total, 1000, total);
      }
    }
    fee
  }

  /** What is sent to the card gateway. */
  datatype ChargeRequest = ChargeRequest(
    amountCents: int,
    currency: string,
    bookingId: string,
    guestEmail: string,
    cardNumber: string,
    cvc: string,
    cardHolderName: string)

  /** The gateway's reply: the HTTP status, the `success` flag and the
      payment intent's Id if there is one. */
  datatype GatewayResponse = GatewayResponse(ok: bool, success: bool, paymentIntentId: Option<string>)

  /** What `onPaymentComplete` receives. */
  datatype PaymentResult = PaymentResult(paymentId: string, amount: int, processingFee: int, paymentMethod: string, status: string)

  /** How a submission ends: rejected by validation (nothing is sent),
      failed (a toast; the request, if it was built, is kept), or paid. */
  datatype Outcome =
    | Rejected(errors: seq<CardError>)
    | Failed(sent: Option<ChargeRequest>)
    | Paid(request: ChargeRequest, result: PaymentResult)

  /** The summary shown beside the form: the stay total plus the fee. */
  function FinalAmount(total: int): int {
    total + ProcessingFee(total)
  }

  /** `processPayment` for a booking with the given total, Id and guest
      e-mail; `hasRoom` says whether the draft carries a room, without which
      building the request throws. */
  function Submit(f: CardForm, today: YearMonth, total: int, bookingId: string, guestEmail: string,
                  hasRoom: bool, response: GatewayResponse): (r: Outcome)
    ensures r.Rejected? <==> Validate(f, today) != []
    ensures r.Rejected? ==> r.errors == Validate(f, today)
    ensures r.Paid? <==> Validate(f, today) == [] && hasRoom && response.ok && response.success && response.paymentIntentId.Some?
    ensures r.Failed? && r.sent.Some? ==> hasRoom
    ensures r.Paid? ==>
      && r.request.amountCents == 100 * r.result.amount
      && r.result.amount == total + r.result.processingFee
      && r.result.processingFee == ProcessingFee(total)
      && r.result.paymentId == response.paymentIntentId.value
      && r.result.status == "completed" && r.result.paymentMethod == "stripe"
    ensures (r.Paid? || (r.Failed? && r.sent.Some?)) ==>
      var req := if r.Paid? then r.request else r.sent.value;
      && req.amountCents == 100 * FinalAmount(total)
      && req.cardNumber == StripSpaces(f.cardNumber)
      && req.bookingId == bookingId && req.guestEmail == guestEmail
      && req.cvc == f.cvv && req.cardHolderName == f.cardHolderName
      && req.currency == "usd"
  {
    var errors := Validate(f, today);
    if errors != [] then Rejected(errors)
    else if !hasRoom then Failed(None)
    else Charge(BuildRequest(f, total, bookingId, guestEmail), total, response)
  }

  /** The request for the stay total plus the fee, in cents, with the card
      number stripped of its spaces. */
  function BuildRequest(f: CardForm, total: int, bookingId: string, guestEmail: string): (req: ChargeRequest)
    ensures req.amountCents == 100 * FinalAmount(total)
    ensures req.cardNumber == StripSpaces(f.cardNumber) && req.cvc == f.cvv && req.cardHolderName == f.cardHolderName
    ensures req.bookingId == bookingId && req.guestEmail == guestEmail && req.currency == "usd"
  {
    ChargeRequest((total + ProcessingFee(total)) * 100, "usd", bookingId, guestEmail,
      StripSpaces(f.cardNumber), f.cvv, f.cardHolderName)
  }

  /** Sending a built request: an HTTP error or a reply without success or
      without a payment intent is a failure that keeps the request. */
  function Charge(request: ChargeRequest, total: int, response: GatewayResponse): (r: Outcome)
    requires request.amountCents == 100 * FinalAmount(total)
    ensures r.Paid? <==> response.ok && response.success && response.paymentIntentId.Some?
    ensures r.Failed? <==> !r.Paid?
    ensures r.Failed? ==> r.sent == Some(request)
    ensures r.Paid? ==>
      && r.request == request
      && r.request.amountCents == 100 * r.result.amount
      && r.result.amount == total + r.result.processingFee
      && r.result.processingFee == ProcessingFee(total)
      && r.result.paymentId == response.paymentIntentId.value
      && r.result.status == "completed" && r.result.paymentMethod == "stripe"
  {
    var fee := ProcessingFee(total);
    if !response.ok then Failed(Some(request))
    else if response.success && response.paymentIntentId.Some? then
      Paid(request, PaymentResult(response.paymentIntentId.value, total + fee, fee, "stripe", "completed"))
    else Failed(Some(request))
  }

  /** A valid, well-formed expiry: four digits typed into the formatter
      give a five-character date that passes the length check. */
  lemma FourDigitsGiveFullExpiry(v: string)
    requires |KeepDigits(v)| >= 4
    ensures InvalidExpiry !in Validate(CardForm("", FormatExpiry(v), "", "", BillingAddress("", "", "", "", "")), YearMonth(0, 1))
  {
  }
}

=== FILE: profile_page.dfy ===
/** The profile page: the current user's profile, shown read-only until
    "Edit Profile" is pressed, then edited in a draft that is either saved
    through the profile service or thrown away. */
module ProfilePage {
  import opened Wrappers
  import opened Store
  import opened Hotel
  import ProfileService

  /** `profile` is the profile as last loaded or saved, `draft` the form's
      data; None stands for the empty object an empty store yields. */
  datatype Page = Page(profile: Option<Rec<Profile>>, draft: Option<Rec<Profile>>, editing: bool)

  /** `loadProfile`: the profile and the draft both start as the current
      profile, not in edit mode. */
  function Load(store: seq<Rec<Profile>>): (p: Page)
    ensures p.profile == p.draft && !p.editing
    ensures store != [] ==> p.profile == Some(store[0])
    ensures store == [] ==> p.profile.None?
  {
    var current := ProfileService.CurrentProfile(store);
    Page(current, current, false)
  }

  /** "Edit Profile" */
  function Edit(p: Page): (r: Page)
    ensures r.editing && r.(editing := p.editing) == p
  {
    p.(editing := true)
  }

  /** The fields with an input on the page. */
  datatype Field = FirstName | LastName | Email | Phone | Department | Address | EmergencyContact

  /** The department input is shown to every role but GUEST. */
  predicate ShowsDepartment(p: Page) {
    p.profile.Some? && p.profile.value.body.role != "GUEST"
  }

  function Set(b: Profile, field: Field, value: string): Profile {
    match field
    case FirstName => b.(firstName := value)
    case LastName => b.(lastName := value)
    case Email => b.(email := value)
    case Phone => b.(phone := value)
    case Department => b.(department := value)
    case Address => b.(address := value)
    case EmergencyContact => b.(emergencyContact := value)
  }

  function Get(b: Profile, field: Field): string {
    match field
    case FirstName => b.firstName
    case LastName => b.lastName
    case Email => b.email
    case Phone => b.phone
    case Department => b.department
    case Address => b.address
    case EmergencyContact => b.emergencyContact
  }

  /** `handleInputChange`: typing into an input sets that field of the
      draft. Inputs are disabled outside edit mode, and the department
      input is not there for a GUEST, so those changes have no effect. */
  function Change(p: Page, field: Field, value: string): (r: Page)
    ensures r.profile == p.profile && r.editing == p.editing && r.draft.Some? == p.draft.Some?
    ensures !p.editing || (field == Department && !ShowsDepartment(p)) || p.draft.None? ==> r == p
    ensures p.editing && (field != Department || ShowsDepartment(p)) && p.draft.Some? ==>
      && r.draft.value.id == p.draft.value.id
      && Get(r.draft.value.body, field) == value
      && forall other :: other != field ==> Get(r.draft.value.body, other) == Get(p.draft.value.body, other)
    ensures r.draft.Some? ==>
      var (a, b) := (p.draft.value.body, r.draft.value.body);
      b.role == a.role && b.status == a.status && b.joinDate == a.joinDate && b.permissions == a.permissions
  {
    if !p.editing || (field == Department && !ShowsDepartment(p)) then p
    else match p.draft
      case None => p
      case Some(d) => p.(draft := Some(Rec(d.id, Set(d.body, field, value))))
  }

  /** `handleCancel`: the draft goes back to the profile and edit mode
      ends. */
  function Cancel(p: Page): (r: Page)
    ensures r.draft == r.profile == p.profile && !r.editing
  {
    p.(draft := p.profile, editing := false)
  }

  /** `handleSaveProfile`: the whole draft is sent as the update of the
      profile's Id. On success the page shows the saved profile and leaves
      edit mode, keeping its draft; on failure nothing changes. */
  function Save(p: Page, store: seq<Rec<Profile>>): (r: (Page, seq<Rec<Profile>>))
    ensures p.profile.None? || p.draft.None? || !HasId(store, p.profile.value.id) ==> r == (p, store)
    ensures p.profile.Some? && p.draft.Some? && HasId(store, p.profile.value.id) ==>
      && r.0 == p.(profile := r.0.profile, editing := false)
      && r.0.profile.Some? && r.0.profile.value.id == p.profile.value.id
      && r.0.profile.value in r.1 && |r.1| == |store|
  {
    match (p.profile, p.draft)
    case (Some(current), Some(d)) =>
      (match ProfileService.Update(store, current.id, ProfileService.FullPatch(d.body))
       case Err(_) => (p, store)
       case Ok((saved, updated)) =>
         SavedIsStored(store, current.id, d.body);
         (p.(profile := Some(updated), editing := false), saved))
    case _ => (p, store)
  }

  lemma SavedIsStored(store: seq<Rec<Profile>>, id: int, draft: Profile)
    requires ProfileService.Update(store, id, ProfileService.FullPatch(draft)).Ok?
    ensures var r := ProfileService.Update(store, id, ProfileService.FullPatch(draft)).value;
      r.1 in r.0 && |r.0| == |store|
  {
    var r := ProfileService.Update(store, id, ProfileService.FullPatch(draft)).value;
    var k :| 0 <= k < |store| && store[k].id == id && r.0 == store[k := r.1]
      && ProfileService.Patched(store[k].body, ProfileService.FullPatch(draft), r.1.body);
    assert r.0[k] == r.1;
  }

  /** The saved profile is the draft, except that a non-empty role brings
      its own permissions with it. */
  lemma SaveStoresDraft(p: Page, store: seq<Rec<Profile>>)
    requires p.profile.Some? && p.draft.Some? && HasId(store, p.profile.value.id)
    ensures var (saved, d) := (Save(p, store).0.profile.value.body, p.draft.value.body);
      && saved.(permissions := d.permissions) == d
      && saved.permissions == if d.role != "" then ProfileService.PermissionsByRole(d.role) else d.permissions
  {
    var r := ProfileService.Update(store, p.profile.value.id, ProfileService.FullPatch(p.draft.value.body)).value;
    var k :| 0 <= k < |store| && store[k].id == p.profile.value.id && r.0 == store[k := r.1]
      && ProfileService.Patched(store[k].body, ProfileService.FullPatch(p.draft.value.body), r.1.body);
  }
}

=== FILE: profile_service.dfy ===
/** The profile service: the generic store, with permissions derived from a
    fixed role table and updates that merge into the stored record. */
module ProfileService {
  import opened Wrappers
  import opened Store
  import opened Hotel
  import Seqs

  const Entity := "Profile"

  /** `_getPermissionsByRole`: the fixed table; any other role has none. */
  function PermissionsByRole(role: string): seq<string> {
    match role
    case "ADMIN" => ["manage_users", "manage_bookings", "manage_rooms", "view_reports", "manage_billing", "system_admin"]
    case "MANAGER" => ["manage_bookings", "manage_rooms", "view_reports", "manage_staff"]
    case "RECEPTION" => ["manage_bookings", "view_guests", "basic_reports"]
    case "STAFF" => ["view_tasks", "update_room_status", "update_maintenance_status"]
    case "GUEST" => ["view_bookings", "manage_profile"]
    case _ => []
  }

  /** `getRoleHierarchy`: the roles from least to most privileged. */
  function RoleHierarchy(): seq<string> {
    ["GUEST", "STAFF", "RECEPTION", "MANAGER", "ADMIN"]
  }

  /** `getRolePermissions`: the table lookup under its public name. */
  function RolePermissions(role: string): (r: seq<string>)
    ensures r != [] <==> role in RoleHierarchy()
    ensures forall i, j :: 0 <= i < j < |r| ==> r[i] != r[j]
  {
    PermissionsByRole(role)
  }

  /** The roles that have permissions are exactly the roles of the
      hierarchy, and the hierarchy lists each of them once. */
  lemma TableMatchesHierarchy(role: string)
    ensures PermissionsByRole(role) != [] <==> role in RoleHierarchy()
    ensures forall i, j :: 0 <= i < j < |RoleHierarchy()| ==> RoleHierarchy()[i] != RoleHierarchy()[j]
  {
  }

  /** The hierarchy is not an inclusion order on permissions: a MANAGER
      may manage staff, an ADMIN may not. */
  lemma HierarchyNotInclusive()
    ensures "manage_staff" in PermissionsByRole("MANAGER")
    ensures "manage_staff" !in PermissionsByRole("ADMIN")
  {
  }

  function ProfileRole(p: Rec<Profile>): string { p.body.role }

  function GetById(s: seq<Rec<Profile>>, id: int): (r: Result<Rec<Profile>, StoreError>)
    ensures r.Ok? <==> HasId(s, id)
    ensures r.Ok? ==> r.value.id == id && r.value in s
    ensures r.Err? ==> r.error == NotFound(Entity, id)
  {
    Store.GetById(s, Entity, id)
  }

  /** `getCurrentProfile`: a copy of the first stored profile. With an
      empty store the copy is the empty object, here None. */
  function CurrentProfile(s: seq<Rec<Profile>>): (r: Option<Rec<Profile>>)
    ensures r.Some? <==> s != []
    ensures r.Some? ==> r.value == s[0] && (UniqueIds(s) ==> GetById(s, r.value.id) == Ok(r.value))
  {
    if s == [] then None else Some(s[0])
  }

  /** `getByRole`: the profiles with exactly that role, in stored order. */
  function GetByRole(s: seq<Rec<Profile>>, role: string): (r: seq<Rec<Profile>>)
    ensures forall k :: 0 <= k < |r| ==> r[k].body.role == role && r[k] in s
    ensures forall k :: 0 <= k < |s| && s[k].body.role == role ==> s[k] in r
  {
    Seqs.Select(s, ProfileRole, role, true)
  }

  /** The selection keeps stored order and multiplicity: it distributes
      over concatenation, and a single profile is kept exactly when it has
      the role. */
  lemma GetByRoleInOrder(a: seq<Rec<Profile>>, b: seq<Rec<Profile>>, x: Rec<Profile>, role: string)
    ensures GetByRole(a + b, role) == GetByRole(a, role) + GetByRole(b, role)
    ensures GetByRole([x], role) == if x.body.role == role then [x] else []
  {
    Seqs.SelectAppend(a, b, ProfileRole, role, true);
    Seqs.SelectSnoc([], x, ProfileRole, role, true);
    assert [] + [x] == [x];
  }

  /** `create`: the Id one above the largest stored, `joinDate` now, status
      "Active" and the permissions of the given role. */
  function Create(s: seq<Rec<Profile>>, fields: Rec<Profile>, now: int): (r: (seq<Rec<Profile>>, Rec<Profile>))
    requires |s| > 0
    ensures HasId(s, r.1.id - 1) && forall k :: 0 <= k < |s| ==> s[k].id < r.1.id
    ensures !HasId(s, r.1.id)
    ensures r.1.body.status == "Active" && r.1.body.joinDate == now
    ensures r.1.body.permissions == PermissionsByRole(fields.body.role)
    ensures r.1.body.(status := fields.body.status, joinDate := fields.body.joinDate, permissions := fields.body.permissions) == fields.body
    ensures r.0 == s + [r.1]
    ensures UniqueIds(s) ==> UniqueIds(r.0)
  {
    var body := fields.body.(joinDate := now, status := "Active", permissions := PermissionsByRole(fields.body.role));
    Store.Create(s, Rec(fields.id, body))
  }

  /** The fields a caller passes to `update`; an absent field is None. */
  datatype ProfilePatch = ProfilePatch(
    firstName: Option<string>,
    lastName: Option<string>,
    email: Option<string>,
    phone: Option<string>,
    role: Option<string>,
    department: Option<string>,
    address: Option<string>,
    emergencyContact: Option<string>,
    status: Option<string>,
    joinDate: Option<int>,
    permissions: Option<seq<string>>)

  /** A patch that carries every field of a profile, as the profile page
      sends its whole draft. */
  function FullPatch(p: Profile): ProfilePatch {
    ProfilePatch(Some(p.firstName), Some(p.lastName), Some(p.email), Some(p.phone), Some(p.role),
      Some(p.department), Some(p.address), Some(p.emergencyContact), Some(p.status), Some(p.joinDate),
      Some(p.permissions))
  }

  /** `{ ...existing, ...patch }` */
  function Merge(p: Profile, patch: ProfilePatch): Profile {
    Profile(patch.firstName.GetOr(p.firstName), patch.lastName.GetOr(p.lastName),
      patch.email.GetOr(p.email), patch.phone.GetOr(p.phone), patch.role.GetOr(p.role),
      patch.department.GetOr(p.department), patch.address.GetOr(p.address),
      patch.emergencyContact.GetOr(p.emergencyContact), patch.status.GetOr(p.status),
      patch.joinDate.GetOr(p.joinDate), patch.permissions.GetOr(p.permissions))
  }

  /** Merging a full patch gives back the profile it was made from. */
  lemma MergeFullPatch(p: Profile, q: Profile)
    ensures Merge(q, FullPatch(p)) == p
  {
  }

  /** `next` is `prev` with every field the patch supplies taken from the
      patch, except that a truthy role in the patch brings that role's
      permissions with it, whatever permissions the patch lists. */
  ghost predicate Patched(prev: Profile, patch: ProfilePatch, next: Profile) {
    && next.firstName == patch.firstName.GetOr(prev.firstName)
    && next.lastName == patch.lastName.GetOr(prev.lastName)
    && next.email == patch.email.GetOr(prev.email)
    && next.phone == patch.phone.GetOr(prev.phone)
    && next.role == patch.role.GetOr(prev.role)
    && next.department == patch.department.GetOr(prev.department)
    && next.address == patch.address.GetOr(prev.address)
    && next.emergencyContact == patch.emergencyContact.GetOr(prev.emergencyContact)
    && next.status == patch.status.GetOr(prev.status)
    && next.joinDate == patch.joinDate.GetOr(prev.joinDate)
    && next.permissions == (if patch.role.Some? && patch.role.value != "" then PermissionsByRole(patch.role.value)
                            else patch.permissions.GetOr(prev.permissions))
  }

  /** `update`: the patch is merged over the stored record, keeping the Id;
      the permissions are recomputed from the role when a truthy role is
      supplied, and otherwise come from the patch or the stored record. */
  function Update(s: seq<Rec<Profile>>, id: int, patch: ProfilePatch): (r: Result<(seq<Rec<Profile>>, Rec<Profile>), StoreError>)
    ensures r.Ok? <==> HasId(s, id)
    ensures r.Err? ==> r.error == NotFound(Entity, id)
    ensures r.Ok? ==> r.value.1.id == id
    ensures r.Ok? ==> exists k :: 0 <= k < |s| && s[k].id == id && r.value.0 == s[k := r.value.1] && Patched(s[k].body, patch, r.value.1.body)
    ensures r.Ok? && UniqueIds(s) ==> UniqueIds(r.value.0)
  {
    match IndexOf(s, id)
    case None => Err(NotFound(Entity, id))
    case Some(k) =>
      var effective := if patch.role.Some? && patch.role.value != ""
        then patch.(permissions := Some(PermissionsByRole(patch.role.value)))
        else patch;
      var rec := Rec(id, Merge(s[k].body, effective));
      assert UniqueIds(s) ==> UniqueIds(s[k := rec]) by {
        if UniqueIds(s) {
          assert forall j :: 0 <= j < |s| && j != k ==> s[j].id != id;
        }
      }
      Ok((s[k := rec], rec))
  }

  /** `delete`: exactly the record with the Id is removed. */
  function Delete(s: seq<Rec<Profile>>, id: int): (r: Result<seq<Rec<Profile>>, StoreError>)
    ensures r.Ok? <==> HasId(s, id)
    ensures r.Err? ==> r.error == NotFound(Entity, id)
    ensures r.Ok? ==> exists k :: 0 <= k < |s| && s[k].id == id && r.value == s[..k] + s[k + 1..]
    ensures r.Ok? && UniqueIds(s) ==> UniqueIds(r.value) && !HasId(r.value, id)
  {
    Store.Delete(s, Entity, id)
  }

  /** `updatePassword`: fails for an unknown Id and otherwise returns true
      without touching anything (the store is not an input to change). */
  function UpdatePassword(s: seq<Rec<Profile>>, id: int, oldPassword: string, newPassword: string): (r: Result<bool, StoreError>)
    ensures r.Ok? <==> HasId(s, id)
    ensures r.Ok? ==> r.value
    ensures r.Err? ==> r.error == NotFound(Entity, id)
  {
    match IndexOf(s, id)
    case None => Err(NotFound(Entity, id))
    case Some(_) => Ok(true)
  }
}

=== FILE: rooms_page.dfy ===
/** The rooms management page: the status tabs with their counts, and the
    status selector of the selected room. */
module RoomsPage {
  import opened Wrappers
  import opened Store
  import opened Hotel
  import StatusView
  import Seqs
  import RoomsService

  /** The statuses with a tab of their own, which are also exactly the
      choices of the status selector. */
  const Options: seq<string> := ["Available", "Occupied", "Maintenance", "Clean", "Dirty"]

  /** `statusCounts`: the "All" count and the count of each status. */
  function StatusCounts(rooms: seq<Rec<Room>>): (r: seq<(string, nat)>)
    ensures |r| == 6 && r[0] == (StatusView.All, |rooms|)
    ensures forall i :: 1 <= i < 6 ==> r[i] == (Options[i - 1], StatusView.Count(rooms, RoomStatus, Options[i - 1]))
    ensures r[1].1 + r[2].1 + r[3].1 + r[4].1 + r[5].1 <= r[0].1
    ensures (forall k :: 0 <= k < |rooms| ==> rooms[k].body.status in Options) ==>
      r[1].1 + r[2].1 + r[3].1 + r[4].1 + r[5].1 == r[0].1
  {
    var r := StatusView.Counts(rooms, RoomStatus, Options);
    OptionsDistinct();
    StatusView.TabTotalFive(r[1..]);
    r
  }

  predicate Known(rooms: seq<Rec<Room>>) {
    forall k :: 0 <= k < |rooms| ==> rooms[k].body.status in Options
  }

  /** `handleStatusChange`: the page's copy of the room, with the new
      status, replaces the stored record; if that works, the matching rooms
      in the page's list take the new status and nothing else changes. */
  function ChangeStatus(list: seq<Rec<Room>>, store: seq<Rec<Room>>, id: int, newStatus: string)
    : (r: Result<(seq<Rec<Room>>, seq<Rec<Room>>), StoreError>)
    requires HasId(list, id)
    ensures r.Ok? <==> HasId(store, id)
    ensures r.Err? ==> r.error == NotFound(RoomsService.Entity, id)
    ensures r.Ok? ==> |r.value.0| == |list|
    ensures r.Ok? ==> forall k :: 0 <= k < |list| ==>
      r.value.0[k] == if list[k].id == id then Rec(id, list[k].body.(status := newStatus)) else list[k]
    ensures r.Ok? && UniqueIds(store) ==>
      && |r.value.1| == |store|
      && (exists j ::
            && 0 <= j < |list| && list[j].id == id
            && forall k :: 0 <= k < |store| ==>
                 r.value.1[k] == if store[k].id == id then Rec(id, list[j].body.(status := newStatus)) else store[k])
  {
    var j := IndexOf(list, id).value;
    var fields := Rec(id, list[j].body.(status := newStatus));
    match RoomsService.Update(store, id, fields)
    case Err(e) => Err(e)
    case Ok((saved, _)) => Ok((StatusView.ApplyTo(list, id, (b: Room) => b.(status := newStatus)), saved))
  }

  /** No status has two tabs. */
  lemma OptionsDistinct()
    ensures Seqs.Distinct(Options)
  {
    assert Options[3][0] != Options[4][0];
  }

  /** Changes made through the selector keep every room's status among the
      tabs, so the five tab counts keep adding up to the "All" count. */
  lemma SelectorKeepsCountsWhole(list: seq<Rec<Room>>, store: seq<Rec<Room>>, id: int, k: nat)
    requires HasId(list, id) && Known(list) && k < |Options|
    ensures var r := ChangeStatus(list, store, id, Options[k]);
      r.Ok? ==> Known(r.value.0) && StatusView.CountAll(r.value.0, RoomStatus, Options) == |r.value.0|
  {
    var r := ChangeStatus(list, store, id, Options[k]);
    if r.Ok? {
      OptionsDistinct();
      StatusView.CountsCover(r.value.0, RoomStatus, Options);
    }
  }
}

=== FILE: rooms_service.dfy ===
/** The rooms service: the generic store with whole-record updates. */
module RoomsService {
  import opened Wrappers
  import opened Store
  import opened Hotel

  const Entity := "Room"

  function GetById(s: seq<Rec<Room>>, id: int): (r: Result<Rec<Room>, StoreError>)
    ensures r.Ok? <==> HasId(s, id)
    ensures r.Ok? ==> r.value.id == id && r.value in s
    ensures r.Err? ==> r.error == NotFound(Entity, id)
  {
    Store.GetById(s, Entity, id)
  }

  /** `create`: the caller's fields under the Id one above the largest
      stored, appended. */
  function Create(s: seq<Rec<Room>>, fields: Rec<Room>): (r: (seq<Rec<Room>>, Rec<Room>))
    requires |s| > 0
    ensures HasId(s, r.1.id - 1) && forall k :: 0 <= k < |s| ==> s[k].id < r.1.id
    ensures !HasId(s, r.1.id) && r.1.body == fields.body
    ensures r.0 == s + [r.1]
    ensures UniqueIds(s) ==> UniqueIds(r.0)
  {
    Store.Create(s, fields)
  }

  /** `update`: the whole record is replaced, with the Id forced. */
  function Update(s: seq<Rec<Room>>, id: int, fields: Rec<Room>): (r: Result<(seq<Rec<Room>>, Rec<Room>), StoreError>)
    ensures r.Ok? <==> HasId(s, id)
    ensures r.Err? ==> r.error == NotFound(Entity, id)
    ensures r.Ok? ==> r.value.1 == Rec(id, fields.body)
    ensures r.Ok? && UniqueIds(s) ==> UniqueIds(r.value.0) && |r.value.0| == |s|
    ensures r.Ok? && UniqueIds(s) ==>
      forall k :: 0 <= k < |s| ==> r.value.0[k] == (if s[k].id == id then r.value.1 else s[k])
  {
    Store.Update(s, Entity, id, fields)
  }

  /** `delete`: exactly the record with the Id is removed. */
  function Delete(s: seq<Rec<Room>>, id: int): (r: Result<seq<Rec<Room>>, StoreError>)
    ensures r.Ok? <==> HasId(s, id)
    ensures r.Err? ==> r.error == NotFound(Entity, id)
    ensures r.Ok? ==> exists k :: 0 <= k < |s| && s[k].id == id && r.value == s[..k] + s[k + 1..]
    ensures r.Ok? && UniqueIds(s) ==> UniqueIds(r.value) && !HasId(r.value, id)
  {
    Store.Delete(s, Entity, id)
  }
}

=== FILE: seqs.dfy ===
/** The array idioms the pages and services use on record lists:
    `reduce` into a sum, and `filter` on a status field. */
module Seqs {

  /** No element is listed twice. */
  ghost predicate Distinct<T>(xs: seq<T>) {
    forall i, j :: 0 <= i < j < |xs| ==> xs[i] != xs[j]
  }

  /** `xs.reduce((sum, x) => sum + f(x), 0)` */
  function Sum<T>(xs: seq<T>, f: T -> int): int {
    if xs == [] then 0 else Sum(xs[..|xs| - 1], f) + f(xs[|xs| - 1])
  }

  lemma {:induction false} SumAppend<T>(xs: seq<T>, ys: seq<T>, f: T -> int)
    ensures Sum(xs + ys, f) == Sum(xs, f) + Sum(ys, f)
    decreases |ys|
  {
    if ys == [] {
      assert xs + ys == xs;
    } else {
      assert (xs + ys)[..|xs + ys| - 1] == xs + ys[..|ys| - 1];
      SumAppend(xs, ys[..|ys| - 1], f);
    }
  }

  lemma {:induction false} SumNonNegative<T>(xs: seq<T>, f: T -> int)
    requires forall k :: 0 <= k < |xs| ==> f(xs[k]) >= 0
    ensures Sum(xs, f) >= 0
  {
    if xs != [] {
      SumNonNegative(xs[..|xs| - 1], f);
    }
  }

  /** The test `x => status(x) === s` when `keep` holds and
      `x => status(x) !== s` otherwise. */
  function StatusIs<T>(status: T -> string, s: string, keep: bool): T -> bool {
    x => (status(x) == s) == keep
  }

  /** `xs.filter(x => status(x) === s)` when `keep` holds and
      `xs.filter(x => status(x) !== s)` otherwise: the elements whose status
      test agrees with `keep`, in their original order. */
  function Select<T>(xs: seq<T>, status: T -> string, s: string, keep: bool): (r: seq<T>)
    ensures |r| <= |xs|
    ensures forall k :: 0 <= k < |r| ==> (status(r[k]) == s) == keep
    ensures forall k :: 0 <= k < |r| ==> r[k] in xs
    ensures forall k :: 0 <= k < |xs| && (status(xs[k]) == s) == keep ==> xs[k] in r
  {
    Filter(xs, StatusIs(status, s, keep))
  }

  lemma SelectAppend<T>(xs: seq<T>, ys: seq<T>, status: T -> string, s: string, keep: bool)
    ensures Select(xs + ys, status, s, keep) == Select(xs, status, s, keep) + Select(ys, status, s, keep)
  {
    FilterAppend(xs, ys, StatusIs(status, s, keep));
  }

  /** Elements with status `s` and elements without it split the list: no
      element is lost or duplicated. */
  lemma SelectPartition<T>(xs: seq<T>, status: T -> string, s: string)
    ensures |Select(xs, status, s, true)| + |Select(xs, status, s, false)| == |xs|
    ensures multiset(Select(xs, status, s, true)) + multiset(Select(xs, status, s, false)) == multiset(xs)
  {
    SelectMultiset(xs, status, s);
    assert |multiset(xs)| == |xs|;
  }

  lemma {:induction false} SelectMultiset<T>(xs: seq<T>, status: T -> string, s: string)
    ensures multiset(Select(xs, status, s, true)) + multiset(Select(xs, status, s, false)) == multiset(xs)
  {
    if xs != [] {
      var init := xs[..|xs| - 1];
      var last := xs[|xs| - 1];
      SelectMultiset(init, status, s);
      assert xs == init + [last];
      SelectSnoc(init, last, status, s, true);
      SelectSnoc(init, last, status, s, false);
    }
  }

  /** Selecting from a list with one more element at the end. */
  lemma SelectSnoc<T>(xs: seq<T>, x: T, status: T -> string, s: string, keep: bool)
    ensures Select(xs + [x], status, s, keep) == Select(xs, status, s, keep) + (if (status(x) == s) == keep then [x] else [])
  {
    FilterAppend(xs, [x], StatusIs(status, s, keep));
    assert Filter([x], StatusIs(status, s, keep)) == Filter([], StatusIs(status, s, keep)) + (if (status(x) == s) == keep then [x] else []) by {
      assert [x][..0] == [];
    }
  }

  /** Selecting on a status that every element has keeps the whole list. */
  lemma SelectAll<T>(xs: seq<T>, status: T -> string, s: string, keep: bool)
    requires forall k :: 0 <= k < |xs| ==> (status(xs[k]) == s) == keep
    ensures Select(xs, status, s, keep) == xs
  {
    FilterAll(xs, StatusIs(status, s, keep));
  }

  /** Summing over the elements with status `s` and over the rest gives
      the sum over the whole list. */
  lemma {:induction false} SumSelectPartition<T>(xs: seq<T>, status: T -> string, s: string, f: T -> int)
    ensures Sum(Select(xs, status, s, true), f) + Sum(Select(xs, status, s, false), f) == Sum(xs, f)
  {
    if xs != [] {
      var init := xs[..|xs| - 1];
      var last := xs[|xs| - 1];
      SumSelectPartition(init, status, s, f);
      assert xs == init + [last];
      SelectSnoc(init, last, status, s, true);
      SelectSnoc(init, last, status, s, false);
      SumAppend(Select(init, status, s, true), [last], f);
      SumAppend(Select(init, status, s, false), [last], f);
    }
  }

  /** A pointwise smaller summand gives a smaller sum. */
  lemma {:induction false} SumMono<T>(xs: seq<T>, f: T -> int, g: T -> int)
    requires forall k :: 0 <= k < |xs| ==> f(xs[k]) <= g(xs[k])
    ensures Sum(xs, f) <= Sum(xs, g)
  {
    if xs != [] {
      SumMono(xs[..|xs| - 1], f, g);
    }
  }

  /** Summing a constant 1 counts the elements. */
  lemma {:induction false} SumOnes<T>(xs: seq<T>, f: T -> int)
    requires forall k :: 0 <= k < |xs| ==> f(xs[k]) == 1
    ensures Sum(xs, f) == |xs|
  {
    if xs != [] {
      SumOnes(xs[..|xs| - 1], f);
    }
  }

  /** `xs.filter(p)`: the elements satisfying `p`, in their original order. */
  function Filter<T>(xs: seq<T>, p: T -> bool): (r: seq<T>)
    ensures |r| <= |xs|
    ensures forall k :: 0 <= k < |r| ==> p(r[k]) && r[k] in xs
    ensures forall k :: 0 <= k < |xs| && p(xs[k]) ==> xs[k] in r
  {
    if xs == [] then []
    else
      var init := Filter(xs[..|xs| - 1], p);
      var last := xs[|xs| - 1];
      assert xs == xs[..|xs| - 1] + [last];
      if p(last) then init + [last] else init
  }

  /** Filtering distributes over concatenation, so together with the
      one-element case it fixes the order of the result. */
  lemma {:induction false} FilterAppend<T>(xs: seq<T>, ys: seq<T>, p: T -> bool)
    ensures Filter(xs + ys, p) == Filter(xs, p) + Filter(ys, p)
    decreases |ys|
  {
    if ys == [] {
      assert xs + ys == xs;
    } else {
      assert (xs + ys)[..|xs + ys| - 1] == xs + ys[..|ys| - 1];
      FilterAppend(xs, ys[..|ys| - 1], p);
    }
  }

  /** A filter every element passes keeps the whole list. */
  lemma {:induction false} FilterAll<T>(xs: seq<T>, p: T -> bool)
    requires forall k :: 0 <= k < |xs| ==> p(xs[k])
    ensures Filter(xs, p) == xs
  {
    if xs != [] {
      FilterAll(xs[..|xs| - 1], p);
      assert xs == xs[..|xs| - 1] + [xs[|xs| - 1]];
    }
  }

  /** A filter no element passes gives the empty list. */
  lemma {:induction false} FilterNone<T>(xs: seq<T>, p: T -> bool)
    requires forall k :: 0 <= k < |xs| ==> !p(xs[k])
    ensures Filter(xs, p) == []
  {
    if xs != [] {
      FilterNone(xs[..|xs| - 1], p);
    }
  }
}

=== FILE: staff_page.dfy ===
/** The staff page's task lists: the pending and the completed tasks, and
    marking a task as completed. The staff directory tab only lists what the
    store returns. */
module StaffPage {
  import opened Wrappers
  import opened Store
  import opened Hotel
  import Seqs
  import StatusView
  import TasksService

  const Completed := "Completed"

  /** `tasks.filter(task => task.status !== "Completed")` */
  function Pending(tasks: seq<Rec<Task>>): (r: seq<Rec<Task>>)
    ensures forall k :: 0 <= k < |r| ==> r[k].body.status != Completed && r[k] in tasks
    ensures forall k :: 0 <= k < |tasks| && tasks[k].body.status != Completed ==> tasks[k] in r
  {
    Seqs.Select(tasks, TaskStatus, Completed, false)
  }

  /** `tasks.filter(task => task.status === "Completed")` */
  function Done(tasks: seq<Rec<Task>>): (r: seq<Rec<Task>>)
    ensures forall k :: 0 <= k < |r| ==> r[k].body.status == Completed && r[k] in tasks
    ensures forall k :: 0 <= k < |tasks| && tasks[k].body.status == Completed ==> tasks[k] in r
  {
    Seqs.Select(tasks, TaskStatus, Completed, true)
  }

  /** Every task is in exactly one of the two lists. */
  lemma PendingAndDoneSplit(tasks: seq<Rec<Task>>)
    ensures |Pending(tasks)| + |Done(tasks)| == |tasks|
    ensures multiset(Pending(tasks)) + multiset(Done(tasks)) == multiset(tasks)
  {
    Seqs.SelectPartition(tasks, TaskStatus, Completed);
  }

  /** The "Completed Tasks" panel: at most the first five completed tasks. */
  function DoneShown(tasks: seq<Rec<Task>>): (r: seq<Rec<Task>>)
    ensures |r| <= 5 && |r| <= |Done(tasks)| && r == Done(tasks)[..|r|]
    ensures |Done(tasks)| <= 5 ==> r == Done(tasks)
  {
    StatusView.Take(Done(tasks), 5)
  }

  /** `{ ...t, status: "Completed", completedAt: at }` */
  function Complete(t: Task, at: int): Task {
    t.(status := Completed, completedAt := Some(at))
  }

  function Completer(at: int): Task -> Task {
    t => Complete(t, at)
  }

  /** `handleCompleteTask`: the store's record is replaced by the task as
      completed at `sent`; if that works, the page's tasks with that Id are
      marked completed at `shown` (a second reading of the clock) and the
      others are kept. On failure the page keeps its list. */
  function CompleteTask(list: seq<Rec<Task>>, store: seq<Rec<Task>>, task: Rec<Task>, sent: int, shown: int)
    : (r: Result<(seq<Rec<Task>>, seq<Rec<Task>>), StoreError>)
    ensures r.Ok? <==> HasId(store, task.id)
    ensures r.Err? ==> r.error == NotFound(TasksService.Entity, task.id)
    ensures r.Ok? ==> |r.value.0| == |list|
    ensures r.Ok? ==> forall k :: 0 <= k < |list| ==>
      r.value.0[k] == if list[k].id == task.id
        then Rec(task.id, list[k].body.(status := Completed, completedAt := Some(shown)))
        else list[k]
    ensures r.Ok? && UniqueIds(store) ==>
      && |r.value.1| == |store|
      && forall k :: 0 <= k < |store| ==>
           r.value.1[k] == if store[k].id == task.id
             then Rec(task.id, task.body.(status := Completed, completedAt := Some(sent)))
             else store[k]
  {
    match TasksService.Update(store, task.id, Rec(task.id, Complete(task.body, sent)))
    case Err(e) => Err(e)
    case Ok((saved, _)) => Ok((StatusView.ApplyTo(list, task.id, Completer(shown)), saved))
  }

  /** Completing a task takes exactly the tasks with its Id out of the
      pending list, keeping the others in order. */
  lemma {:induction false} CompletingLeavesPending(list: seq<Rec<Task>>, id: int, at: int)
    ensures Pending(StatusView.ApplyTo(list, id, Completer(at))) == StatusView.Without(Pending(list), id)
  {
    if list != [] {
      var init := list[..|list| - 1];
      var last := list[|list| - 1];
      CompletingLeavesPending(init, id, at);
      StatusView.ApplyToSnoc(init, last, id, Completer(at));
      assert list == init + [last];
      var last' := if last.id == id then Rec(id, Complete(last.body, at)) else last;
      PendingAppend(StatusView.ApplyTo(init, id, Completer(at)), [last']);
      PendingAppend(init, [last]);
      Seqs.FilterAppend(Pending(init), Pending([last]), StatusView.IdIsNot(id));
      CompletingOne(last, id, at);
    }
  }

  lemma PendingAppend(xs: seq<Rec<Task>>, ys: seq<Rec<Task>>)
    ensures Pending(xs + ys) == Pending(xs) + Pending(ys)
  {
    Seqs.SelectAppend(xs, ys, TaskStatus, Completed, false);
  }

  /** The one-task case of the lemma above. */
  lemma CompletingOne(t: Rec<Task>, id: int, at: int)
    ensures var t' := if t.id == id then Rec(id, Complete(t.body, at)) else t;
      Pending([t']) == StatusView.Without(Pending([t]), id)
  {
    var t' := if t.id == id then Rec(id, Complete(t.body, at)) else t;
    assert [t][..0] == [] && [t'][..0] == [];
    if t.id == id {
      assert Pending([t']) == [];
      Seqs.FilterNone(Pending([t]), StatusView.IdIsNot<Task>(id));
    } else {
      Seqs.FilterAll(Pending([t]), StatusView.IdIsNot<Task>(id));
    }
  }

  /** After a successful completion the task is no longer pending, and no
      other task changes list. */
  lemma CompletedTaskLeavesPending(list: seq<Rec<Task>>, store: seq<Rec<Task>>, task: Rec<Task>, sent: int, shown: int)
    requires CompleteTask(list, store, task, sent, shown).Ok?
    ensures var after := CompleteTask(list, store, task, sent, shown).value.0;
      Pending(after) == StatusView.Without(Pending(list), task.id)
  {
    CompletingLeavesPending(list, task.id, shown);
  }
}

=== FILE: staff_service.dfy ===
/** The staff service: the generic store with whole-record updates. */
module StaffService {
  import opened Wrappers
  import opened Store
  import opened Hotel

  const Entity := "Staff member"

  function GetById(s: seq<Rec<StaffMember>>, id: int): (r: Result<Rec<StaffMember>, StoreError>)
    ensures r.Ok? <==> HasId(s, id)
    ensures r.Ok? ==> r.value.id == id && r.value in s
    ensures r.Err? ==> r.error == NotFound(Entity, id)
  {
    Store.GetById(s, Entity, id)
  }

  /** `create`: the caller's fields under the Id one above the largest
      stored, appended. */
  function Create(s: seq<Rec<StaffMember>>, fields: Rec<StaffMember>): (r: (seq<Rec<StaffMember>>, Rec<StaffMember>))
    requires |s| > 0
    ensures HasId(s, r.1.id - 1) && forall k :: 0 <= k < |s| ==> s[k].id < r.1.id
    ensures !HasId(s, r.1.id) && r.1.body == fields.body
    ensures r.0 == s + [r.1]
    ensures UniqueIds(s) ==> UniqueIds(r.0)
  {
    Store.Create(s, fields)
  }

  /** `update`: the whole record is replaced, with the Id forced. */
  function Update(s: seq<Rec<StaffMember>>, id: int, fields: Rec<StaffMember>): (r: Result<(seq<Rec<StaffMember>>, Rec<StaffMember>), StoreError>)
    ensures r.Ok? <==> HasId(s, id)
    ensures r.Err? ==> r.error == NotFound(Entity, id)
    ensures r.Ok? ==> r.value.1 == Rec(id, fields.body)
    ensures r.Ok? && UniqueIds(s) ==> UniqueIds(r.value.0) && |r.value.0| == |s|
    ensures r.Ok? && UniqueIds(s) ==>
      forall k :: 0 <= k < |s| ==> r.value.0[k] == (if s[k].id == id then r.value.1 else s[k])
  {
    Store.Update(s, Entity, id, fields)
  }

  /** `delete`: exactly the record with the Id is removed. */
  function Delete(s: seq<Rec<StaffMember>>, id: int): (r: Result<seq<Rec<StaffMember>>, StoreError>)
    ensures r.Ok? <==> HasId(s, id)
    ensures r.Err? ==> r.error == NotFound(Entity, id)
    ensures r.Ok? ==> exists k :: 0 <= k < |s| && s[k].id == id && r.value == s[..k] + s[k + 1..]
    ensures r.Ok? && UniqueIds(s) ==> UniqueIds(r.value) && !HasId(r.value, id)
  {
    Store.Delete(s, Entity, id)
  }
}

=== FILE: status_view.dfy ===
/** The list idioms the management pages share: a status filter with an
    "All" choice, the per-status counts shown on its tabs, the local update
    `list.map(x => x.Id === id ? f(x) : x)`, and `slice(0, n)`. */
module StatusView {
  import opened Store
  import Seqs

  /** The value of the status filter that shows everything. */
  const All := "All"

  /** `filter === "All" ? xs : xs.filter(x => status(x) === filter)` */
  function ByStatus<T>(xs: seq<T>, status: T -> string, filter: string): (r: seq<T>)
    ensures filter == All ==> r == xs
    ensures filter != All ==> forall k :: 0 <= k < |r| ==> status(r[k]) == filter && r[k] in xs
    ensures filter != All ==> forall k :: 0 <= k < |xs| && status(xs[k]) == filter ==> xs[k] in r
  {
    if filter == All then xs else Seqs.Select(xs, status, filter, true)
  }

  /** The filter keeps the list order: it distributes over concatenation. */
  lemma ByStatusInOrder<T>(xs: seq<T>, ys: seq<T>, status: T -> string, filter: string)
    ensures ByStatus(xs + ys, status, filter) == ByStatus(xs, status, filter) + ByStatus(ys, status, filter)
  {
    if filter != All {
      Seqs.SelectAppend(xs, ys, status, filter, true);
    }
  }

  /** `xs.filter(x => status(x) === s).length` */
  function Count<T>(xs: seq<T>, status: T -> string, s: string): nat {
    |Seqs.Select(xs, status, s, true)|
  }

  /** The counts of the given statuses, added up. */
  function CountAll<T>(xs: seq<T>, status: T -> string, names: seq<string>): int {
    if names == [] then 0 else Count(xs, status, names[0]) + CountAll(xs, status, names[1..])
  }

  /** How many of `names` equal `v`. */
  function Hits(names: seq<string>, v: string): nat {
    if names == [] then 0 else (if names[0] == v then 1 else 0) + Hits(names[1..], v)
  }

  /** A status listed once is hit once; one not listed is not hit. */
  lemma {:induction false} HitsOnce(names: seq<string>, v: string)
    requires Seqs.Distinct(names)
    ensures Hits(names, v) == if v in names then 1 else 0
  {
    if names != [] {
      HitsOnce(names[1..], v);
      if names[0] == v {
        assert v !in names[1..] by {
          forall j | 0 <= j < |names| - 1
            ensures names[1..][j] != v
          {
            assert names[j + 1] != names[0];
          }
        }
      }
    }
  }

  /** Appending one element adds one to the count of each name it carries. */
  lemma {:induction false} CountAllSnoc<T>(xs: seq<T>, x: T, status: T -> string, names: seq<string>)
    ensures CountAll(xs + [x], status, names) == CountAll(xs, status, names) + Hits(names, status(x))
  {
    if names != [] {
      CountAllSnoc(xs, x, status, names[1..]);
      assert (xs + [x])[..|xs + [x]| - 1] == xs;
    }
  }

  /** When the tabs name every status that occurs, each once, their counts
      add up to the "All" count. */
  lemma {:induction false} CountsCover<T>(xs: seq<T>, status: T -> string, names: seq<string>)
    requires Seqs.Distinct(names)
    requires forall k :: 0 <= k < |xs| ==> status(xs[k]) in names
    ensures CountAll(xs, status, names) == |xs|
  {
    if xs == [] {
      CountAllEmpty(status, names);
    } else {
      var init := xs[..|xs| - 1];
      var last := xs[|xs| - 1];
      CountsCover(init, status, names);
      assert xs == init + [last];
      CountAllSnoc(init, last, status, names);
      HitsOnce(names, status(last));
    }
  }

  lemma {:induction false} CountAllEmpty<T>(status: T -> string, names: seq<string>)
    ensures CountAll([], status, names) == 0
  {
    if names != [] {
      CountAllEmpty(status, names[1..]);
    }
  }

  /** `xs.map(x => x.Id === id ? { ...x, ...change } : x)`: every record
      with the Id is changed by `f`, every other one is kept. */
  function ApplyTo<T>(xs: seq<Rec<T>>, id: int, f: T -> T): (r: seq<Rec<T>>)
    ensures |r| == |xs|
    ensures forall k :: 0 <= k < |xs| ==> r[k] == if xs[k].id == id then Rec(id, f(xs[k].body)) else xs[k]
  {
    if xs == [] then []
    else
      var init := ApplyTo(xs[..|xs| - 1], id, f);
      var last := xs[|xs| - 1];
      init + [if last.id == id then Rec(id, f(last.body)) else last]
  }

  lemma ApplyToSnoc<T>(xs: seq<Rec<T>>, x: Rec<T>, id: int, f: T -> T)
    ensures ApplyTo(xs + [x], id, f) == ApplyTo(xs, id, f) + [if x.id == id then Rec(id, f(x.body)) else x]
  {
    assert (xs + [x])[..|xs|] == xs;
  }

  /** `xs.slice(0, n)`: the first `n` elements, or all of them. */
  function Take<T>(xs: seq<T>, n: nat): (r: seq<T>)
    ensures |r| == if |xs| < n then |xs| else n
    ensures r == xs[..|r|]
  {
    if |xs| <= n then xs else xs[..n]
  }

  /** The counts of a list of tab entries, added up. */
  function TabTotal(entries: seq<(string, nat)>): nat {
    if entries == [] then 0 else entries[0].1 + TabTotal(entries[1..])
  }

  /** Five tab entries add up to their five counts. */
  lemma TabTotalFive(e: seq<(string, nat)>)
    requires |e| == 5
    ensures TabTotal(e) == e[0].1 + e[1].1 + e[2].1 + e[3].1 + e[4].1
  {
    assert TabTotal(e[4..]) == e[4].1 + TabTotal([]);
    assert TabTotal(e[3..]) == e[3].1 + TabTotal(e[4..]) by { assert e[3..][1..] == e[4..]; }
    assert TabTotal(e[2..]) == e[2].1 + TabTotal(e[3..]) by { assert e[2..][1..] == e[3..]; }
    assert TabTotal(e[1..]) == e[1].1 + TabTotal(e[2..]) by { assert e[1..][1..] == e[2..]; }
  }

  /** One entry per name, carrying that name's count. */
  function NameCounts<T>(xs: seq<T>, status: T -> string, names: seq<string>): seq<(string, nat)> {
    seq(|names|, i requires 0 <= i < |names| => (names[i], Count(xs, status, names[i])))
  }

  lemma {:induction false} NameCountsTotal<T>(xs: seq<T>, status: T -> string, names: seq<string>)
    ensures TabTotal(NameCounts(xs, status, names)) == CountAll(xs, status, names)
  {
    if names != [] {
      NameCountsTotal(xs, status, names[1..]);
      assert NameCounts(xs, status, names)[1..] == NameCounts(xs, status, names[1..]);
    }
  }

  /** The tab counts `{ All: xs.length, [name]: count, ... }`, "All" first
      and then each name in order. With distinct names the tabs add up to
      at most the "All" count, and to exactly that count when they name
      every status that occurs. */
  function Counts<T>(xs: seq<T>, status: T -> string, names: seq<string>): (r: seq<(string, nat)>)
    ensures |r| == |names| + 1
    ensures r[0] == (All, |xs|)
    ensures forall i :: 0 <= i < |names| ==> r[i + 1] == (names[i], Count(xs, status, names[i]))
    ensures TabTotal(r[1..]) == CountAll(xs, status, names)
    ensures Seqs.Distinct(names) ==> TabTotal(r[1..]) <= r[0].1
    ensures Seqs.Distinct(names) && (forall k :: 0 <= k < |xs| ==> status(xs[k]) in names) ==>
      TabTotal(r[1..]) == r[0].1
  {
    var r := [(All, |xs|)] + NameCounts(xs, status, names);
    assert r[1..] == NameCounts(xs, status, names);
    NameCountsTotal(xs, status, names);
    CountAllBounds(xs, status, names);
    r
  }

  /** CountsBounded and CountsCover, each under its own premise. */
  lemma CountAllBounds<T>(xs: seq<T>, status: T -> string, names: seq<string>)
    ensures Seqs.Distinct(names) ==> CountAll(xs, status, names) <= |xs|
    ensures Seqs.Distinct(names) && (forall k :: 0 <= k < |xs| ==> status(xs[k]) in names) ==>
      CountAll(xs, status, names) == |xs|
  {
    if Seqs.Distinct(names) {
      CountsBounded(xs, status, names);
      if forall k :: 0 <= k < |xs| ==> status(xs[k]) in names {
        CountsCover(xs, status, names);
      }
    }
  }

  /** With distinct names, the tab counts add up to at most the "All"
      count: no element is counted twice. */
  lemma {:induction false} CountsBounded<T>(xs: seq<T>, status: T -> string, names: seq<string>)
    requires Seqs.Distinct(names)
    ensures CountAll(xs, status, names) <= |xs|
  {
    if xs == [] {
      CountAllEmpty(status, names);
    } else {
      var init := xs[..|xs| - 1];
      var last := xs[|xs| - 1];
      CountsBounded(init, status, names);
      assert xs == init + [last];
      CountAllSnoc(init, last, status, names);
      HitsOnce(names, status(last));
    }
  }

  /** The test `x => x.Id !== id`. */
  function IdIsNot<T>(id: int): Rec<T> -> bool {
    (x: Rec<T>) => x.id != id
  }

  /** `xs.filter(x => x.Id !== id)`: the records with another Id, in order. */
  function Without<T>(xs: seq<Rec<T>>, id: int): (r: seq<Rec<T>>)
    ensures forall k :: 0 <= k < |r| ==> r[k].id != id && r[k] in xs
    ensures forall k :: 0 <= k < |xs| && xs[k].id != id ==> xs[k] in r
  {
    Seqs.Filter(xs, IdIsNot(id))
  }

  /** In a list with unique Ids, dropping an Id removes exactly the one
      record that carries it and keeps the rest in order. */
  lemma WithoutUnique<T>(xs: seq<Rec<T>>, i: nat)
    requires UniqueIds(xs) && i < |xs|
    ensures Without(xs, xs[i].id) == xs[..i] + xs[i + 1..]
  {
    var id := xs[i].id;
    assert xs == xs[..i] + [xs[i]] + xs[i + 1..];
    Seqs.FilterAppend(xs[..i] + [xs[i]], xs[i + 1..], IdIsNot(id));
    Seqs.FilterAppend(xs[..i], [xs[i]], IdIsNot(id));
    Seqs.FilterAll(xs[..i], IdIsNot(id));
    Seqs.FilterNone([xs[i]], IdIsNot(id));
    Seqs.FilterAll(xs[i + 1..], IdIsNot(id));
  }
}

=== FILE: store.dfy ===
/** The in-memory record store that every service module is built on: an
    array of records, each carrying an integer `Id`, with lookup by `find`,
    replacement by `findIndex`, removal by `splice`, and new Ids allocated as
    one more than the largest Id present. */
module Store {
  import opened Wrappers

  /** A stored record: the `Id` key and the remaining fields. */
  datatype Rec<T> = Rec(id: int, body: T)

  /** The error a service throws: "<Entity> with ID <id> not found". */
  datatype StoreError = NotFound(entity: string, id: int)

  ghost predicate HasId<T>(s: seq<Rec<T>>, id: int) {
    exists k :: 0 <= k < |s| && s[k].id == id
  }

  /** No two records share an Id. */
  ghost predicate UniqueIds<T>(s: seq<Rec<T>>) {
    forall i, j :: 0 <= i < j < |s| ==> s[i].id != s[j].id
  }

  /** `Math.max(...s.map(r => r.Id))` for a non-empty store. */
  function MaxId<T>(s: seq<Rec<T>>): (m: int)
    requires |s| > 0
    ensures forall k :: 0 <= k < |s| ==> s[k].id <= m
    ensures exists k :: 0 <= k < |s| && s[k].id == m
  {
    if |s| == 1 then s[0].id
    else
      var m := MaxId(s[..|s| - 1]);
      if s[|s| - 1].id > m then s[|s| - 1].id else m
  }

  /** `s.findIndex(r => r.Id === id)`: the first position holding `id`. */
  function IndexOf<T>(s: seq<Rec<T>>, id: int): (r: Option<nat>)
    ensures r.Some? ==> r.value < |s| && s[r.value].id == id
    ensures r.Some? ==> forall k :: 0 <= k < r.value ==> s[k].id != id
    ensures r.None? <==> !HasId(s, id)
  {
    if s == [] then None
    else if s[0].id == id then Some(0)
    else match IndexOf(s[1..], id)
      case None => None
      case Some(k) => Some(k + 1)
  }

  /** `getById`: the record with the Id, or the not-found error. */
  function GetById<T>(s: seq<Rec<T>>, entity: string, id: int): (r: Result<Rec<T>, StoreError>)
    ensures r.Ok? <==> HasId(s, id)
    ensures r.Ok? ==> r.value.id == id && r.value in s
    ensures r.Ok? && UniqueIds(s) ==> forall k :: 0 <= k < |s| && s[k].id == id ==> s[k] == r.value
    ensures r.Err? ==> r.error == NotFound(entity, id)
  {
    match IndexOf(s, id)
    case None => Err(NotFound(entity, id))
    case Some(k) => Ok(s[k])
  }

  /** `create`: `{ ...fields, Id: max + 1 }` appended to the store. The new
      Id is one more than the largest stored Id, whatever Id the caller
      supplied, so it differs from every stored one. */
  function Create<T>(s: seq<Rec<T>>, fields: Rec<T>): (r: (seq<Rec<T>>, Rec<T>))
    requires |s| > 0
    ensures r.1.id == MaxId(s) + 1 && r.1.body == fields.body
    ensures !HasId(s, r.1.id)
    ensures forall k :: 0 <= k < |s| ==> s[k].id < r.1.id
    ensures HasId(s, r.1.id - 1)
    ensures r.0 == s + [r.1]
    ensures UniqueIds(s) ==> UniqueIds(r.0)
  {
    var rec := Rec(MaxId(s) + 1, fields.body);
    (s + [rec], rec)
  }

  /** An Id is one more than the largest stored Id exactly when it is above
      every stored Id and one less than it is stored; the services state
      their new Id in the second form. */
  lemma NextIdIsMaxPlusOne<T>(s: seq<Rec<T>>, id: int)
    requires |s| > 0
    ensures id == MaxId(s) + 1 <==> HasId(s, id - 1) && forall k :: 0 <= k < |s| ==> s[k].id < id
  {
  }

  /** `update` as the whole-record services do it: the record at the first
      position holding `id` is replaced by `{ ...fields, Id: id }`. */
  function Update<T>(s: seq<Rec<T>>, entity: string, id: int, fields: Rec<T>): (r: Result<(seq<Rec<T>>, Rec<T>), StoreError>)
    ensures r.Ok? <==> HasId(s, id)
    ensures r.Err? ==> r.error == NotFound(entity, id)
    ensures r.Ok? ==> r.value.1 == Rec(id, fields.body) && |r.value.0| == |s|
    ensures r.Ok? ==> exists k :: 0 <= k < |s| && s[k].id == id && r.value.0 == s[k := r.value.1]
    ensures r.Ok? && UniqueIds(s) ==> UniqueIds(r.value.0)
    ensures r.Ok? && UniqueIds(s) ==>
      forall k :: 0 <= k < |s| ==> r.value.0[k] == (if s[k].id == id then r.value.1 else s[k])
  {
    match IndexOf(s, id)
    case None => Err(NotFound(entity, id))
    case Some(k) =>
      var rec := Rec(id, fields.body);
      Ok((s[k := rec], rec))
  }

  /** `delete`: the record at the first position holding `id` is spliced
      out and the rest keep their order. */
  function Delete<T>(s: seq<Rec<T>>, entity: string, id: int): (r: Result<seq<Rec<T>>, StoreError>)
    ensures r.Ok? <==> HasId(s, id)
    ensures r.Err? ==> r.error == NotFound(entity, id)
    ensures r.Ok? ==> |r.value| == |s| - 1
    ensures r.Ok? ==> exists k :: 0 <= k < |s| && s[k].id == id && r.value == s[..k] + s[k + 1..]
    ensures r.Ok? && UniqueIds(s) ==> UniqueIds(r.value) && !HasId(r.value, id)
    ensures r.Ok? && UniqueIds(s) ==> forall k :: 0 <= k < |s| && s[k].id != id ==> s[k] in r.value
  {
    match IndexOf(s, id)
    case None => Err(NotFound(entity, id))
    case Some(k) =>
      RemoveAt(s, k);
      Ok(s[..k] + s[k + 1..])
  }

  /** Splicing out position k keeps every other record, in order. */
  lemma RemoveAt<T>(s: seq<Rec<T>>, k: nat)
    requires k < |s|
    ensures var rest := s[..k] + s[k + 1..];
      && (forall j :: 0 <= j < |rest| ==> rest[j] == (if j < k then s[j] else s[j + 1]))
      && (forall j :: 0 <= j < |s| && j != k ==> s[j] in rest)
      && (UniqueIds(s) ==> UniqueIds(rest) && !HasId(rest, s[k].id))
  {
    var rest := s[..k] + s[k + 1..];
    assert forall j :: 0 <= j < |rest| ==> rest[j] == (if j < k then s[j] else s[j + 1]);
    assert forall j :: 0 <= j < |s| && j != k ==> s[j] == rest[if j < k then j else j - 1];
  }
}

=== FILE: tally.dfy ===
/** Grouping with a plain object as accumulator:
    `xs.reduce((acc, x) => { acc[key(x)] = (acc[key(x)] || 0) + weight(x); return acc }, {})`.
    The object is an association list in key-insertion order, which is the
    order `Object.keys` and `Object.values` report for non-numeric keys. */
module Tally {
  import Seqs

  type Counts = seq<(string, int)>

  function Keys(acc: Counts): (r: seq<string>)
    ensures |r| == |acc|
    ensures forall i :: 0 <= i < |acc| ==> r[i] == acc[i].0
  {
    if acc == [] then [] else [acc[0].0] + Keys(acc[1..])
  }

  function Values(acc: Counts): (r: seq<int>)
    ensures |r| == |acc|
    ensures forall i :: 0 <= i < |acc| ==> r[i] == acc[i].1
  {
    if acc == [] then [] else [acc[0].1] + Values(acc[1..])
  }

  /** The sum of a list of numbers. */
  function SumList(xs: seq<int>): int {
    if xs == [] then 0 else xs[0] + SumList(xs[1..])
  }

  /** `acc[k] || 0` */
  function Lookup(acc: Counts, k: string): int {
    if acc == [] then 0 else if acc[0].0 == k then acc[0].1 else Lookup(acc[1..], k)
  }

  /** `acc[k] = (acc[k] || 0) + w`: an existing key keeps its place, a new
      one goes last. */
  function AddTo(acc: Counts, k: string, w: int): (r: Counts)
    ensures Keys(r) == if k in Keys(acc) then Keys(acc) else Keys(acc) + [k]
    ensures forall j :: Lookup(r, j) == Lookup(acc, j) + (if j == k then w else 0)
    ensures SumList(Values(r)) == SumList(Values(acc)) + w
  {
    if acc == [] then [(k, w)]
    else if acc[0].0 == k then [(k, acc[0].1 + w)] + acc[1..]
    else
      var rest := AddTo(acc[1..], k, w);
      assert Keys([acc[0]] + rest) == [acc[0].0] + Keys(rest);
      assert Values([acc[0]] + rest) == [acc[0].1] + Values(rest);
      assert Keys(acc) == [acc[0].0] + Keys(acc[1..]);
      [acc[0]] + rest
  }

  /** The grouping fold over the whole list. */
  function Group<T>(xs: seq<T>, key: T -> string, weight: T -> int): (r: Counts)
    ensures Seqs.Distinct(Keys(r))
    ensures SumList(Values(r)) == Seqs.Sum(xs, weight)
  {
    if xs == [] then []
    else
      var init := Group(xs[..|xs| - 1], key, weight);
      var k := key(xs[|xs| - 1]);
      var r := AddTo(init, k, weight(xs[|xs| - 1]));
      assert Seqs.Distinct(Keys(r)) by {
        if k !in Keys(init) {
          assert Keys(r) == Keys(init) + [k];
          assert forall i :: 0 <= i < |Keys(init)| ==> Keys(r)[i] == Keys(init)[i];
        }
      }
      r
  }

  /** The value under a key is the sum of the weights of exactly the
      elements with that key. */
  lemma {:induction false} GroupLookup<T>(xs: seq<T>, key: T -> string, weight: T -> int, k: string)
    ensures Lookup(Group(xs, key, weight), k) == Seqs.Sum(Seqs.Select(xs, key, k, true), weight)
  {
    if xs != [] {
      var init := xs[..|xs| - 1];
      var last := xs[|xs| - 1];
      GroupLookup(init, key, weight, k);
      Seqs.SumAppend(Seqs.Select(init, key, k, true), [last], weight);
    }
  }

  /** Some element of `xs` has key `k`. */
  ghost predicate Carries<T>(xs: seq<T>, key: T -> string, k: string) {
    exists i :: 0 <= i < |xs| && key(xs[i]) == k
  }

  /** A key is present exactly when some element carries it. */
  lemma {:induction false} GroupKeys<T>(xs: seq<T>, key: T -> string, weight: T -> int, k: string)
    ensures k in Keys(Group(xs, key, weight)) <==> Carries(xs, key, k)
  {
    if xs != [] {
      var init := xs[..|xs| - 1];
      GroupKeys(init, key, weight, k);
      GroupKeysLast(xs, key, weight, k);
      SomeKeyLast(xs, key, k);
    }
  }

  lemma GroupKeysLast<T>(xs: seq<T>, key: T -> string, weight: T -> int, k: string)
    requires xs != []
    ensures k in Keys(Group(xs, key, weight)) <==>
      k in Keys(Group(xs[..|xs| - 1], key, weight)) || k == key(xs[|xs| - 1])
  {
  }

  lemma SomeKeyLast<T>(xs: seq<T>, key: T -> string, k: string)
    requires xs != []
    ensures Carries(xs, key, k) <==> Carries(xs[..|xs| - 1], key, k) || key(xs[|xs| - 1]) == k
  {
    assert forall i :: 0 <= i < |xs| - 1 ==> xs[..|xs| - 1][i] == xs[i];
  }

  /** Each entry of a grouping holds the total weight of exactly the
      elements that carry its key. */
  lemma GroupEntries<T>(xs: seq<T>, key: T -> string, weight: T -> int)
    ensures var g := Group(xs, key, weight);
      forall i :: 0 <= i < |g| ==> g[i].1 == Seqs.Sum(Seqs.Select(xs, key, g[i].0, true), weight)
  {
    var g := Group(xs, key, weight);
    forall i | 0 <= i < |g|
      ensures g[i].1 == Seqs.Sum(Seqs.Select(xs, key, g[i].0, true), weight)
    {
      LookupAt(g, i);
      GroupLookup(xs, key, weight, g[i].0);
    }
  }

  /** Key `a` is carried by an element that comes before every element
      carrying key `b`. */
  ghost predicate SeenBefore<T>(xs: seq<T>, key: T -> string, a: string, b: string) {
    exists p :: 0 <= p < |xs| && key(xs[p]) == a && !Carries(xs[..p], key, b)
  }

  /** Of two listed keys, the earlier one is carried first. */
  ghost predicate InFirstSeenOrder<T>(xs: seq<T>, key: T -> string, ks: seq<string>) {
    forall i, j :: 0 <= i < j < |ks| ==> SeenBefore(xs, key, ks[i], ks[j])
  }

  /** The keys come out in the order the elements first carry them. */
  lemma {:induction false} GroupKeysFirstSeen<T>(xs: seq<T>, key: T -> string, weight: T -> int)
    ensures InFirstSeenOrder(xs, key, Keys(Group(xs, key, weight)))
  {
    if xs != [] {
      GroupKeysFirstSeen(xs[..|xs| - 1], key, weight);
      FirstSeenSnoc(xs, key, weight);
    }
  }

  /** One more element keeps the keys in first-seen order. */
  lemma FirstSeenSnoc<T>(xs: seq<T>, key: T -> string, weight: T -> int)
    requires xs != []
    requires InFirstSeenOrder(xs[..|xs| - 1], key, Keys(Group(xs[..|xs| - 1], key, weight)))
    ensures InFirstSeenOrder(xs, key, Keys(Group(xs, key, weight)))
  {
    var init := xs[..|xs| - 1];
    var k := key(xs[|xs| - 1]);
    var ks0 := Keys(Group(init, key, weight));
    FirstSeenExtend(xs, key, ks0);
    if k !in ks0 {
      forall i | 0 <= i < |ks0| ensures SeenBefore(xs, key, ks0[i], k) {
        FirstSeenBeforeNewKey(xs, key, weight, ks0[i]);
      }
      FirstSeenAppendKey(xs, key, ks0, k);
    }
  }

  /** Keys in first-seen order stay so when the list grows at the end. */
  lemma FirstSeenExtend<T>(xs: seq<T>, key: T -> string, ks: seq<string>)
    requires xs != [] && InFirstSeenOrder(xs[..|xs| - 1], key, ks)
    ensures InFirstSeenOrder(xs, key, ks)
  {
    forall i, j | 0 <= i < j < |ks| ensures SeenBefore(xs, key, ks[i], ks[j]) {
      SeenBeforeExtend(xs, key, ks[i], ks[j]);
    }
  }

  /** A key seen after all listed ones can be listed last. */
  lemma FirstSeenAppendKey<T>(xs: seq<T>, key: T -> string, ks: seq<string>, k: string)
    requires InFirstSeenOrder(xs, key, ks)
    requires forall i :: 0 <= i < |ks| ==> SeenBefore(xs, key, ks[i], k)
    ensures InFirstSeenOrder(xs, key, ks + [k])
  {
    var ks' := ks + [k];
    forall i, j | 0 <= i < j < |ks'| ensures SeenBefore(xs, key, ks'[i], ks'[j]) {
      if j < |ks| {
        assert ks'[i] == ks[i] && ks'[j] == ks[j];
      } else {
        assert ks'[i] == ks[i] && ks'[j] == k;
      }
    }
  }

  /** What holds of a list holds of it with one more element at the end. */
  lemma SeenBeforeExtend<T>(xs: seq<T>, key: T -> string, a: string, b: string)
    requires xs != [] && SeenBefore(xs[..|xs| - 1], key, a, b)
    ensures SeenBefore(xs, key, a, b)
  {
    var init := xs[..|xs| - 1];
    var p :| 0 <= p < |init| && key(init[p]) == a && !Carries(init[..p], key, b);
    assert init[..p] == xs[..p];
    assert key(xs[p]) == a;
  }

  /** A key already listed before the last element, when that element brings
      a new key, is carried before the new key. */
  lemma FirstSeenBeforeNewKey<T>(xs: seq<T>, key: T -> string, weight: T -> int, c: string)
    requires xs != []
    requires c in Keys(Group(xs[..|xs| - 1], key, weight))
    requires key(xs[|xs| - 1]) !in Keys(Group(xs[..|xs| - 1], key, weight))
    ensures SeenBefore(xs, key, c, key(xs[|xs| - 1]))
  {
    var init := xs[..|xs| - 1];
    var k := key(xs[|xs| - 1]);
    GroupKeys(init, key, weight, c);
    GroupKeys(init, key, weight, k);
    var p :| 0 <= p < |init| && key(init[p]) == c;
    assert key(xs[p]) == c;
    assert forall q :: 0 <= q < p ==> xs[..p][q] == init[q];
  }

  /** With distinct keys, the entry at position i is what `Lookup` finds. */
  lemma {:induction false} LookupAt(acc: Counts, i: nat)
    requires Seqs.Distinct(Keys(acc)) && i < |acc|
    ensures Lookup(acc, acc[i].0) == acc[i].1
  {
    if i > 0 {
      assert Keys(acc[1..]) == Keys(acc)[1..];
      assert acc[0].0 != acc[i].0 by {
        assert Keys(acc)[0] != Keys(acc)[i];
      }
      LookupAt(acc[1..], i - 1);
    }
  }
}

=== FILE: tasks_service.dfy ===
/** The tasks service: the generic store with whole-record updates. */
module TasksService {
  import opened Wrappers
  import opened Store
  import opened Hotel

  const Entity := "Task"

  function GetById(s: seq<Rec<Task>>, id: int): (r: Result<Rec<Task>, StoreError>)
    ensures r.Ok? <==> HasId(s, id)
    ensures r.Ok? ==> r.value.id == id && r.value in s
    ensures r.Err? ==> r.error == NotFound(Entity, id)
  {
    Store.GetById(s, Entity, id)
  }

  /** `create`: the caller's fields under the Id one above the largest
      stored, appended. */
  function Create(s: seq<Rec<Task>>, fields: Rec<Task>): (r: (seq<Rec<Task>>, Rec<Task>))
    requires |s| > 0
    ensures HasId(s, r.1.id - 1) && forall k :: 0 <= k < |s| ==> s[k].id < r.1.id
    ensures !HasId(s, r.1.id) && r.1.body == fields.body
    ensures r.0 == s + [r.1]
    ensures UniqueIds(s) ==> UniqueIds(r.0)
  {
    Store.Create(s, fields)
  }

  /** `update`: the whole record is replaced, with the Id forced. */
  function Update(s: seq<Rec<Task>>, id: int, fields: Rec<Task>): (r: Result<(seq<Rec<Task>>, Rec<Task>), StoreError>)
    ensures r.Ok? <==> HasId(s, id)
    ensures r.Err? ==> r.error == NotFound(Entity, id)
    ensures r.Ok? ==> r.value.1 == Rec(id, fields.body)
    ensures r.Ok? && UniqueIds(s) ==> UniqueIds(r.value.0) && |r.value.0| == |s|
    ensures r.Ok? && UniqueIds(s) ==>
      forall k :: 0 <= k < |s| ==> r.value.0[k] == (if s[k].id == id then r.value.1 else s[k])
  {
    Store.Update(s, Entity, id, fields)
  }

  /** `delete`: exactly the record with the Id is removed. */
  function Delete(s: seq<Rec<Task>>, id: int): (r: Result<seq<Rec<Task>>, StoreError>)
    ensures r.Ok? <==> HasId(s, id)
    ensures r.Err? ==> r.error == NotFound(Entity, id)
    ensures r.Ok? ==> exists k :: 0 <= k < |s| && s[k].id == id && r.value == s[..k] + s[k + 1..]
    ensures r.Ok? && UniqueIds(s) ==> UniqueIds(r.value) && !HasId(r.value, id)
  {
    Store.Delete(s, Entity, id)
  }
}

=== FILE: text.dfy ===
/** The string operations the application relies on, with the JavaScript
    meaning they have in the browser: `trim`, the `\s` and `\D` regular
    expression classes, `toLowerCase`, `includes`, `String(n)`, `padStart`
    and `parseInt`. Strings are sequences of characters. */
module Text {
  import opened Wrappers

  /** JavaScript's white space and line terminators: the set matched by `\s`
      and removed by `trim()`. */
  predicate IsSpace(c: char) {
    || c == '\t' || c == '\n' || c == '\U{000B}' || c == '\U{000C}' || c == '\r' || c == ' '
    || c == '\U{00A0}' || c == '\U{1680}' || ('\U{2000}' <= c <= '\U{200A}')
    || c == '\U{2028}' || c == '\U{2029}' || c == '\U{202F}' || c == '\U{205F}'
    || c == '\U{3000}' || c == '\U{FEFF}'
  }

  /** The ASCII digits matched by `\d`; everything else matches `\D`. */
  predicate IsDigit(c: char) {
    '0' <= c <= '9'
  }

  predicate Blank(s: string) {
    forall k :: 0 <= k < |s| ==> IsSpace(s[k])
  }

  predicate NoSpace(s: string) {
    forall k :: 0 <= k < |s| ==> !IsSpace(s[k])
  }

  predicate AllDigits(s: string) {
    forall k :: 0 <= k < |s| ==> IsDigit(s[k])
  }

  /** A character of the Basic Multilingual Plane: one UTF-16 code unit. */
  predicate InBmp(c: char) {
    c as int < 0x1_0000
  }

  /** A JavaScript string's `length`: the number of UTF-16 code units, one
      for a character of the Basic Multilingual Plane and two (a surrogate
      pair) for any other. */
  function Utf16Length(s: string): (n: nat)
    ensures |s| <= n <= 2 * |s|
    ensures n == |s| <==> forall k :: 0 <= k < |s| ==> InBmp(s[k])
  {
    if s == [] then 0
    else
      var n := Utf16Length(s[1..]) + (if InBmp(s[0]) then 1 else 2);
      assert forall k :: 1 <= k < |s| ==> s[k] == s[1..][k - 1];
      n
  }

  /** The code units of a concatenation are those of its parts. */
  lemma {:induction false} Utf16LengthAppend(a: string, b: string)
    ensures Utf16Length(a + b) == Utf16Length(a) + Utf16Length(b)
  {
    if a != [] {
      assert (a + b)[0] == a[0] && (a + b)[1..] == a[1..] + b;
      Utf16LengthAppend(a[1..], b);
    } else {
      assert a + b == b;
    }
  }

  /** Drops leading white space: what remains is a suffix that starts with a
      non-space character, and every dropped character was white space. */
  function TrimStart(s: string): (r: string)
    ensures |r| <= |s| && r == s[|s| - |r|..]
    ensures forall k :: 0 <= k < |s| - |r| ==> IsSpace(s[k])
    ensures r == [] || !IsSpace(r[0])
  {
    if |s| > 0 && IsSpace(s[0]) then TrimStart(s[1..]) else s
  }

  /** Drops trailing white space: what remains is a prefix that ends with a
      non-space character, and every dropped character was white space. */
  function TrimEnd(s: string): (r: string)
    ensures |r| <= |s| && r == s[..|r|]
    ensures forall k :: |r| <= k < |s| ==> IsSpace(s[k])
    ensures r == [] || !IsSpace(r[|r| - 1])
  {
    if |s| > 0 && IsSpace(s[|s| - 1]) then TrimEnd(s[..|s| - 1]) else s
  }

  /** `s.trim()` */
  function Trim(s: string): string {
    TrimEnd(TrimStart(s))
  }

  /** `!s.trim()` holds exactly when every character of `s` is white space. */
  lemma TrimEmptyIffBlank(s: string)
    ensures Trim(s) == [] <==> Blank(s)
  {
    if Blank(s) {
      BlankTrimStart(s);
    }
  }

  lemma {:induction false} BlankTrimStart(s: string)
    requires Blank(s)
    ensures TrimStart(s) == []
  {
    if s != [] {
      BlankTrimStart(s[1..]);
    }
  }

  /** Trimming a string without white space leaves it unchanged. */
  lemma TrimNoSpace(s: string)
    requires NoSpace(s)
    ensures Trim(s) == s
  {
    if |s| > 0 {
      assert !IsSpace(s[0]);
      assert !IsSpace(s[|s| - 1]);
    }
  }

  /** `s.replace(/\s/g, '')` */
  function StripSpaces(s: string): (r: string)
    ensures NoSpace(r) && |r| <= |s|
  {
    if s == [] then []
    else (if IsSpace(s[0]) then [] else [s[0]]) + StripSpaces(s[1..])
  }

  lemma {:induction false} StripSpacesAppend(a: string, b: string)
    ensures StripSpaces(a + b) == StripSpaces(a) + StripSpaces(b)
  {
    if a == [] {
      assert a + b == b;
    } else {
      var head := if IsSpace(a[0]) then [] else [a[0]];
      assert (a + b)[0] == a[0] && (a + b)[1..] == a[1..] + b;
      StripSpacesAppend(a[1..], b);
      assert StripSpaces(a + b) == head + (StripSpaces(a[1..]) + StripSpaces(b));
      assert StripSpaces(a) == head + StripSpaces(a[1..]);
    }
  }

  /** Removing white space from a string that has none changes nothing. */
  lemma {:induction false} StripSpacesNoSpace(s: string)
    requires NoSpace(s)
    ensures StripSpaces(s) == s
  {
    if s != [] {
      StripSpacesNoSpace(s[1..]);
    }
  }

  /** `s.replace(/\D/g, '')` */
  function KeepDigits(s: string): (r: string)
    ensures AllDigits(r) && |r| <= |s|
  {
    if s == [] then []
    else (if IsDigit(s[0]) then [s[0]] else []) + KeepDigits(s[1..])
  }

  lemma {:induction false} KeepDigitsAppend(a: string, b: string)
    ensures KeepDigits(a + b) == KeepDigits(a) + KeepDigits(b)
  {
    if a == [] {
      assert a + b == b;
    } else {
      var head := if IsDigit(a[0]) then [a[0]] else [];
      assert (a + b)[0] == a[0] && (a + b)[1..] == a[1..] + b;
      KeepDigitsAppend(a[1..], b);
      assert KeepDigits(a + b) == head + (KeepDigits(a[1..]) + KeepDigits(b));
      assert KeepDigits(a) == head + KeepDigits(a[1..]);
    }
  }

  lemma {:induction false} KeepDigitsOfDigits(s: string)
    requires AllDigits(s)
    ensures KeepDigits(s) == s
  {
    if s != [] {
      KeepDigitsOfDigits(s[1..]);
    }
  }

  /** `toLowerCase` on one character; only the ASCII letters are mapped. */
  function LowerChar(c: char): char {
    if 'A' <= c <= 'Z' then (c as int + 32) as char else c
  }

  /** `s.toLowerCase()` */
  function Lower(s: string): (r: string)
    ensures |r| == |s|
    ensures forall k :: 0 <= k < |s| ==> r[k] == LowerChar(s[k])
  {
    if s == [] then [] else [LowerChar(s[0])] + Lower(s[1..])
  }

  /** `hay.includes(needle)`, computed by trying every start position. */
  function Contains(hay: string, needle: string): bool
    decreases |hay|
  {
    needle <= hay || (|hay| > 0 && Contains(hay[1..], needle))
  }

  /** Reference meaning of `includes`: the needle occurs at some position. */
  ghost predicate OccursAt(hay: string, needle: string, i: int) {
    0 <= i && i + |needle| <= |hay| && hay[i..i + |needle|] == needle
  }

  lemma {:induction false} ContainsIffOccurs(hay: string, needle: string)
    ensures Contains(hay, needle) <==> exists i :: OccursAt(hay, needle, i)
    decreases |hay|
  {
    if needle <= hay {
      assert hay[0..|needle|] == needle;
      assert OccursAt(hay, needle, 0);
    } else if |hay| > 0 {
      ContainsIffOccurs(hay[1..], needle);
      if Contains(hay[1..], needle) {
        var i :| OccursAt(hay[1..], needle, i);
        assert hay[1..][i..i + |needle|] == hay[i + 1..i + 1 + |needle|];
        assert OccursAt(hay, needle, i + 1);
      }
      assert OccursAt(hay, needle, 0) ==> needle <= hay;
      if exists i :: OccursAt(hay, needle, i) {
        var i :| OccursAt(hay, needle, i);
        assert hay[1..][i - 1..i - 1 + |needle|] == hay[i..i + |needle|];
        assert OccursAt(hay[1..], needle, i - 1);
      }
    }
  }

  /** Every string includes the empty string. */
  lemma ContainsEmpty(hay: string)
    ensures Contains(hay, [])
  {
  }

  function DigitChar(d: int): (c: char)
    requires 0 <= d < 10
    ensures IsDigit(c)
  {
    ('0' as int + d) as char
  }

  function DigitValue(c: char): (d: int)
    requires IsDigit(c)
    ensures 0 <= d < 10
  {
    c as int - '0' as int
  }

  /** The value of a string of decimal digits (leading zeros allowed). */
  function DecimalValue(s: string): (v: nat)
    requires AllDigits(s)
  {
    if s == [] then 0 else DecimalValue(s[..|s| - 1]) * 10 + DigitValue(s[|s| - 1])
  }

  /** `String(n)` for a non-negative integer: its decimal digits, without
      leading zeros. */
  function NatToDecimal(n: nat): (r: string)
    ensures AllDigits(r) && |r| >= 1
    ensures |r| > 1 ==> r[0] != '0'
  {
    if n < 10 then [DigitChar(n)] else NatToDecimal(n / 10) + [DigitChar(n % 10)]
  }

  /** `String(n)` for any integer: a minus sign before the digits of a
      negative number. */
  function IntToDecimal(n: int): (r: string)
    ensures n >= 0 ==> r == NatToDecimal(n)
    ensures n < 0 ==> r == "-" + NatToDecimal(-n)
  {
    if n >= 0 then NatToDecimal(n) else "-" + NatToDecimal(-n)
  }

  /** Reading back the digits of `String(n)` gives `n`. */
  lemma {:induction false} DecimalRoundTrip(n: nat)
    ensures DecimalValue(NatToDecimal(n)) == n
  {
    var r := NatToDecimal(n);
    if n >= 10 {
      DecimalRoundTrip(n / 10);
      assert r[..|r| - 1] == NatToDecimal(n / 10);
    }
  }

  /** Leading zeros do not change the value of a digit string. */
  lemma {:induction false} LeadingZeros(z: nat, s: string)
    requires AllDigits(s)
    ensures AllDigits(Repeat('0', z) + s)
    ensures DecimalValue(Repeat('0', z) + s) == DecimalValue(s)
    decreases z, |s|
  {
    var t := Repeat('0', z) + s;
    assert forall k :: 0 <= k < |t| ==> IsDigit(t[k]) by {
      forall k | 0 <= k < |t| ensures IsDigit(t[k]) {
        if k < z { assert t[k] == '0'; } else { assert t[k] == s[k - z]; }
      }
    }
    if s == [] {
      if z > 0 {
        assert t == Repeat('0', z - 1) + ['0'];
        assert t[..|t| - 1] == Repeat('0', z - 1) + [];
        LeadingZeros(z - 1, []);
      }
    } else {
      assert t[..|t| - 1] == Repeat('0', z) + s[..|s| - 1];
      LeadingZeros(z, s[..|s| - 1]);
    }
  }

  function Repeat(c: char, n: nat): (r: string)
    ensures |r| == n
    ensures forall k :: 0 <= k < n ==> r[k] == c
  {
    if n == 0 then [] else Repeat(c, n - 1) + [c]
  }

  /** `s.padStart(width, c)` */
  function PadStart(s: string, width: nat, c: char): (r: string)
    ensures |r| == if |s| >= width then |s| else width
    ensures s <= r[|r| - |s|..] && r[|r| - |s|..] == s
    ensures forall k :: 0 <= k < |r| - |s| ==> r[k] == c
  {
    if |s| >= width then s else Repeat(c, width - |s|) + s
  }

  /** The longest prefix of `s` made of digits. */
  function DigitPrefix(s: string): (r: string)
    ensures AllDigits(r) && r <= s
    ensures |r| < |s| ==> !IsDigit(s[|r|])
  {
    if s != [] && IsDigit(s[0]) then [s[0]] + DigitPrefix(s[1..]) else []
  }

  /** `parseInt(s)` with the default radix: leading white space is skipped,
      an optional sign is read, then the longest run of decimal digits; no
      digits gives NaN, written None here. */
  function ParseInt(s: string): Option<int> {
    if s != [] && IsSpace(s[0]) then ParseInt(s[1..]) else ParseSigned(s)
  }

  /** An optional sign, then digits. */
  function ParseSigned(t: string): Option<int> {
    if t != [] && t[0] == '-' then
      match ParseDigits(t[1..])
      case Some(v) => Some(0 - v)
      case None => None
    else if t != [] && t[0] == '+' then ParseDigits(t[1..])
    else ParseDigits(t)
  }

  /** Skipping white space one character at a time is `trimStart`. */
  lemma {:induction false} ParseIntSkipsSpace(s: string)
    ensures ParseInt(s) == ParseSigned(TrimStart(s))
  {
    if s != [] && IsSpace(s[0]) {
      ParseIntSkipsSpace(s[1..]);
    }
  }

  /** The value of the longest run of leading digits, if there is one. */
  function ParseDigits(u: string): Option<int> {
    var d := DigitPrefix(u);
    if d == [] then None else Some(DecimalValue(d))
  }

  lemma {:induction false} DigitPrefixOfDigits(s: string)
    requires AllDigits(s)
    ensures DigitPrefix(s) == s
  {
    if s != [] {
      DigitPrefixOfDigits(s[1..]);
    }
  }

  /** `parseInt` reads a non-empty digit string as its decimal value. */
  lemma ParseIntOfDigits(s: string)
    requires AllDigits(s) && s != []
    ensures ParseInt(s) == Some(DecimalValue(s))
  {
    assert !IsSpace(s[0]) && s[0] != '-' && s[0] != '+';
    DigitPrefixOfDigits(s);
  }

  // ---------------------------------------------------------------------
  // Searching

  /** The first position of `c` in `s`. */
  function Find(s: string, c: char): (r: Option<nat>)
    ensures r.Some? ==> r.value < |s| && s[r.value] == c && c !in s[..r.value]
    ensures r.None? <==> c !in s
  {
    if s == [] then None
    else if s[0] == c then Some(0)
    else match Find(s[1..], c)
      case None => None
      case Some(k) => assert s[..k + 1] == [s[0]] + s[1..][..k]; Some(k + 1)
  }

  /** The first occurrence is where `Find` stops. */
  lemma {:induction false} FindAt(s: string, c: char, i: nat)
    requires i < |s| && s[i] == c && c !in s[..i]
    ensures Find(s, c) == Some(i)
  {
    if i > 0 {
      assert s[0] == s[..i][0];
      assert s[1..][..i - 1] == s[..i][1..];
      FindAt(s[1..], c, i - 1);
    }
  }
}

=== FILE: wrappers.dfy ===
/** Option and Result, the failure-carrying values used throughout the model
    in place of JavaScript's `undefined`/`null` and thrown errors. */
module Wrappers {

  datatype Option<+T> = None | Some(value: T) {

    /** Returns the value in Some, or the given default (JavaScript's `x || d`
        when `x` is either absent or present). */
    function GetOr(default: T): T {
      match this
      case Some(v) => v
      case None => default
    }
  }

  /** The outcome of a service call: a value, or the error the call throws. */
  datatype Result<+T, +E> = Ok(value: T) | Err(error: E) {

    predicate IsFailure() {
      Err?
    }

    function PropagateFailure<U>(): Result<U, E>
      requires Err?
    {
      Err(error)
    }

    function Extract(): T
      requires Ok?
    {
      value
    }
  }
}
